=== FILE: README.md ===
# Vietnamese travel booking front end — a Dafny model

This project models the business rules of a travel-booking web front end. The
front end comes as two app trees. The Next.js tree holds the mock services
under `lib/`, the dialogs under `components/` and the session provider under
`contexts/`. The Vite tree under `src/` holds the storage service, the toast
queue, the route table and the pure helpers.

The services are mocks, so every rule becomes deterministic once three things
are inputs: the wall clock, the random draws, and whether an awaited call
rejected. In the model these are explicit parameters (`now`, `draw`/`draws`,
`randomText`, `serviceThrows`/`fetchThrows`/`throws`). The artificial
`setTimeout` delays are dropped.

The modules follow the source files:

- Services, as pure functions with lemmas:
  - `AiService`: itinerary synthesis;
  - `BookingService`: the catalogue, booking creation and the canned bookings;
  - `PaymentService`: the method table and the gateway outcome;
  - `NotificationService`: notification records, templates and preferences;
  - `LibAuth` and `AppAuth`: the two trees' sign-in.
- Helpers, as pure functions:
  - `Helpers`: the Vite tree's formatting and validation helpers;
  - `Carousel`: the slide index.
- Components, as classes whose handlers update their fields:
  - `BookingForm`, `BookingList`, `PaymentForm`, `NotificationCenter` and `ItineraryGenerator`: the dialogs;
  - `Toasts`: the toast queue;
  - `Storage`: the storage service;
  - `AuthContext`: the session provider;
  - `UserMenu`: the account menu.
- Route table: `AppRoutes`, as pure decision functions.
- Shared modules with no counterpart file:
  - `Wrappers` (`Option`);
  - `Text` (decimal rendering, white space, trimming);
  - `Seqs` (filter, subsequence, find).

Each handler's `ensures` gives its whole new state, through `old(...)` and the
specification functions of its module. The lemmas beside those functions
state what the source promises about them.

## Model

| member | source | states |
|---|---|---|
| AiService.Templates | lib/ai-service.ts:109-159 | three templates with positive cost; every destination except "Sapa" gets the Hạ Long templates |
| AiService.TemplatesFallback | lib/ai-service.ts:158-159 | a destination gets the Hạ Long templates exactly when it is not "Sapa" |
| AiService.ScaleCost | lib/ai-service.ts:171-173 | the cost is the floor of base × 0.7 (budget), × 1 (comfort) or × 1.5 (luxury) |
| AiService.ScaleCostMonotone | lib/ai-service.ts:171-173 | for a non-negative base: 0 ≤ budget cost ≤ comfort cost ≤ luxury cost |
| AiService.AccommodationFor | lib/ai-service.ts:183-191 | price 500000 / 1000000 / 2500000 for budget / comfort / luxury; a resort only for luxury |
| AiService.ActivityCount | lib/ai-service.ts:162 | a day has two or three activities |
| AiService.ActivityId | lib/ai-service.ts:166 | the id `day-index` has at least three characters |
| AiService.MakeActivity | lib/ai-service.ts:164-177 | the template's name, description, location and category; the style-scaled cost; the id `day-index`; the time slot of the index; a rating in [4.5, 5) for a draw in [0, 1) |
| AiService.PlannedActivities | lib/ai-service.ts:158-178 | day 1 has 2 activities and later days 3, taken in template order |
| AiService.GenerateActivities | lib/ai-service.ts:107-181 | the loop pushes exactly the planned activities |
| AiService.ActivityCostsMonotone | lib/ai-service.ts:171-173 | a day's activities cost no more under budget than comfort, nor under comfort than luxury |
| AiService.NightFor | lib/ai-service.ts:93 | an accommodation exactly on the days before the last, and it is the style's tier |
| AiService.PlannedDay | lib/ai-service.ts:95-101 | day number; date `now + (day−1)` days; activities; accommodation; total cost = activity costs + accommodation price (0 without one) |
| AiService.DayCount | lib/ai-service.ts:91 | `duration` days, and none for a duration ≤ 0 |
| AiService.PlannedDays | lib/ai-service.ts:88-105 | day j of the plan is day j+1 as planned |
| AiService.GenerateDays | lib/ai-service.ts:88-105 | the loop pushes exactly the planned days |
| AiService.PlanShape | lib/ai-service.ts:91-103 | days are numbered 1..duration in order; 2 activities on day 1 and 3 on later days; a stay on every day but the last; no days for duration ≤ 0 |
| AiService.ActivityIdsUnique | lib/ai-service.ts:91-166 | no two activities of a plan share an id |
| AiService.ActivityIdInjective | lib/ai-service.ts:166 | for single-digit indices, two ids `day-index` are equal exactly when their days and indices are |
| AiService.PlannedActivityId | lib/ai-service.ts:91-166 | the activity at position k of the plan's day j + 1 has id `(j+1)-k`, and k is below three |
| AiService.EstimatedCost | lib/ai-service.ts:67 | the floor of budget × 0.85, which lies between 0 and the budget for a non-negative budget |
| AiService.Highlights | lib/ai-service.ts:69-74 | four highlights: the joined interests at the destination, the budget text in đồng, the group size in people, and the style's name |
| AiService.StyleLabelsDistinct | lib/ai-service.ts:73 | the three style names are different |
| AiService.HighlightsTellGroupAndStyle | lib/ai-service.ts:69-74 | equal highlights for the same budget text mean the same group size and the same travel style |
| AiService.Tips | lib/ai-service.ts:75-80 | four tips |
| AiService.GenerateItinerary | lib/ai-service.ts:56-86 | clock id and creation time; title "Khám phá ⟨destination⟩ ⟨duration⟩ ngày"; preferences echoed; the estimate within the budget; the planned days |
| AiService.GetUserItineraries | lib/ai-service.ts:194-224 | two saved itineraries of the requested user, without days, each estimate within its budget |
| AiService.SavedEstimates | lib/ai-service.ts:194-224 | the Sapa entry's estimate is what generation gives for its budget; the Hạ Long entry's is 50000 below that |
| AiService.SaveItinerary | lib/ai-service.ts:226-230 | always acknowledged |
| BookingService.StatusNameInjective | lib/booking-service.ts:2 | distinct statuses have distinct wire names |
| BookingService.MockServices | lib/booking-service.ts:64-113 | the catalogue has two services: "1" at 2500000 and "2" at 3200000 |
| BookingService.GetServices | lib/booking-service.ts:116-119 | the whole catalogue, in which each entry is found again by its id |
| BookingService.GetServiceById | lib/booking-service.ts:122-125 | the catalogue entry with the id, or none exactly when no entry has it |
| BookingService.MockServiceIdsDistinct | lib/booking-service.ts:66-90 | catalogue ids are distinct |
| BookingService.GetServiceByIdKnown | lib/booking-service.ts:64-125 | found exactly for "1" and "2", priced 2500000 and 3200000 |
| BookingService.BookingNumber | lib/booking-service.ts:134 | "VT" followed by digits, 3 to 8 characters |
| BookingService.BookingNumberDigits | lib/booking-service.ts:134 | from six digits on, "VT" and the last six digits of the timestamp |
| BookingService.CreateBooking | lib/booking-service.ts:128-142 | the request copied unchanged; status and payment status pending; no cancellation reason; clock id, number and times |
| BookingService.GetCustomerBookings | lib/booking-service.ts:145-190 | two bookings, both carrying the requested customer id |
| BookingService.GetProviderBookings | lib/booking-service.ts:193-238 | two bookings |
| BookingService.CustomerBookingsPriced | lib/booking-service.ts:160-183 | each amount is the catalogue price × party size (2500000×2, 3200000×2) |
| BookingService.ProviderBookingsPriced | lib/booking-service.ts:208-231 | each amount is the catalogue price × party size (2500000×2, 2500000×4) |
| BookingService.UpdateBookingStatus | lib/booking-service.ts:241-249 | always acknowledged |
| BookingService.CancelBooking | lib/booking-service.ts:252-256 | always acknowledged |
| PaymentService.MethodTypeName | lib/payment-service.ts:2 | one of the four method wire names |
| PaymentService.PaymentMethods | lib/payment-service.ts:49-86 | four methods |
| PaymentService.Fee | lib/payment-service.ts:49-86 | every fee lies between 0 and 2.5 percent |
| PaymentService.PaymentMethodsTable | lib/payment-service.ts:49-86 | each id is its type name; all are available; each fee is its type's fee; every type is listed |
| PaymentService.AuthCode | lib/payment-service.ts:114 | "AUTH" followed by up to six characters, none a lower-case letter, and six of them for a random text of at least eight |
| PaymentService.ProcessPayment | lib/payment-service.ts:89-126 | booking, amount, currency and method echoed; "TXN" transaction id; settled; completed exactly when the draw exceeds 0.1, with completion time, code "00" and an auth code; otherwise failed with a reason and code "05" |
| PaymentService.SettledIsFinal | lib/payment-service.ts:99-123 | a returned payment is never pending, processing or refunded, and has a failure reason exactly when it failed |
| PaymentService.GetPaymentHistory | lib/payment-service.ts:129-163 | one settled completed payment and one pending one |
| PaymentService.RefundPayment | lib/payment-service.ts:166-170 | always acknowledged |
| NotificationService.CreateNotification | lib/notification-service.ts:34-58 | unread without a read time; user, type, title, message, link and metadata copied; clock id and time |
| NotificationService.SendBookingConfirmation | lib/notification-service.ts:149-158 | type booking, link "/bookings/"+id, metadata {bookingId} |
| NotificationService.SendPaymentConfirmation | lib/notification-service.ts:161-175 | type payment, link "/payments/"+id, metadata {paymentId, amount} |
| NotificationService.SendPaymentReminder | lib/notification-service.ts:178-187 | type reminder, link "/bookings/"+id, metadata {bookingId, amount} |
| NotificationService.TemplatesPointApart | lib/notification-service.ts:149-175 | a booking confirmation and a payment confirmation never link to the same place |
| NotificationService.GetUserNotifications | lib/notification-service.ts:61-112 | four notifications of the requested user; a read time exactly on the read ones |
| NotificationService.GetNotificationPreferences | lib/notification-service.ts:127-140 | the user echoed; every switch on except promotional offers |
| NotificationService.MarkNotificationAsRead | lib/notification-service.ts:115-118 | always acknowledged |
| NotificationService.MarkAllNotificationsAsRead | lib/notification-service.ts:121-124 | always acknowledged |
| NotificationService.UpdateNotificationPreferences | lib/notification-service.ts:143-146 | always acknowledged |
| Storage.Lookup | src/services/storage.ts:13-21 | a missing key reads as null, a present one as its value |
| Storage.ListAt | src/services/storage.ts:71-73 | a stored list, or [] when the key holds none |
| Storage.LookupFrame | src/services/storage.ts:4-29 | a write is read back; writing or removing one key leaves the others; a removed key reads as null |
| Storage.MoveToFront | src/services/storage.ts:67 | the term first and nowhere else; at most `cap` entries; the rest are the leading entries of the old list without the term, in order, so a full list loses its oldest entries; the length is the capped count |
| Storage.MoveToFrontKeepsOrder | src/services/storage.ts:67 | the other entries keep their relative order |
| Storage.MoveToFrontDropsOnlyOverflow | src/services/storage.ts:67 | an old entry is dropped only when the list is full |
| Storage.MoveToFrontIdempotent | src/services/storage.ts:67 | adding the same term twice equals adding it once |
| Storage.MoveToFrontNoDuplicates | src/services/storage.ts:67 | no duplicates are introduced |
| Storage.MoveToFrontAlreadyFirst | src/services/storage.ts:67 | adding the first entry of a duplicate-free, in-bounds list changes nothing |
| Storage.AddFavoriteTo | src/services/storage.ts:80-85 | unchanged when present, otherwise appended at the end |
| Storage.AddFavoriteNoDuplicates | src/services/storage.ts:80-85 | favourites never gain a duplicate |
| Storage.RemoveFavoriteSpec | src/services/storage.ts:87-93 | every occurrence goes; the others stay, in order; no duplicates are introduced |
| Storage.StorageService.constructor | src/services/storage.ts:119 | the service over the given store |
| Storage.StorageService.SetItem | src/services/storage.ts:4-11 | the key now holds the value |
| Storage.StorageService.RemoveItem | src/services/storage.ts:23-29 | the key is gone |
| Storage.StorageService.Clear | src/services/storage.ts:31-37 | the store is empty, and every list reads as [] |
| Storage.StorageService.SetAuthToken | src/services/storage.ts:40-46 | the token is stored and read back |
| Storage.StorageService.RemoveAuthToken | src/services/storage.ts:48-50 | the token reads as null |
| Storage.StorageService.SetUser | src/services/storage.ts:52-58 | the user is stored and read back |
| Storage.StorageService.RemoveUser | src/services/storage.ts:60-62 | the user reads as null |
| Storage.StorageService.AddSearchHistory | src/services/storage.ts:65-69 | the history becomes the old one with the term moved to the front, capped at 10 |
| Storage.StorageService.ClearSearchHistory | src/services/storage.ts:75-77 | the history reads as [] |
| Storage.StorageService.IsFavorite | src/services/storage.ts:99-101 | true exactly when the id is among the favourites |
| Storage.StorageService.AddFavorite | src/services/storage.ts:80-85 | nothing is written when present, otherwise the id is appended; afterwards it is a favourite |
| Storage.StorageService.RemoveFavorite | src/services/storage.ts:87-93 | the favourites without the id, which is then not a favourite |
| Storage.StorageService.AddRecentlyViewed | src/services/storage.ts:104-108 | the id moved to the front, capped at 20 |
| Storage.StorageService.ClearRecentlyViewed | src/services/storage.ts:114-116 | the list reads as [] |
| Helpers.FormatDuration | src/utils/helpers.ts:21-25 | "1 ngày" for 1; otherwise "n ngày (n−1) đêm", which gives "2 ngày 1 đêm" for 2 |
| Helpers.FormatDurationInjective | src/utils/helpers.ts:21-25 | different durations are worded differently |
| Helpers.TruncateText | src/utils/helpers.ts:43-46 | the text itself when it fits; otherwise the trimmed prefix of `maxLength` characters followed by "..." |
| Helpers.Round | src/utils/helpers.ts:28 | the nearest integer, halves rounded up |
| Helpers.CalculateDiscountPercentage | src/utils/helpers.ts:27-29 | no number for a zero original price; otherwise the rounded percentage saved |
| Helpers.DiscountPercentageRange | src/utils/helpers.ts:27-29 | between 0 and 100; 0 for equal prices; positive exactly when the saving is at least half a percent |
| Helpers.RemoveMarks | src/utils/helpers.ts:35 | no combining mark is left, nothing is added, and every other character of the input survives |
| Helpers.ReplaceDStroke | src/utils/helpers.ts:36 | đ and Đ become d, everything else is kept |
| Helpers.KeepSlugChars | src/utils/helpers.ts:37 | only a–z, 0–9, "-" and white space are kept, every such character of the input survives, and nothing is added |
| Helpers.SpacesToHyphens | src/utils/helpers.ts:38 | white space becomes hyphens and other characters are kept, so text without white space is unchanged; the first character turns into a hyphen exactly when it is white space |
| Helpers.CollapseHyphens | src/utils/helpers.ts:39 | empty exactly for empty text, and the first character stays a hyphen or not |
| Helpers.CollapseHyphensNoDoubleHyphen | src/utils/helpers.ts:39 | no two hyphens in a row after collapsing |
| Helpers.CollapseHyphensDrawnFrom | src/utils/helpers.ts:39 | collapsing introduces no character the text did not have |
| Helpers.SlugCore | src/utils/helpers.ts:32-39 | only slug characters, no double hyphen |
| Helpers.GenerateSlug | src/utils/helpers.ts:31-41 | only a–z, 0–9 and "-", with no two hyphens in a row |
| Helpers.SlugIsItsOwnSlug | src/utils/helpers.ts:31-41 | a text that is already a slug (a–z, 0–9 and "-", no two hyphens in a row) is its own slug |
| Helpers.GenerateSlugTrimIsDead | src/utils/helpers.ts:38-40 | the final trim changes nothing |
| Helpers.GenerateSlugLeadingSpace | src/utils/helpers.ts:31-41 | a title starting with white space gives a slug starting with "-" |
| Helpers.GenerateSlugLeadingLetter | src/utils/helpers.ts:31-41 | a title starting with a–z gives a slug starting with that letter |
| Helpers.GenerateSlugEdgeSpaceShows | src/utils/helpers.ts:38-40 | " a" and "a" get different slugs |
| Helpers.GenerateSlugTrimmed | src/utils/helpers.ts:31-41 | the slug with the trim before the hyphenation: slug characters only, no double hyphen |
| Helpers.GenerateSlugTrimmedIgnoresEdgeSpace | src/utils/helpers.ts:31-41 | white space around the title does not change its slug |
| Helpers.ValidateEmailSpec | src/utils/helpers.ts:67-70 | valid exactly when the address is local@domain.tld with non-empty parts free of white space and "@" |
| Helpers.ValidateEmailSound | src/utils/helpers.ts:67-70 | every accepted address has that shape |
| Helpers.ValidateEmailComplete | src/utils/helpers.ts:67-70 | every address of that shape is accepted |
| Helpers.ValidatePhone | src/utils/helpers.ts:72-75 | an accepted number has 10 or 12 characters once white space is removed |
| Helpers.ValidatePhoneIgnoresSpace | src/utils/helpers.ts:74 | white space anywhere does not change the verdict |
| Helpers.ValidatePhonePrefixes | src/utils/helpers.ts:73 | "0" and "+84" are interchangeable prefixes |
| Helpers.TimeAgoUnit | src/utils/helpers.ts:108-114 | each unit exactly on its interval: just now below 60 s, minutes up to 3600, hours up to 86400, days up to 2592000, months up to 31536000, years from there on |
| Helpers.TimeAgoCountRange | src/utils/helpers.ts:109-114 | the count in each bucket is at least 1 and below the next threshold's ratio |
| Helpers.GetTimeAgo | src/utils/helpers.ts:103-115 | "vừa xong" exactly when less than a minute has passed; otherwise "<count> <unit> trước", with the whole count of the unit the thresholds pick and that unit's word |
| Helpers.GetImageUrl | src/utils/helpers.ts:81-88 | "http" paths unchanged; any other path gives exactly base + "/" + path, or base + "/" + size + "_" + path when a size is asked for, the base being "/images" when unset or empty |
| Helpers.GetImageUrlInjective | src/utils/helpers.ts:81-88 | different relative paths get different URLs, and a sized image never shares the unsized URL |
| LibAuth.MockUsers | lib/auth.ts:21-48 | three users created when the table loads |
| LibAuth.MockUsersDistinct | lib/auth.ts:21-48 | distinct ids and e-mails; one user per role: traveler, service_provider, admin |
| LibAuth.SignIn | lib/auth.ts:50-55 | the mock user with the e-mail, or null exactly when none has it |
| LibAuth.SignInKnownEmails | lib/auth.ts:50-55 | succeeds exactly for the three known e-mails, and the password is never consulted |
| LibAuth.SignUp | lib/auth.ts:57-66 | the given fields unchanged, plus a clock id and creation time |
| AppAuth.RoleName | src/services/auth.ts:6 | one of "traveler", "provider", "admin" |
| AppAuth.RoleNameInjective | src/services/auth.ts:6 | distinct roles have distinct names |
| AppAuth.MockUsers | src/services/auth.ts:17-36 | three users |
| AppAuth.MockUsersDistinct | src/services/auth.ts:17-36 | distinct e-mails; roles traveler, provider, admin |
| AppAuth.SignIn | src/services/auth.ts:38-47 | a user exactly when the e-mail is a mock user's and the password is "password"; its e-mail is the input |
| AppAuth.WrongPasswordRefused | src/services/auth.ts:43-46 | any other password gives null |
| BookingList.GetStatusText | components/booking/booking-list.tsx:63-76 | the four known statuses get labels; any other value is passed through unchanged |
| BookingList.StatusTextsDistinct | components/booking/booking-list.tsx:63-76 | different statuses get different texts; "refunded" is shown as is |
| BookingList.GetPaymentStatusText | components/booking/booking-list.tsx:91-102 | paid, pending and refunded get labels; anything else is passed through |
| BookingList.PaymentStatusTextsDistinct | components/booking/booking-list.tsx:91-102 | different payment statuses get different texts |
| BookingList.WithStatus | components/booking/booking-list.tsx:107-111 | same length and order; the matching booking gets the status and a new update time; the others are unchanged |
| BookingList.WithCancellation | components/booking/booking-list.tsx:120-126 | the matching booking becomes cancelled with the reason, amount and payment status kept; the others are unchanged |
| BookingList.FilteredBookings | components/booking/booking-list.tsx:132-135 | exactly the bookings on the tab |
| BookingList.FilteredBookingsOrder | components/booking/booking-list.tsx:132-135 | a subsequence of the list in its order; the whole list for "all" |
| BookingList.AllTabKeepsAll | components/booking/booking-list.tsx:133 | the "all" filter keeps every booking |
| BookingList.CancellationIsFinal | components/booking/booking-list.tsx:243-271 | a cancelled booking offers no confirm, reject, cancel or pay action |
| BookingList.ConfirmationOffersPayment | components/booking/booking-list.tsx:243-271 | confirming an unpaid booking brings up pay and removes the provider's buttons |
| BookingList.CancelledMovesTab | components/booking/booking-list.tsx:120-135 | after cancelling, the booking is under "cancelled" and not under "pending" |
| BookingList.BookingListView.constructor | components/booking/booking-list.tsx:25-28 | empty, loading, on tab "all" |
| BookingList.BookingListView.LoadBookings | components/booking/booking-list.tsx:30-46 | nothing without a user; otherwise the role's bookings (kept on failure) and loading ends |
| BookingList.BookingListView.HandleUpdateStatus | components/booking/booking-list.tsx:104-115 | the list is updated only after the call succeeds |
| BookingList.BookingListView.HandleCancelBooking | components/booking/booking-list.tsx:117-130 | the list is cancelled-updated only after the call succeeds |
| BookingList.BookingListView.Confirm | components/booking/booking-list.tsx:243-249 | offered on pending bookings to providers; sets confirmed |
| BookingList.BookingListView.Reject | components/booking/booking-list.tsx:250-257 | offered on pending bookings to providers; cancels with "Không thể phục vụ" |
| BookingList.BookingListView.CustomerCancel | components/booking/booking-list.tsx:260-269 | offered on pending bookings to customers; cancels with "Khách hàng hủy" |
| BookingList.BookingListView.SelectTab | components/booking/booking-list.tsx:166 | only the tab changes |
| BookingList.BookingListView.Shown | components/booking/booking-list.tsx:132-135 | the shown bookings are on the active tab |
| NotificationCenter.MarkedRead | components/notifications/notification-center.tsx:105-109 | the matching notification becomes read at `now`; the others are unchanged; length and order kept |
| NotificationCenter.AllMarkedRead | components/notifications/notification-center.tsx:120-126 | every notification, archived ones included, becomes read; an existing read time is kept |
| NotificationCenter.UnreadCount | components/notifications/notification-center.tsx:141 | at most the list's length, and 0 exactly when nothing is unread |
| NotificationCenter.UnreadCountIsFilterLength | components/notifications/notification-center.tsx:141 | the count is the length of the unread filter |
| NotificationCenter.MarkAllClearsUnread | components/notifications/notification-center.tsx:120-141 | after mark-all the count is 0, and every read time is present |
| NotificationCenter.MarkAsReadCount | components/notifications/notification-center.tsx:105-141 | with distinct ids, marking lowers the count by one exactly when the target was unread |
| NotificationCenter.NoneMarked | components/notifications/notification-center.tsx:105-109 | marking an absent id changes nothing |
| NotificationCenter.MarkingKeepsReadTimes | components/notifications/notification-center.tsx:105-126 | both markings keep a read time exactly on the read notifications |
| NotificationCenter.Switched | components/notifications/notification-center.tsx:289-391 | only the switched field changes |
| NotificationCenter.SwitchBack | components/notifications/notification-center.tsx:289-391 | switching back restores the preferences |
| NotificationCenter.NotificationCenterView.constructor | components/notifications/notification-center.tsx:44-47 | nothing loaded, loading, notifications tab |
| NotificationCenter.NotificationCenterView.LoadData | components/notifications/notification-center.tsx:49-70 | loads only when open with a user; failures keep the old lists; loading ends |
| NotificationCenter.NotificationCenterView.HandleMarkAsRead | components/notifications/notification-center.tsx:102-113 | marked only after the call succeeds |
| NotificationCenter.NotificationCenterView.HandleMarkAllAsRead | components/notifications/notification-center.tsx:115-130 | nothing without a user; marked only after success |
| NotificationCenter.NotificationCenterView.ClickCard | components/notifications/notification-center.tsx:206-209 | only an unread card is marked, so a read one keeps its read time |
| NotificationCenter.NotificationCenterView.HandleUpdatePreferences | components/notifications/notification-center.tsx:132-139 | replaced only after the call succeeds |
| NotificationCenter.NotificationCenterView.Toggle | components/notifications/notification-center.tsx:289-291 | stores the preferences with only that switch changed, after success |
| NotificationCenter.NotificationCenterView.Badge | components/notifications/notification-center.tsx:141 | the badge never exceeds the list's length |
| PaymentForm.CalculateTotal | components/payment/payment-form.tsx:88-92 | the amount without a method; otherwise amount × (100 + fee) / 100 |
| PaymentForm.CalculateTotalBounds | components/payment/payment-form.tsx:88-92 | fee 0 gives the amount; a fee ≥ 0 never lowers it; a higher fee never charges less |
| PaymentForm.CalculateTotalTable | components/payment/payment-form.tsx:88-92 | card × 1.025, bank transfer × 1, e-wallet × 1.015, cash × 1 |
| PaymentForm.BuildRequest | components/payment/payment-form.tsx:99-110 | booking, fee-inclusive total, "VND", the method's type, the user's contact (phone "" when missing), the billing address only with a street |
| PaymentForm.PaymentFormView.constructor | components/payment/payment-form.tsx:54-71 | step 1, no method, no result, empty details |
| PaymentForm.PaymentFormView.SelectMethod | components/payment/payment-form.tsx:212 | selects a listed available method |
| PaymentForm.PaymentFormView.Continue | components/payment/payment-form.tsx:235 | step 2 only with a method |
| PaymentForm.PaymentFormView.Back | components/payment/payment-form.tsx:406 | back to step 1, keeping everything |
| PaymentForm.PaymentFormView.SetAgreeTerms | components/payment/payment-form.tsx:379 | only the terms flag changes |
| PaymentForm.PaymentFormView.HandleProcessPayment | components/payment/payment-form.tsx:94-126 | nothing without a user or method; otherwise step 3 with the stored result for the fee-inclusive total; notification and callback exactly when completed; processing ends |
| PaymentForm.PaymentFormView.Pay | components/payment/payment-form.tsx:409-412 | does nothing unless the terms are agreed and nothing is processing; enabled, the outcomes of HandleProcessPayment: step 3 with the fee-inclusive total, the notice and the callback exactly when completed |
| PaymentForm.PaymentFormView.Retry | components/payment/payment-form.tsx:503-507 | step 1 without the result, keeping the method |
| PaymentForm.PaymentFormView.ResetForm | components/payment/payment-form.tsx:128-146 | step 1, no method, no result, empty details with terms not agreed |
| BookingForm.InitialData | components/booking/booking-form.tsx:40-104 | no dates, one person, contact from the user (empty without one), empty requests and emergency contact |
| BookingForm.TotalAmount | components/booking/booking-form.tsx:55 | the price for a party of one |
| BookingForm.PartySizeOptions | components/booking/booking-form.tsx:207 | the options are 1..maxPeople in order |
| BookingForm.PartySizeChoices | components/booking/booking-form.tsx:207 | a size is offered exactly when it lies in 1..maxPeople |
| BookingForm.TotalAmountRange | components/booking/booking-form.tsx:55 | between one person's price and the full group's, growing with the party |
| BookingForm.BuildRequest | components/booking/booking-form.tsx:62-76 | service id, name and provider; customer id; the entered contact and dates; the displayed total; emergency contact only with a name |
| BookingForm.FormBookingPriced | components/booking/booking-form.tsx:55-76 | a booking made for a catalogue service is priced from the catalogue |
| BookingForm.BookingFormView.constructor | components/booking/booking-form.tsx:38-53 | step 1 with the opening data |
| BookingForm.BookingFormView.SetDates | components/booking/booking-form.tsx:173-190 | only the dates change |
| BookingForm.BookingFormView.SetNumberOfPeople | components/booking/booking-form.tsx:199-213 | only the party size changes, to an offered size |
| BookingForm.BookingFormView.Continue | components/booking/booking-form.tsx:249-251 | step 2 only with both dates |
| BookingForm.BookingFormView.SetContact | components/booking/booking-form.tsx:262-367 | only the contact and emergency-contact fields change |
| BookingForm.BookingFormView.SetSpecialRequests | components/booking/booking-form.tsx:217-222 | on step 1, only the special requests change |
| BookingForm.BookingFormView.Back | components/booking/booking-form.tsx:372 | back to step 1, keeping the data |
| BookingForm.BookingFormView.HandleSubmitBooking | components/booking/booking-form.tsx:57-86 | nothing without a user; step 3 and the created booking only after success; submitting ends |
| BookingForm.BookingFormView.Submit | components/booking/booking-form.tsx:376-380 | a disabled button (a contact field empty, or a submission running) changes nothing; otherwise exactly what `HandleSubmitBooking` does, the booking being `CreateBooking` of the request built from the form |
| BookingForm.BookingFormView.ResetForm | components/booking/booking-form.tsx:88-104 | step 1 with the opening data for the user |
| ItineraryGenerator.Destinations | components/ai/itinerary-generator.tsx:52 | no empty destination is offered |
| ItineraryGenerator.ToggledInterests | components/ai/itinerary-generator.tsx:63-68 | checking appends at the end; unchecking removes every occurrence and keeps the rest |
| ItineraryGenerator.UncheckKeepsOrder | components/ai/itinerary-generator.tsx:66 | unchecking keeps the other interests in order |
| ItineraryGenerator.CheckThenUncheck | components/ai/itinerary-generator.tsx:66 | unchecking what was just checked restores the list |
| ItineraryGenerator.ToggleKeepsDistinct | components/ai/itinerary-generator.tsx:63-68 | toggling from the checkboxes never creates a duplicate |
| ItineraryGenerator.DefaultsOnSliders | components/ai/itinerary-generator.tsx:43-50 | the defaults sit on the sliders, with no destination and no interests |
| ItineraryGenerator.SliderPlanBounds | components/ai/itinerary-generator.tsx:149-182 | slider values give 1 to 10 days and an estimate within the budget |
| ItineraryGenerator.ItineraryGeneratorView.constructor | components/ai/itinerary-generator.tsx:40-50 | step 1, no plan, default preferences |
| ItineraryGenerator.ItineraryGeneratorView.SetDestination | components/ai/itinerary-generator.tsx:131 | only the destination changes |
| ItineraryGenerator.ItineraryGeneratorView.SetSliders | components/ai/itinerary-generator.tsx:149-191 | only the slider fields and style change, to values the sliders produce |
| ItineraryGenerator.ItineraryGeneratorView.Continue | components/ai/itinerary-generator.tsx:204 | step 2 only with a destination |
| ItineraryGenerator.ItineraryGeneratorView.HandleInterestChange | components/ai/itinerary-generator.tsx:63-68 | only the interests change |
| ItineraryGenerator.ItineraryGeneratorView.Back | components/ai/itinerary-generator.tsx:235 | back to step 1 |
| ItineraryGenerator.ItineraryGeneratorView.HandleGenerateItinerary | components/ai/itinerary-generator.tsx:70-86 | nothing without a destination and an interest; otherwise step 3 with the plan for the preferences after success; generating ends |
| ItineraryGenerator.ItineraryGeneratorView.Generate | components/ai/itinerary-generator.tsx:239-241 | does nothing without an interest or while generating; enabled, the outcomes of HandleGenerateItinerary: step 3 with the plan, its days the PlannedDays of the preferences, after success; generating ends |
| ItineraryGenerator.ItineraryGeneratorView.HandleSaveItinerary | components/ai/itinerary-generator.tsx:88-97 | saved exactly when there is a plan |
| ItineraryGenerator.ItineraryGeneratorView.ResetGenerator | components/ai/itinerary-generator.tsx:99-110 | step 1, no plan, default preferences |
| Toasts.ToastId | src/context/toast-context.tsx:27 | at most nine characters, characters 2..10 of the random text |
| Toasts.NewToast | src/context/toast-context.tsx:26-28 | the id; duration defaulting to 5000; the other props kept |
| Toasts.Merge | src/context/toast-context.tsx:43 | each of id, title, description, variant and duration comes from the patch when the patch carries it and from the toast otherwise; an empty patch changes nothing |
| Toasts.MergeIdempotent | src/context/toast-context.tsx:43 | applying the same update twice is applying it once |
| Toasts.MergeLaterWins | src/context/toast-context.tsx:43 | a later update that carries every field overrides an earlier one |
| Toasts.Dismissed | src/context/toast-context.tsx:47-49 | every toast with the id goes; the others stay |
| Toasts.DismissedAppend | src/context/toast-context.tsx:47-49 | dismissing works piecewise on a concatenation |
| Toasts.Patched | src/context/toast-context.tsx:42-43 | same length; the toasts with the id merged, the others unchanged |
| Toasts.ToastThenDismiss | src/context/toast-context.tsx:27-41 | dismissing a fresh toast through its handle restores the queue |
| Toasts.UpdateThenDismiss | src/context/toast-context.tsx:41-43 | an update keeping the id leaves the handle's dismiss working |
| Toasts.UpdateRenames | src/context/toast-context.tsx:41-43 | an update carrying another id detaches the handle |
| Toasts.ToastProvider.constructor | src/context/toast-context.tsx:23 | no toasts |
| Toasts.ToastProvider.ShowToast | src/context/toast-context.tsx:26-45 | appends exactly one toast with the drawn id; the timer is set only for a positive duration |
| Toasts.ToastProvider.Dismiss | src/context/toast-context.tsx:47-49 | the toasts with the id are removed |
| Toasts.ToastProvider.DismissAll | src/context/toast-context.tsx:51-53 | no toasts |
| Toasts.ToastProvider.Update | src/context/toast-context.tsx:42-43 | the toasts with the handle's id are merged |
| AuthContext.Initial | contexts/auth-context.tsx:16-20 | no user, loading, not authenticated |
| AuthContext.Restored | contexts/auth-context.tsx:24-41 | a saved user is restored as authenticated; an absent, empty or unparsable entry only ends loading |
| AuthContext.SignedIn | contexts/auth-context.tsx:46-67 | a found user is signed in; otherwise the user and flag stay and loading ends |
| AuthContext.SignedOut | contexts/auth-context.tsx:73-77 | no user, not loading, not authenticated |
| AuthContext.WithUser | contexts/auth-context.tsx:83-89 | the user replaced, authenticated exactly with a user, loading untouched |
| AuthContext.TransitionsKeepConsistent | contexts/auth-context.tsx:16-89 | every transition keeps "authenticated exactly with a user", unless the stored text is `null` |
| AuthContext.RestoreNullText | contexts/auth-context.tsx:28-34 | a stored `null` claims a session without a user |
| AuthContext.SignInOutcome | contexts/auth-context.tsx:49-58 | through the mock sign-in, authenticated exactly for the known e-mails, as that user |
| AuthContext.SignInThenRestore | contexts/auth-context.tsx:27-57 | a session saved by sign-in is restored as the same state |
| AuthContext.AuthProvider.constructor | contexts/auth-context.tsx:16-20 | the initial state over the stored entry |
| AuthContext.AuthProvider.CheckAuth | contexts/auth-context.tsx:24-41 | the restored state; the entry is not written |
| AuthContext.AuthProvider.HandleSignIn | contexts/auth-context.tsx:46-67 | true exactly when a user was found, which is then saved and signed in |
| AuthContext.AuthProvider.HandleSignOut | contexts/auth-context.tsx:69-81 | entry removed and state reset; a throwing call changes nothing |
| AuthContext.AuthProvider.SetUser | contexts/auth-context.tsx:83-89 | the state only; the entry is untouched |
| AppRoutes.Guard | src/App.tsx:13-33 | waits exactly while loading; admits exactly a settled session with a user whose role is allowed |
| AppRoutes.DashboardPage | src/App.tsx:41-50 | a dashboard exactly for the three role names |
| AppRoutes.DashboardRouter | src/App.tsx:36-51 | home without a user; otherwise the role's dashboard |
| AppRoutes.Route | src/App.tsx:53-98 | home page at "/"; the catch-all sends other paths home; guarded routes show the spinner while loading |
| AppRoutes.RolePath | src/App.tsx:70-93 | each role's route is "/dashboard/" + its name |
| AppRoutes.RoleRouteAdmitsOneRole | src/App.tsx:70-93 | a role route renders exactly for a user with that role, and otherwise sends home |
| AppRoutes.DashboardAdmitsAll | src/App.tsx:60-67 | "/dashboard" renders for any signed-in user, the same page as the role's own route |
| AppRoutes.GuardedRoutesNeedSession | src/App.tsx:16-32 | no redirect while loading and no rendering without a user |
| UserMenu.DashboardPath | components/auth/user-menu.tsx:29-40 | "/" exactly without a user |
| UserMenu.DashboardPathsDistinct | components/auth/user-menu.tsx:29-40 | the three dashboard paths differ |
| UserMenu.RoleLabel | components/auth/user-menu.tsx:42-53 | "" exactly without a user |
| UserMenu.RoleMenuItems | components/auth/user-menu.tsx:55-123 | four entries per role, none without a user |
| UserMenu.RoleMenuItemsLeadApart | components/auth/user-menu.tsx:55-123 | the first entry is the dashboard, and a role's entries lead to four different places |
| UserMenu.View | components/auth/user-menu.tsx:125-138 | without a session only the login button |
| UserMenu.ViewOfConsistentSession | components/auth/user-menu.tsx:125-138 | for a consistent session, the dropdown exactly with a user, labelled, with four entries |
| UserMenu.UserMenuView.constructor | components/auth/user-menu.tsx:21-22 | dialog closed |
| UserMenu.UserMenuView.OpenLogin | components/auth/user-menu.tsx:130 | the login dialog opens |
| UserMenu.UserMenuView.ClickItem | components/auth/user-menu.tsx:60-117 | navigates to the entry's path |
| UserMenu.UserMenuView.HandleSignOut | components/auth/user-menu.tsx:24-27 | the sign-out completes, then the router goes to "/" |
| Carousel.Next | components/hero-section.tsx:40-42 | one ahead, wrapping 2 to 0 |
| Carousel.Prev | components/hero-section.tsx:44-46 | one back, wrapping 0 to 2 |
| Carousel.NextPrevInverse | src/components/HeroSection.tsx:37-43 | previous undoes next and next undoes previous |
| Carousel.ThreeStepsReturn | components/hero-section.tsx:40-46 | three steps either way return to the start |
| Carousel.Advance | components/hero-section.tsx:34-36 | after any number of ticks the index is still a slide |
| Carousel.AdvanceIsModular | src/components/HeroSection.tsx:31-33 | n ticks from slide i show slide (i + n) mod 3 |
| Carousel.HeroCarousel.constructor | components/hero-section.tsx:31 | starts on slide 0 |
| Carousel.HeroCarousel.NextSlide | src/components/HeroSection.tsx:37-39 | next slide, staying in [0, 3) |
| Carousel.HeroCarousel.PrevSlide | src/components/HeroSection.tsx:41-43 | previous slide, staying in [0, 3) |
| Carousel.HeroCarousel.Tick | components/hero-section.tsx:34-36 | the timer does the same as next |
| Carousel.HeroCarousel.GoTo | src/components/HeroSection.tsx:130 | an indicator jumps to its slide |

## Left out

- Rendering, markup, icons, colours and dialogs opening and closing are not modelled. Only the state the handlers change is modelled.
- Timers are not modelled: every `setTimeout` latency, the `setInterval` scheduling (only its index update, `Tick`) and the toast auto-dismiss timer. `ShowToast` only reports whether the timer is set.
- Clock, randomness and rejection are inputs. `Date.now()` and `new Date()` are a `now` in milliseconds. `Math.random()` is a `draw`, a `draws` function or a `randomText`. A rejected call is a boolean.
- Dates are not rendered as text. ISO and locale formatting (`toISOString`, `toLocaleString("vi-VN")`) are left out. Locale-formatted amounts inside messages and highlights are string parameters (`amountText`, `budgetText`).
- Numbers are exact. Amounts, fee percentages and multipliers are exact integers or rationals, not IEEE doubles. `Math.floor` and `Math.round` are written out.
- JSON is not modelled. Storage keeps typed values, assuming `JSON.stringify`/`JSON.parse` round-trip. A stored user's `createdAt`, a `Date` that would come back as text, is not distinguished.
- `Storage.ListAt`: a non-list value under a list key reads as []. The source would return that value itself.
- String operations are simplified. `toLowerCase` is not modelled: `Helpers.GenerateSlug` takes the lower-cased title. NFD normalisation is modelled as the removal of combining marks from already-decomposed text.
- `Helpers.TruncateText` counts lengths and cuts in Unicode characters. The source's `length` and `substring` count UTF-16 code units, so text with characters outside the Basic Multilingual Plane (emoji, say) is cut earlier there, and an odd cut can split a surrogate pair; the model does neither.
- AiService: a destination that names a property of every JavaScript object (such as "toString") is treated like any unknown destination. The source would pick up that property instead of the Hạ Long templates.
- `BookingService.CreateBooking` reads the clock once. The source reads it twice, for the id and for the number, so the two could differ by a millisecond.
- Every operation reads the clock once, where the source may read it several times: the itinerary's id and each day's date (lib/ai-service.ts:62, 81, 97), a payment's id, completion time and creation time (lib/payment-service.ts:94-110), and a notification's id and creation time (lib/notification-service.ts:43-49). Values the model makes equal could differ by the milliseconds between those reads.
- `Storage.StorageService`: the `try`/`catch` around each storage access (src/services/storage.ts:4-37) is not modelled. In the source a write, removal or clear that throws (storage full or unavailable) is logged and leaves the store as it was, and a read that throws gives null. In the model every write succeeds and every read sees the store.
- `Helpers.GetTimeAgo` takes the past time as milliseconds. The source also takes a date string. A string that does not parse gives "NaN năm trước" there, and that case is not modelled.
- `AppRoutes.DashboardRouter`: the role is a three-valued type, so its "unknown role" branch cannot arise. The guard has already excluded every role outside the three.
- `AppRoutes.Route` matches paths exactly. The router's case-insensitive and trailing-slash matching is not modelled.
- src/context/auth-context.tsx, the Vite tree's session provider, is not part of this model. `AppRoutes` takes its state as input.
- `Toasts.Merge` treats a patch field as present or absent. A key explicitly set to `undefined`, which would overwrite with `undefined`, is not modelled.
- `NotificationCenter.NotificationCenterView.ClickCard` does not model following the notification's action link (page navigation).
- The `send*` notification helpers return nothing in the source. In the model they return the record they would create, which callers use only to state the notice. Nothing is stored.
- `formatCurrency`, `formatDate`, `calculateAge`, `debounce`, `throttle`, `generateId`, `isValidUrl` and `copyToClipboard` are not modelled. They are locale formatting, timers, randomness, the URL parser or the clipboard.
- Catalogue entries (`BookingService.Service`) leave out their prose `description`. No rule reads it.
- The login dialog, header, dashboards, marketing sections and the HTTP client are not part of this model.

## Findings

| source | as written | input that shows it | evidently intended | confidence | as-written member | corrected member |
|---|---|---|---|---|---|---|
| src/utils/helpers.ts:38-40 | `generateSlug` turns white space into hyphens before its final `.trim()`, so the trim never removes anything and edge white space becomes edge hyphens | " a" gives "-a" while "a" gives "a" (and " Hạ Long " gives "-ha-long-") | white space around the title does not show in the slug | medium, not executed | Helpers.GenerateSlugEdgeSpaceShows | Helpers.GenerateSlugTrimmedIgnoresEdgeSpace |

=== FILE: ai_service.dfy ===
/**
 * The mock itinerary generator (`lib/ai-service.ts`). Travel preferences are
 * expanded into a day-by-day plan from fixed activity templates: costs are
 * scaled by the travel style, every night but the last is spent in the
 * style's accommodation, and each day's total sums what it contains.
 *
 * The clock is the parameter `now` (milliseconds) and the random rating
 * jitter of each activity is `draws(day, index)`, the value `Math.random()`
 * returns for it.
 */
module AiService {
  import opened Wrappers
  import Text
  import Dates
  import Seqs
  import Helpers

  datatype TravelStyle = Budget | Comfort | Luxury

  datatype TravelDates = TravelDates(startDate: string, endDate: string)

  /** Money amounts are VND; `duration` is in days. */
  datatype TravelPreferences = TravelPreferences(
    destination: string,
    duration: int,
    budget: int,
    travelStyle: TravelStyle,
    interests: seq<string>,
    groupSize: int,
    travelDates: Option<TravelDates>)

  datatype Activity = Activity(
    id: string,
    name: string,
    description: string,
    location: string,
    duration: string,
    cost: int,
    category: string,
    rating: real,
    image: Option<string>,
    timeSlot: string)

  datatype Accommodation = Accommodation(name: string, kind: string, price: int, rating: real)

  /** `date` is the moment, in milliseconds, whose ISO calendar day the source prints. */
  datatype ItineraryDay = ItineraryDay(
    day: int,
    date: int,
    activities: seq<Activity>,
    accommodation: Option<Accommodation>,
    totalCost: int)

  datatype Itinerary = Itinerary(
    id: string,
    title: string,
    destination: string,
    duration: int,
    totalBudget: int,
    estimatedCost: int,
    days: seq<ItineraryDay>,
    highlights: seq<string>,
    tips: seq<string>,
    createdAt: int,
    userId: string)

  // ---------------------------------------------------------------------
  // Templates and prices
  // ---------------------------------------------------------------------

  /** One entry of `baseActivities`. */
  datatype ActivityTemplate = ActivityTemplate(
    name: string, description: string, location: string, category: string, cost: int)

  const HaLong: string := "Hạ Long"
  const Sapa: string := "Sapa"

  function HaLongTemplates(): seq<ActivityTemplate>
  {
    [
      ActivityTemplate("Du thuyền Hạ Long Bay", "Khám phá vịnh Hạ Long trên du thuyền", "Vịnh Hạ Long",
        "Tham quan", 500000),
      ActivityTemplate("Thăm hang Sửng Sốt", "Khám phá hang động nổi tiếng", "Đảo Bồ Hòn",
        "Tham quan", 200000),
      ActivityTemplate("Kayak trên vịnh", "Chèo kayak khám phá các hang động", "Vịnh Hạ Long",
        "Thể thao", 300000)
    ]
  }

  function SapaTemplates(): seq<ActivityTemplate>
  {
    [
      ActivityTemplate("Trekking ruộng bậc thang", "Đi bộ ngắm ruộng bậc thang", "Mường Hoa",
        "Trekking", 400000),
      ActivityTemplate("Thăm bản Cát Cát", "Tìm hiểu văn hóa dân tộc", "Bản Cát Cát",
        "Văn hóa", 250000),
      ActivityTemplate("Chinh phục Fansipan", "Leo núi cao nhất Việt Nam", "Fansipan",
        "Thể thao", 600000)
    ]
  }

  /** The templates for a destination; any destination but Sapa gets the Hạ Long ones. */
  function Templates(destination: string): (ts: seq<ActivityTemplate>)
    ensures |ts| == 3
    ensures forall k :: 0 <= k < 3 ==> ts[k].cost > 0
    ensures destination != Sapa ==> ts == HaLongTemplates()
  {
    if destination == Sapa then SapaTemplates() else HaLongTemplates()
  }

  /** Only "Hạ Long" and "Sapa" have templates of their own, and the two differ. */
  lemma TemplatesFallback(destination: string)
    ensures Templates(destination) == Templates(HaLong) <==> destination != Sapa
  {
    if destination == Sapa {
      assert Templates(destination)[0].cost != Templates(HaLong)[0].cost;
    }
  }

  /** The travel-style multiplier as an exact rational. */
  function Multiplier(style: TravelStyle): real
  {
    match style
    case Luxury => 1.5
    case Budget => 0.7
    case Comfort => 1.0
  }

  /** `Math.floor(base * multiplier)`: the largest integer not above the scaled cost. */
  function ScaleCost(base: int, style: TravelStyle): (cost: int)
    ensures cost as real <= base as real * Multiplier(style) < cost as real + 1.0
  {
    match style
    case Luxury => (base * 3) / 2
    case Budget => (base * 7) / 10
    case Comfort => base
  }

  /** For a non-negative base cost, budget never costs more than comfort and comfort never more than luxury. */
  lemma ScaleCostMonotone(base: int)
    requires base >= 0
    ensures 0 <= ScaleCost(base, Budget) <= ScaleCost(base, Comfort) <= ScaleCost(base, Luxury)
  {
  }

  /** `generateMockAccommodation(preferences)`: the fixed accommodation tier of the style. */
  function AccommodationFor(style: TravelStyle): (a: Accommodation)
    ensures a.price == match style case Budget => 500000 case Comfort => 1000000 case Luxury => 2500000
    ensures a.kind == (if style == Luxury then "Resort" else "Hotel")
  {
    match style
    case Budget => Accommodation("Khách sạn 2 sao", "Hotel", 500000, 3.5)
    case Comfort => Accommodation("Khách sạn 3 sao", "Hotel", 1000000, 4.2)
    case Luxury => Accommodation("Resort 5 sao", "Resort", 2500000, 4.8)
  }

  // ---------------------------------------------------------------------
  // Activities of one day
  // ---------------------------------------------------------------------

  /** The first day has two activities, every later day three. */
  function ActivityCount(day: int): (n: nat)
    ensures n == 2 || n == 3
  {
    if day == 1 then 2 else 3
  }

  /** The time slot of the activity at position `index` of a day. */
  function TimeSlot(index: nat): string
  {
    if index == 0 then "09:00 - 12:00" else if index == 1 then "14:00 - 17:00" else "19:00 - 21:00"
  }

  /** `${day}-${index}`. */
  function ActivityId(day: int, index: nat): (id: string)
    ensures |id| >= 3
  {
    Text.IntToString(day) + "-" + Text.NatToString(index)
  }

  /** The activity made from a template at position `index` of day `day`, given its random draw. */
  function MakeActivity(t: ActivityTemplate, style: TravelStyle, day: int, index: nat, draw: real): (a: Activity)
    ensures a.name == t.name && a.description == t.description && a.location == t.location
    ensures a.category == t.category && a.cost == ScaleCost(t.cost, style)
    ensures a.id == ActivityId(day, index) && a.timeSlot == TimeSlot(index)
    ensures a.rating == 4.5 + draw * 0.5
    ensures 0.0 <= draw < 1.0 ==> 4.5 <= a.rating < 5.0
  {
    Activity(ActivityId(day, index), t.name, t.description, t.location, "2-3 giờ",
      ScaleCost(t.cost, style), t.category, 4.5 + draw * 0.5, None, TimeSlot(index))
  }

  /** The activities day `day` is planned to have: the first templates in order, one per slot. */
  function PlannedActivities(preferences: TravelPreferences, day: int, draws: (int, nat) -> real): (acts: seq<Activity>)
    ensures |acts| == ActivityCount(day)
    ensures forall k :: 0 <= k < |acts| ==>
      acts[k] == MakeActivity(Templates(preferences.destination)[k], preferences.travelStyle, day, k, draws(day, k))
  {
    var ts := Templates(preferences.destination);
    seq(ActivityCount(day), k requires 0 <= k < ActivityCount(day) =>
      MakeActivity(ts[k], preferences.travelStyle, day, k, draws(day, k)))
  }

  /** `generateMockActivities(preferences, day)`: the selected templates pushed one by one. */
  method GenerateActivities(preferences: TravelPreferences, day: int, draws: (int, nat) -> real)
    returns (activities: seq<Activity>)
    ensures activities == PlannedActivities(preferences, day, draws)
  {
    var selected := Templates(preferences.destination)[..ActivityCount(day)];
    ghost var planned := PlannedActivities(preferences, day, draws);
    activities := [];
    var index := 0;
    while index < |selected|
      invariant 0 <= index <= |selected|
      invariant activities == planned[..index]
    {
      var activity := MakeActivity(selected[index], preferences.travelStyle, day, index, draws(day, index));
      activities := activities + [activity];
      index := index + 1;
    }
    assert planned[..index] == planned;
  }

  /** The sum of the activities' costs (`activities.reduce((sum, a) => sum + a.cost, 0)`). */
  function CostSum(acts: seq<Activity>): int
  {
    if acts == [] then 0 else CostSum(acts[..|acts| - 1]) + acts[|acts| - 1].cost
  }

  /** A day's activities cost no less under comfort than budget, and no less under luxury than comfort. */
  lemma ActivityCostsMonotone(preferences: TravelPreferences, day: int, draws: (int, nat) -> real)
    ensures var p := preferences;
      CostSum(PlannedActivities(p.(travelStyle := Budget), day, draws))
      <= CostSum(PlannedActivities(p.(travelStyle := Comfort), day, draws))
      <= CostSum(PlannedActivities(p.(travelStyle := Luxury), day, draws))
  {
    var b := PlannedActivities(preferences.(travelStyle := Budget), day, draws);
    var c := PlannedActivities(preferences.(travelStyle := Comfort), day, draws);
    var l := PlannedActivities(preferences.(travelStyle := Luxury), day, draws);
    forall k | 0 <= k < |b|
      ensures b[k].cost <= c[k].cost <= l[k].cost
    {
      ScaleCostMonotone(Templates(preferences.destination)[k].cost);
    }
    CostSumPointwise(b, c);
    CostSumPointwise(c, l);
  }

  /** Pointwise cheaper activities sum to no more. */
  lemma {:induction false} CostSumPointwise(xs: seq<Activity>, ys: seq<Activity>)
    requires |xs| == |ys|
    requires forall k :: 0 <= k < |xs| ==> xs[k].cost <= ys[k].cost
    ensures CostSum(xs) <= CostSum(ys)
  {
    if xs != [] {
      CostSumPointwise(xs[..|xs| - 1], ys[..|ys| - 1]);
    }
  }

  // ---------------------------------------------------------------------
  // Days
  // ---------------------------------------------------------------------

  const DayMillis: int := 24 * 60 * 60 * 1000

  /** The accommodation of day `day`: the style's tier on every day before the last, none on the last. */
  function NightFor(preferences: TravelPreferences, day: int): (a: Option<Accommodation>)
    ensures a.Some? <==> day < preferences.duration
    ensures a.Some? ==> a.value == AccommodationFor(preferences.travelStyle)
  {
    if day < preferences.duration then Some(AccommodationFor(preferences.travelStyle)) else None
  }

  /** What a day costs: its activities plus its accommodation, or plus 0 without one. */
  function DayCost(acts: seq<Activity>, night: Option<Accommodation>): int
  {
    CostSum(acts) + (if night.Some? then night.value.price else 0)
  }

  /** Day `day` of the plan, as `generateMockDays` builds it. */
  function PlannedDay(preferences: TravelPreferences, day: int, now: int, draws: (int, nat) -> real): (d: ItineraryDay)
    ensures d.day == day && d.date == now + (day - 1) * DayMillis
    ensures d.activities == PlannedActivities(preferences, day, draws)
    ensures d.accommodation == NightFor(preferences, day)
    ensures d.totalCost == DayCost(d.activities, d.accommodation)
  {
    var acts := PlannedActivities(preferences, day, draws);
    var night := NightFor(preferences, day);
    ItineraryDay(day, now + (day - 1) * DayMillis, acts, night, DayCost(acts, night))
  }

  /** The number of days: `duration`, or none when it is not positive. */
  function DayCount(duration: int): (n: nat)
    ensures duration >= 0 ==> n == duration
    ensures duration <= 0 ==> n == 0
  {
    if duration > 0 then duration else 0
  }

  /** The whole plan, day 1 first. */
  function PlannedDays(preferences: TravelPreferences, now: int, draws: (int, nat) -> real): (days: seq<ItineraryDay>)
    ensures |days| == DayCount(preferences.duration)
    ensures forall j :: 0 <= j < |days| ==> days[j] == PlannedDay(preferences, j + 1, now, draws)
  {
    seq(DayCount(preferences.duration), j requires 0 <= j => PlannedDay(preferences, j + 1, now, draws))
  }

  /** `generateMockDays(preferences)`: days 1..duration pushed in order. */
  method GenerateDays(preferences: TravelPreferences, now: int, draws: (int, nat) -> real)
    returns (days: seq<ItineraryDay>)
    ensures days == PlannedDays(preferences, now, draws)
  {
    days := [];
    var i := 1;
    while i <= preferences.duration
      invariant 1 <= i <= DayCount(preferences.duration) + 1
      invariant days == PlannedDays(preferences, now, draws)[..i - 1]
    {
      var activities := GenerateActivities(preferences, i, draws);
      var accommodation := if i < preferences.duration then Some(AccommodationFor(preferences.travelStyle)) else None;
      var totalCost := CostSum(activities) + (if accommodation.Some? then accommodation.value.price else 0);
      var day := ItineraryDay(i, now + (i - 1) * DayMillis, activities, accommodation, totalCost);
      assert day == PlannedDays(preferences, now, draws)[i - 1];
      Seqs.PrefixSnoc(PlannedDays(preferences, now, draws), i);
      days := days + [day];
      i := i + 1;
    }
    assert PlannedDays(preferences, now, draws)[..i - 1] == PlannedDays(preferences, now, draws);
  }

  /**
   * The shape of the plan: days numbered 1..duration in order, two activities
   * on day 1 and three on every other day, and a night's stay on every day but
   * the last.
   */
  lemma PlanShape(preferences: TravelPreferences, now: int, draws: (int, nat) -> real)
    ensures var days := PlannedDays(preferences, now, draws);
      && (preferences.duration <= 0 ==> days == [])
      && (forall j :: 0 <= j < |days| ==> days[j].day == j + 1)
      && (forall j :: 0 <= j < |days| ==> |days[j].activities| == if j == 0 then 2 else 3)
      && (forall j :: 0 <= j < |days| ==> (days[j].accommodation.None? <==> j == |days| - 1))
      && (forall j :: 0 <= j < |days| && days[j].accommodation.Some? ==>
            days[j].accommodation.value == AccommodationFor(preferences.travelStyle))
  {
  }

  /** Every activity of the plan has its own id, within a day and across days. */
  lemma ActivityIdsUnique(preferences: TravelPreferences, now: int, draws: (int, nat) -> real,
    j1: int, k1: int, j2: int, k2: int)
    requires var days := PlannedDays(preferences, now, draws);
      0 <= j1 < |days| && 0 <= k1 < |days[j1].activities|
      && 0 <= j2 < |days| && 0 <= k2 < |days[j2].activities|
    requires (j1, k1) != (j2, k2)
    ensures var days := PlannedDays(preferences, now, draws);
      days[j1].activities[k1].id != days[j2].activities[k2].id
  {
    PlannedActivityId(preferences, now, draws, j1, k1);
    PlannedActivityId(preferences, now, draws, j2, k2);
    ActivityIdInjective(j1 + 1, k1, j2 + 1, k2);
  }

  /** The activity at position `k` of the plan's day `j + 1` is identified by `${j + 1}-${k}`. */
  lemma PlannedActivityId(preferences: TravelPreferences, now: int, draws: (int, nat) -> real, j: int, k: int)
    requires var days := PlannedDays(preferences, now, draws);
      0 <= j < |days| && 0 <= k < |days[j].activities|
    ensures k < 3
    ensures PlannedDays(preferences, now, draws)[j].activities[k].id == ActivityId(j + 1, k)
  {
    var acts := PlannedActivities(preferences, j + 1, draws);
    assert PlannedDays(preferences, now, draws)[j].activities == acts;
    assert acts[k].id == ActivityId(j + 1, k);
  }

  /** `${day}-${index}` determines the day and the index, for single-digit indices. */
  lemma ActivityIdInjective(d1: nat, k1: nat, d2: nat, k2: nat)
    requires k1 < 10 && k2 < 10
    ensures ActivityId(d1, k1) == ActivityId(d2, k2) <==> d1 == d2 && k1 == k2
  {
    if ActivityId(d1, k1) == ActivityId(d2, k2) {
      var s1 := Text.NatToString(d1);
      var s2 := Text.NatToString(d2);
      var id := ActivityId(d1, k1);
      assert id == s1 + "-" + [Text.DigitChar(k1)];
      assert id == s2 + "-" + [Text.DigitChar(k2)];
      assert |s1| == |s2|;
      assert s1 == id[..|s1|] == s2;
      Text.NatToStringInjective(d1, d2);
      assert id[|id| - 1] == Text.DigitChar(k1) == Text.DigitChar(k2);
    }
  }

  // ---------------------------------------------------------------------
  // The itinerary
  // ---------------------------------------------------------------------

  /** `Math.floor(budget * 0.85)`. */
  function EstimatedCost(budget: int): (est: int)
    ensures est as real <= budget as real * 0.85 < est as real + 1.0
    ensures budget >= 0 ==> 0 <= est <= budget
  {
    (budget * 85) / 100
  }

  /** The style's Vietnamese name. */
  function StyleLabel(style: TravelStyle): string
  {
    match style
    case Budget => "tiết kiệm"
    case Comfort => "thoải mái"
    case Luxury => "sang trọng"
  }

  /** Each style has its own name. */
  lemma StyleLabelsDistinct(a: TravelStyle, b: TravelStyle)
    ensures StyleLabel(a) == StyleLabel(b) <==> a == b
  {
  }

  /** The four highlights; `budgetText` is `budget.toLocaleString("vi-VN")`. */
  function Highlights(preferences: TravelPreferences, budgetText: string): (hs: seq<string>)
    ensures |hs| == 4
    ensures hs[0] == "Trải nghiệm " + Text.Join(preferences.interests, ", ") + " tại " + preferences.destination
    ensures hs[1] == "Phù hợp với ngân sách " + budgetText + "đ"
    ensures hs[2] == "Thiết kế cho " + Text.IntToString(preferences.groupSize) + " người"
    ensures hs[3] == "Phong cách du lịch " + StyleLabel(preferences.travelStyle)
  {
    [
      "Trải nghiệm " + Text.Join(preferences.interests, ", ") + " tại " + preferences.destination,
      "Phù hợp với ngân sách " + budgetText + "đ",
      "Thiết kế cho " + Text.IntToString(preferences.groupSize) + " người",
      "Phong cách du lịch " + StyleLabel(preferences.travelStyle)
    ]
  }

  /** The highlights tell the group size and the travel style: plans that differ in either read differently. */
  lemma HighlightsTellGroupAndStyle(p: TravelPreferences, q: TravelPreferences, budgetText: string)
    requires Highlights(p, budgetText) == Highlights(q, budgetText)
    ensures p.groupSize == q.groupSize && p.travelStyle == q.travelStyle
  {
    var hp := Highlights(p, budgetText);
    var hq := Highlights(q, budgetText);
    var gp := Text.IntToString(p.groupSize);
    var gq := Text.IntToString(q.groupSize);
    Text.Infix("Thiết kế cho ", gp, " người");
    Text.Infix("Thiết kế cho ", gq, " người");
    assert gp == hp[2][|"Thiết kế cho "|..|hp[2]| - |" người"|] == gq;
    Helpers.IntToStringInjective(p.groupSize, q.groupSize);
    var lp := StyleLabel(p.travelStyle);
    var lq := StyleLabel(q.travelStyle);
    Text.Infix("Phong cách du lịch ", lp, "");
    Text.Infix("Phong cách du lịch ", lq, "");
    assert "Phong cách du lịch " + lp + "" == hp[3];
    assert "Phong cách du lịch " + lq + "" == hq[3];
    StyleLabelsDistinct(p.travelStyle, q.travelStyle);
  }

  function Tips(): (ts: seq<string>)
    ensures |ts| == 4
  {
    [
      "Đặt trước các hoạt động để được giá tốt hơn",
      "Mang theo kem chống nắng và nước uống",
      "Kiểm tra thời tiết trước khi khởi hành",
      "Chuẩn bị một số tiền mặt cho các chi phí nhỏ"
    ]
  }

  /**
   * `generateItinerary(preferences)`: the plan with its title, the
   * preferences echoed, 85% of the budget as the estimate, and the days.
   */
  method GenerateItinerary(preferences: TravelPreferences, now: nat, draws: (int, nat) -> real, budgetText: string)
    returns (it: Itinerary)
    ensures it.id == Text.NatToString(now) && it.createdAt == now && it.userId == "current-user-id"
    ensures it.title == "Khám phá " + preferences.destination + " " + Text.IntToString(preferences.duration) + " ngày"
    ensures it.destination == preferences.destination && it.duration == preferences.duration
    ensures it.totalBudget == preferences.budget
    ensures it.estimatedCost == EstimatedCost(preferences.budget)
    ensures preferences.budget >= 0 ==> 0 <= it.estimatedCost <= it.totalBudget
    ensures it.days == PlannedDays(preferences, now, draws)
    ensures it.highlights == Highlights(preferences, budgetText) && it.tips == Tips()
  {
    var days := GenerateDays(preferences, now, draws);
    it := Itinerary(
      Text.NatToString(now),
      "Khám phá " + preferences.destination + " " + Text.IntToString(preferences.duration) + " ngày",
      preferences.destination,
      preferences.duration,
      preferences.budget,
      EstimatedCost(preferences.budget),
      days,
      Highlights(preferences, budgetText),
      Tips(),
      now,
      "current-user-id");
  }

  // ---------------------------------------------------------------------
  // Saved itineraries
  // ---------------------------------------------------------------------

  /** `getUserItineraries(userId)`: two canned itineraries, without days, for that user. */
  function GetUserItineraries(userId: string): (its: seq<Itinerary>)
    ensures |its| == 2
    ensures forall i :: 0 <= i < |its| ==> its[i].userId == userId && its[i].days == []
    ensures forall i :: 0 <= i < |its| ==> 0 <= its[i].estimatedCost <= its[i].totalBudget
  {
    [
      Itinerary("1", "Khám phá Hạ Long 3 ngày", "Hạ Long", 3, 5000000, 4200000, [],
        ["Du thuyền Hạ Long Bay", "Thăm hang Sửng Sốt", "Kayak trên vịnh"],
        ["Đặt trước du thuyền", "Mang theo kem chống nắng"], Dates.January2024(10), userId),
      Itinerary("2", "Trekking Sapa 4 ngày", "Sapa", 4, 6000000, 5100000, [],
        ["Trekking ruộng bậc thang", "Thăm bản Cát Cát", "Chinh phục Fansipan"],
        ["Chuẩn bị giày trekking", "Mang theo áo ấm"], Dates.January2024(5), userId)
    ]
  }

  /**
   * The Sapa entry's estimate is what `generateItinerary` would give for its
   * budget; the Hạ Long entry's is 50000 below it.
   */
  lemma SavedEstimates(userId: string)
    ensures GetUserItineraries(userId)[1].estimatedCost == EstimatedCost(GetUserItineraries(userId)[1].totalBudget)
    ensures GetUserItineraries(userId)[0].estimatedCost + 50000 == EstimatedCost(GetUserItineraries(userId)[0].totalBudget)
  {
  }

  /** `saveItinerary(itinerary)`: acknowledged with `true`; nothing is stored. */
  function SaveItinerary(itinerary: Itinerary): (ack: bool)
    ensures ack
  {
    true
  }
}

=== FILE: app_auth.dfy ===
/**
 * The mock authentication service of the Vite tree (`src/services/auth.ts`).
 * Unlike the Next.js service it checks the password, and its provider role
 * is called `provider`.
 */
module AppAuth {
  import opened Wrappers
  import Seqs

  datatype Role = Traveler | Provider | Admin

  /** The role's wire name. */
  function RoleName(r: Role): (name: string)
    ensures name in ["traveler", "provider", "admin"]
  {
    match r
    case Traveler => "traveler"
    case Provider => "provider"
    case Admin => "admin"
  }

  /** Each role has its own name. */
  lemma RoleNameInjective(a: Role, b: Role)
    requires RoleName(a) == RoleName(b)
    ensures a == b
  {
  }

  datatype User = User(id: string, email: string, name: string, role: Role, avatar: Option<string>)

  datatype AuthState = AuthState(user: Option<User>, isLoading: bool, isAuthenticated: bool)

  /** The only password the mock accepts. */
  const DemoPassword: string := "password"

  /** `mockUsers`. */
  function MockUsers(): (users: seq<User>)
    ensures |users| == 3
  {
    [
      User("1", "traveler@example.com", "Nguyễn Văn A", Traveler, None),
      User("2", "provider@example.com", "Công ty Du lịch ABC", Provider, None),
      User("3", "admin@example.com", "Admin", Admin, None)
    ]
  }

  /** Three users with distinct e-mails, one per role, in the order traveler, provider, admin. */
  lemma MockUsersDistinct()
    ensures Seqs.NoDuplicates(seq(3, i requires 0 <= i < 3 => MockUsers()[i].email))
    ensures MockUsers()[0].role == Traveler && MockUsers()[1].role == Provider
      && MockUsers()[2].role == Admin
  {
  }

  /**
   * `signIn(email, password)`: a user only when the e-mail belongs to a mock
   * user AND the password is exactly "password"; null in every other case.
   */
  function SignIn(email: string, password: string): (r: Option<User>)
    ensures r.Some? <==> password == DemoPassword && exists u :: u in MockUsers() && u.email == email
    ensures r.Some? ==> r.value in MockUsers() && r.value.email == email
  {
    var found := Seqs.FindFirst(MockUsers(), (u: User) => u.email == email);
    if found.Some? && password == DemoPassword then found else None
  }

  /** A wrong password is refused even for a known e-mail. */
  lemma WrongPasswordRefused(email: string, password: string)
    requires password != DemoPassword
    ensures SignIn(email, password) == None
  {
  }
}

=== FILE: app_routes.dfy ===
/**
 * The route table of the Vite tree (`src/App.tsx`): the guard that shows a
 * spinner while the session loads, sends visitors without a session or with a
 * role it does not admit to the home page, and otherwise renders its page;
 * the role-based dashboard switch; and the five routes with their catch-all.
 */
module AppRoutes {
  import opened Wrappers
  import AppAuth

  /** The pages the routes can render. */
  datatype Page = HomePage | TravelerDashboard | ProviderDashboard | AdminDashboard

  /** What a route shows: the loading spinner, a redirect, or a page. */
  datatype Screen = Spinner | Redirect(to: string) | Render(page: Page)

  /** What `ProtectedRoute` decides before looking at its children. */
  datatype GuardDecision = Wait | RedirectHome | Admit

  /**
   * `ProtectedRoute`'s decision: wait while loading; without a session or a
   * user go home; with a role outside `allowedRoles` go home; otherwise admit.
   */
  function Guard(s: AppAuth.AuthState, allowedRoles: seq<string>): (d: GuardDecision)
    ensures d == Wait <==> s.isLoading
    ensures d == Admit <==>
      !s.isLoading && s.isAuthenticated && s.user.Some? && AppAuth.RoleName(s.user.value.role) in allowedRoles
  {
    if s.isLoading then Wait
    else if !s.isAuthenticated || s.user.None? then RedirectHome
    else if AppAuth.RoleName(s.user.value.role) !in allowedRoles then RedirectHome
    else Admit
  }

  /** The dashboard page for a role name, if it is one of the three. */
  function DashboardPage(role: string): (page: Option<Page>)
    ensures page.Some? <==> role in ["traveler", "provider", "admin"]
    ensures page.Some? ==> page.value != HomePage
  {
    if role == "traveler" then Some(TravelerDashboard)
    else if role == "provider" then Some(ProviderDashboard)
    else if role == "admin" then Some(AdminDashboard)
    else None
  }

  /** `DashboardRouter`: the signed-in user's dashboard, home for no user or an unknown role. */
  function DashboardRouter(user: Option<AppAuth.User>): (screen: Screen)
    ensures user.None? ==> screen == Redirect("/")
    ensures user.Some? ==> screen.Render? && screen.page == RolePage(user.value.role)
  {
    if user.None? then Redirect("/")
    else
      var page := DashboardPage(AppAuth.RoleName(user.value.role));
      if page.Some? then Render(page.value) else Redirect("/")
  }

  /** The dashboard of each role, by its own route. */
  function RolePage(r: AppAuth.Role): Page
  {
    match r
    case Traveler => TravelerDashboard
    case Provider => ProviderDashboard
    case Admin => AdminDashboard
  }

  /** A guarded route: the guard's decision, then `page` once admitted. */
  function Guarded(s: AppAuth.AuthState, allowedRoles: seq<string>, admitted: Screen): Screen
  {
    match Guard(s, allowedRoles)
    case Wait => Spinner
    case RedirectHome => Redirect("/")
    case Admit => admitted
  }

  /** The paths the table lists; any other path falls to the catch-all. */
  function KnownPaths(): seq<string>
  {
    ["/", "/dashboard", "/dashboard/traveler", "/dashboard/provider", "/dashboard/admin"]
  }

  /** `AppRoutes`: what the router shows at `path` for the session `s`. */
  function Route(path: string, s: AppAuth.AuthState): (screen: Screen)
    ensures path == "/" ==> screen == Render(HomePage)
    ensures path !in KnownPaths() ==> screen == Redirect("/")
    ensures path in KnownPaths() && path != "/" && s.isLoading ==> screen == Spinner
  {
    if path == "/" then Render(HomePage)
    else if path == "/dashboard" then
      Guarded(s, ["traveler", "provider", "admin"], DashboardRouter(s.user))
    else if path == "/dashboard/traveler" then Guarded(s, ["traveler"], Render(TravelerDashboard))
    else if path == "/dashboard/provider" then Guarded(s, ["provider"], Render(ProviderDashboard))
    else if path == "/dashboard/admin" then Guarded(s, ["admin"], Render(AdminDashboard))
    else Redirect("/")
  }

  /** The route of each role's own dashboard. */
  function RolePath(r: AppAuth.Role): (path: string)
    ensures path in KnownPaths() && path != "/" && path != "/dashboard"
    ensures path == "/dashboard/" + AppAuth.RoleName(r)
  {
    match r
    case Traveler => "/dashboard/traveler"
    case Provider => "/dashboard/provider"
    case Admin => "/dashboard/admin"
  }

  /**
   * Each role-specific route admits exactly one role: it renders that role's
   * dashboard for a settled session whose user has the role, and sends every
   * other settled visitor home.
   */
  lemma RoleRouteAdmitsOneRole(r: AppAuth.Role, s: AppAuth.AuthState)
    requires !s.isLoading
    ensures Route(RolePath(r), s).Render? <==> s.isAuthenticated && s.user.Some? && s.user.value.role == r
    ensures Route(RolePath(r), s).Render? ==> Route(RolePath(r), s).page == RolePage(r)
    ensures !Route(RolePath(r), s).Render? ==> Route(RolePath(r), s) == Redirect("/")
  {
    if s.user.Some? && AppAuth.RoleName(s.user.value.role) == AppAuth.RoleName(r) {
      AppAuth.RoleNameInjective(r, s.user.value.role);
    }
  }

  /**
   * `/dashboard` admits all three roles and shows each user the dashboard of
   * their role, the same page as the role's own route.
   */
  lemma DashboardAdmitsAll(s: AppAuth.AuthState)
    requires !s.isLoading
    ensures Route("/dashboard", s).Render? <==> s.isAuthenticated && s.user.Some?
    ensures Route("/dashboard", s).Render? ==>
      Route("/dashboard", s) == Route(RolePath(s.user.value.role), s)
    ensures !Route("/dashboard", s).Render? ==> Route("/dashboard", s) == Redirect("/")
  {
    if s.isAuthenticated && s.user.Some? {
      var r := s.user.value.role;
      assert Route(RolePath(r), s) == Render(RolePage(r)) by {
        RoleRouteAdmitsOneRole(r, s);
      }
    }
  }

  /** A guarded route never redirects while the session loads, and never renders without a user. */
  lemma GuardedRoutesNeedSession(path: string, s: AppAuth.AuthState)
    requires path != "/"
    ensures s.isLoading ==> !Route(path, s).Redirect? || path !in KnownPaths()
    ensures Route(path, s).Render? ==> !s.isLoading && s.isAuthenticated && s.user.Some?
  {
  }
}

=== FILE: auth_context.dfy ===
/**
 * The session state of the Next.js tree (`contexts/auth-context.tsx`): the
 * state as the provider mounts, restoring a saved session from the browser's
 * `"user"` entry, signing in through the mock `signIn`, signing out, and
 * replacing the user directly.
 */
module AuthContext {
  import opened Wrappers
  import LibAuth

  type AuthState = LibAuth.AuthState

  /**
   * What the `"user"` entry of local storage holds, as `checkAuth` reads it:
   * a serialised user, the text `null`, the empty text, or text that is not
   * JSON at all.
   */
  datatype StoredEntry = Saved(user: LibAuth.User) | NullText | EmptyText | Malformed

  /** The state's two flags agree: authenticated exactly when there is a user. */
  predicate Consistent(s: AuthState)
  {
    s.isAuthenticated <==> s.user.Some?
  }

  /** The state as the provider mounts: no user, loading, not authenticated. */
  function Initial(): (s: AuthState)
    ensures Consistent(s) && s.isLoading
  {
    LibAuth.AuthState(None, true, false)
  }

  /**
   * `checkAuth()`. A non-empty entry is parsed and taken as the signed-in
   * user; an absent or empty entry, or one that does not parse, only ends
   * loading.
   */
  function Restored(prev: AuthState, entry: Option<StoredEntry>): (s: AuthState)
    ensures !s.isLoading
    ensures entry.Some? && entry.value.Saved? ==> s.user == Some(entry.value.user) && s.isAuthenticated
    ensures entry.Some? && entry.value.NullText? ==> s.user.None? && s.isAuthenticated
    ensures entry.None? || entry == Some(EmptyText) || entry == Some(Malformed) ==>
      s.user == prev.user && s.isAuthenticated == prev.isAuthenticated
  {
    match entry
    case Some(Saved(u)) => LibAuth.AuthState(Some(u), false, true)
    case Some(NullText) => LibAuth.AuthState(None, false, true)
    case _ => prev.(isLoading := false)
  }

  /**
   * The state `handleSignIn` leaves once `signIn` answered with `found` (a
   * call that threw is answered like `null`): the user, authenticated, when
   * one was found; otherwise the earlier user and flag, no longer loading.
   */
  function SignedIn(prev: AuthState, found: Option<LibAuth.User>): (s: AuthState)
    ensures !s.isLoading
    ensures found.Some? ==> s.user == found && s.isAuthenticated
    ensures found.None? ==> s.user == prev.user && s.isAuthenticated == prev.isAuthenticated
  {
    if found.Some? then LibAuth.AuthState(found, false, true) else prev.(isLoading := false)
  }

  /** The state after a completed sign-out. */
  function SignedOut(): (s: AuthState)
    ensures s.user.None? && !s.isLoading && !s.isAuthenticated
  {
    LibAuth.AuthState(None, false, false)
  }

  /** `setUser(user)`: the user replaced, authenticated exactly when there is one, loading untouched. */
  function WithUser(prev: AuthState, user: Option<LibAuth.User>): (s: AuthState)
    ensures s.user == user && s.isLoading == prev.isLoading
    ensures s.isAuthenticated <==> user.Some?
  {
    prev.(user := user, isAuthenticated := user.Some?)
  }

  /**
   * Every transition keeps the two flags in agreement, provided a restored
   * entry is not the text `null`.
   */
  lemma TransitionsKeepConsistent(prev: AuthState, entry: Option<StoredEntry>, found: Option<LibAuth.User>,
      user: Option<LibAuth.User>)
    requires Consistent(prev)
    ensures Consistent(Initial()) && Consistent(SignedOut())
    ensures entry != Some(NullText) ==> Consistent(Restored(prev, entry))
    ensures Consistent(SignedIn(prev, found))
    ensures Consistent(WithUser(prev, user))
  {
  }

  /**
   * A `"user"` entry holding the text `null` is truthy, so restoring it
   * claims a session with no user: the flags disagree.
   */
  lemma RestoreNullText(prev: AuthState)
    ensures !Consistent(Restored(prev, Some(NullText)))
  {
  }

  /**
   * Through the mock `signIn`, a sign-in authenticates exactly for the three
   * known addresses, as the user with that address, and whatever the
   * password.
   */
  lemma SignInOutcome(prev: AuthState, email: string, password: string, loadedAt: int)
    ensures SignedIn(prev, LibAuth.SignIn(email, password, loadedAt)).isAuthenticated
      <==> prev.isAuthenticated || email in ["traveler@example.com", "provider@example.com", "admin@example.com"]
    ensures email in ["traveler@example.com", "provider@example.com", "admin@example.com"] ==>
      var s := SignedIn(prev, LibAuth.SignIn(email, password, loadedAt));
      s.user.Some? && s.user.value.email == email && s.user.value in LibAuth.MockUsers(loadedAt)
  {
    LibAuth.SignInKnownEmails(email, password, loadedAt);
  }

  /** A session saved by a sign-in is restored as the same signed-in state. */
  lemma SignInThenRestore(prev: AuthState, u: LibAuth.User, other: AuthState)
    ensures Restored(other, Some(Saved(u))) == SignedIn(prev, Some(u))
  {
  }

  /**
   * The provider's state and the `"user"` entry of local storage it reads
   * and writes (`None` when the entry is absent).
   */
  class AuthProvider {
    var state: AuthState
    var storedUser: Option<StoredEntry>

    constructor (storedUser: Option<StoredEntry>)
      ensures state == Initial() && this.storedUser == storedUser
    {
      state := Initial();
      this.storedUser := storedUser;
    }

    /** `checkAuth()`, run once on mount; it reads the entry and never writes it. */
    method CheckAuth()
      modifies this
      ensures state == Restored(old(state), old(storedUser))
      ensures storedUser == old(storedUser)
    {
      match storedUser
      case Some(Saved(u)) =>
        state := LibAuth.AuthState(Some(u), false, true);
      case Some(NullText) =>
        state := LibAuth.AuthState(None, false, true);
      case _ =>
        state := state.(isLoading := false);
    }

    /**
     * `handleSignIn(email, password)` through the mock `signIn` (whose user
     * table was built at `loadedAt`); `throws` is a call that rejected. A
     * found user is saved to the entry and signed in, and the answer is
     * `true`; otherwise loading ends and the answer is `false`.
     */
    method HandleSignIn(email: string, password: string, loadedAt: int, throws: bool) returns (ok: bool)
      modifies this
      ensures var found := if throws then None else LibAuth.SignIn(email, password, loadedAt);
        && ok == found.Some?
        && state == SignedIn(old(state), found)
        && storedUser == if found.Some? then Some(Saved(found.value)) else old(storedUser)
    {
      state := state.(isLoading := true);
      if throws {
        state := state.(isLoading := false);
        return false;
      }
      var user := LibAuth.SignIn(email, password, loadedAt);
      if user.Some? {
        storedUser := Some(Saved(user.value));
        state := LibAuth.AuthState(user, false, true);
        ok := true;
      } else {
        state := state.(isLoading := false);
        ok := false;
      }
    }

    /** `handleSignOut()`: the entry is removed and the state reset; a call that threw changes nothing. */
    method HandleSignOut(throws: bool)
      modifies this
      ensures throws ==> state == old(state) && storedUser == old(storedUser)
      ensures !throws ==> state == SignedOut() && storedUser.None?
    {
      if throws {
        return;
      }
      storedUser := None;
      state := LibAuth.AuthState(None, false, false);
    }

    /** `setUser(user)`: the state only; the saved entry is not touched. */
    method SetUser(user: Option<LibAuth.User>)
      modifies this
      ensures state == WithUser(old(state), user) && storedUser == old(storedUser)
    {
      state := state.(user := user, isAuthenticated := user.Some?);
    }
  }
}

=== FILE: booking_form.dfy ===
/**
 * The booking dialog (`components/booking/booking-form.tsx`): dates and party
 * size (step 1), contact details (step 2) and the confirmation (step 3); the
 * displayed total, the request sent to `createBooking`, and the form reset.
 */
module BookingForm {
  import opened Wrappers
  import opened BookingService
  import LibAuth

  /** What the two input steps collect. */
  datatype BookingData = BookingData(
    startDate: string,
    endDate: string,
    numberOfPeople: int,
    customerName: string,
    customerEmail: string,
    customerPhone: string,
    specialRequests: string,
    emergencyContact: EmergencyContact)

  /**
   * The data as the dialog opens and after a reset: no dates, one person,
   * the contact fields taken from the signed-in user (empty without one), no
   * requests and an empty emergency contact.
   */
  function InitialData(user: Option<LibAuth.User>): (d: BookingData)
    ensures d.startDate == "" && d.endDate == "" && d.numberOfPeople == 1
    ensures d.customerName == (if user.Some? then user.value.name else "")
    ensures d.customerEmail == (if user.Some? then user.value.email else "")
    ensures d.customerPhone == (if user.Some? then user.value.phone.GetOr("") else "")
    ensures d.specialRequests == "" && d.emergencyContact == EmergencyContact("", "", "")
  {
    BookingData("", "", 1,
      if user.Some? then user.value.name else "",
      if user.Some? then user.value.email else "",
      if user.Some? then user.value.phone.GetOr("") else "",
      "", EmergencyContact("", "", ""))
  }

  /** `totalAmount`: the service's price for each person in the party. */
  function TotalAmount(service: Service, data: BookingData): (total: int)
    ensures data.numberOfPeople == 1 ==> total == service.price
  {
    service.price * data.numberOfPeople
  }

  /** The party sizes the select offers: 1 to the service's maximum. */
  function PartySizeOptions(maxPeople: int): (options: seq<int>)
    ensures |options| == if maxPeople < 0 then 0 else maxPeople
    ensures forall i :: 0 <= i < |options| ==> options[i] == i + 1
  {
    if maxPeople <= 0 then [] else PartySizeOptions(maxPeople - 1) + [maxPeople]
  }

  /** Exactly the sizes 1 to the maximum can be chosen. */
  lemma PartySizeChoices(maxPeople: int, n: int)
    ensures n in PartySizeOptions(maxPeople) <==> 1 <= n <= maxPeople
  {
    var options := PartySizeOptions(maxPeople);
    if 1 <= n <= maxPeople {
      assert options[n - 1] == n;
    }
  }

  /**
   * For a party the select allows, the total lies between one person's price
   * and the full group's, and grows with the party.
   */
  lemma TotalAmountRange(service: Service, data: BookingData, data': BookingData)
    requires service.price >= 0
    requires 1 <= data.numberOfPeople <= service.maxPeople
    requires data.numberOfPeople <= data'.numberOfPeople
    ensures service.price <= TotalAmount(service, data) <= service.price * service.maxPeople
    ensures TotalAmount(service, data) <= TotalAmount(service, data')
  {
    assert service.price * 1 <= service.price * data.numberOfPeople <= service.price * service.maxPeople by {
      MultiplyMonotone(service.price, 1, data.numberOfPeople);
      MultiplyMonotone(service.price, data.numberOfPeople, service.maxPeople);
    }
    MultiplyMonotone(service.price, data.numberOfPeople, data'.numberOfPeople);
  }

  lemma MultiplyMonotone(k: int, a: int, b: int)
    requires k >= 0 && a <= b
    ensures k * a <= k * b
  {
  }

  /**
   * The request `handleSubmitBooking` sends: the service's id, name and
   * provider, the user as customer, the entered contact and dates, the
   * displayed total, and the emergency contact only when it has a name.
   */
  function BuildRequest(service: Service, user: LibAuth.User, data: BookingData): (r: BookingRequest)
    ensures r.serviceId == service.id && r.serviceName == service.name
    ensures r.serviceProvider == service.provider.name && r.customerId == user.id
    ensures r.customerName == data.customerName && r.customerEmail == data.customerEmail
    ensures r.customerPhone == data.customerPhone
    ensures r.startDate == data.startDate && r.endDate == data.endDate
    ensures r.numberOfPeople == data.numberOfPeople && r.totalAmount == TotalAmount(service, data)
    ensures r.specialRequests == Some(data.specialRequests)
    ensures r.emergencyContact.Some? <==> data.emergencyContact.name != ""
    ensures r.emergencyContact.Some? ==> r.emergencyContact.value == data.emergencyContact
  {
    BookingRequest(service.id, service.name, service.provider.name, user.id,
      data.customerName, data.customerEmail, data.customerPhone, data.startDate, data.endDate,
      data.numberOfPeople, TotalAmount(service, data), Some(data.specialRequests),
      if data.emergencyContact.name != "" then Some(data.emergencyContact) else None)
  }

  /**
   * A booking made through the form for a catalogue service is priced from
   * the catalogue, like the canned bookings.
   */
  lemma FormBookingPriced(service: Service, user: LibAuth.User, data: BookingData, now: nat)
    requires service in MockServices()
    ensures PricedFromCatalogue(CreateBooking(BuildRequest(service, user, data), now))
  {
    var ss := MockServices();
    assert service == ss[0] || service == ss[1];
    GetServiceByIdKnown(service.id);
  }

  /**
   * The dialog's state for one service. `step` is 1 (dates and party),
   * 2 (contact) or 3 (done).
   */
  class BookingFormView {
    const service: Service
    var step: int
    var isSubmitting: bool
    var bookingData: BookingData

    /**
     * The steps fit together: the contact step and the confirmation have both
     * dates, and the party is one person or a size the select offers.
     */
    predicate Valid()
      reads this
    {
      && 1 <= step <= 3
      && (step >= 2 ==> bookingData.startDate != "" && bookingData.endDate != "")
      && 1 <= bookingData.numberOfPeople
      && (bookingData.numberOfPeople == 1 || bookingData.numberOfPeople <= service.maxPeople)
    }

    constructor (service: Service, user: Option<LibAuth.User>)
      ensures Valid()
      ensures this.service == service && step == 1 && !isSubmitting && bookingData == InitialData(user)
    {
      this.service := service;
      step := 1;
      isSubmitting := false;
      bookingData := InitialData(user);
    }

    /** The date inputs of step 1. */
    method SetDates(startDate: string, endDate: string)
      requires Valid() && step == 1
      modifies this
      ensures Valid()
      ensures bookingData == old(bookingData).(startDate := startDate, endDate := endDate)
      ensures step == old(step) && isSubmitting == old(isSubmitting)
    {
      bookingData := bookingData.(startDate := startDate, endDate := endDate);
    }

    /** The party-size select of step 1. */
    method SetNumberOfPeople(n: int)
      requires Valid() && step == 1 && n in PartySizeOptions(service.maxPeople)
      modifies this
      ensures Valid()
      ensures bookingData == old(bookingData).(numberOfPeople := n)
      ensures step == old(step) && isSubmitting == old(isSubmitting)
    {
      PartySizeChoices(service.maxPeople, n);
      bookingData := bookingData.(numberOfPeople := n);
    }

    /** "Tiếp tục": step 2, but the button is disabled until both dates are filled in. */
    method Continue()
      requires Valid() && step == 1
      modifies this
      ensures Valid()
      ensures step == if old(bookingData.startDate) != "" && old(bookingData.endDate) != "" then 2 else 1
      ensures bookingData == old(bookingData) && isSubmitting == old(isSubmitting)
    {
      if bookingData.startDate != "" && bookingData.endDate != "" {
        step := 2;
      }
    }

    /** The special-requests box of step 1. */
    method SetSpecialRequests(specialRequests: string)
      requires Valid() && step == 1
      modifies this
      ensures Valid()
      ensures bookingData == old(bookingData).(specialRequests := specialRequests)
      ensures step == old(step) && isSubmitting == old(isSubmitting)
    {
      bookingData := bookingData.(specialRequests := specialRequests);
    }

    /** The contact and emergency-contact inputs of step 2. */
    method SetContact(name: string, email: string, phone: string, emergency: EmergencyContact)
      requires Valid() && step == 2
      modifies this
      ensures Valid()
      ensures bookingData == old(bookingData).(customerName := name, customerEmail := email,
        customerPhone := phone, emergencyContact := emergency)
      ensures step == old(step) && isSubmitting == old(isSubmitting)
    {
      bookingData := bookingData.(customerName := name, customerEmail := email,
        customerPhone := phone, emergencyContact := emergency);
    }

    /** "Quay lại" on step 2. */
    method Back()
      requires Valid() && step == 2
      modifies this
      ensures Valid()
      ensures step == 1 && bookingData == old(bookingData) && isSubmitting == old(isSubmitting)
    {
      step := 1;
    }

    /**
     * `handleSubmitBooking()`. Without a signed-in user nothing happens.
     * Otherwise the request is sent; once `createBooking` resolves (`now` is
     * its clock) the dialog shows step 3 and the booking goes to the
     * `onBookingCreated` callback (`created`). `serviceThrows` is a call that
     * rejected. Submitting is over afterwards whatever happened.
     */
    method HandleSubmitBooking(user: Option<LibAuth.User>, now: nat, serviceThrows: bool)
      returns (created: Option<Booking>)
      requires Valid() && step == 2
      modifies this
      ensures Valid()
      ensures user.None? || serviceThrows ==> step == old(step) && created.None?
      ensures user.None? ==> isSubmitting == old(isSubmitting)
      ensures user.Some? ==> !isSubmitting
      ensures user.Some? && !serviceThrows ==>
        step == 3 && created == Some(CreateBooking(BuildRequest(service, user.value, bookingData), now))
      ensures bookingData == old(bookingData)
    {
      created := None;
      if user.None? {
        return;
      }
      isSubmitting := true;
      if !serviceThrows {
        var booking := CreateBooking(BuildRequest(service, user.value, bookingData), now);
        step := 3;
        created := Some(booking);
      }
      isSubmitting := false;
    }

    /**
     * "Xác nhận đặt tour": disabled while the name, e-mail or phone is empty
     * and while a submission is running.
     */
    method Submit(user: Option<LibAuth.User>, now: nat, serviceThrows: bool) returns (created: Option<Booking>)
      requires Valid() && step == 2
      modifies this
      ensures Valid()
      ensures created.Some? ==> (
        && old(bookingData.customerName) != "" && old(bookingData.customerEmail) != ""
        && old(bookingData.customerPhone) != "" && !old(isSubmitting) && user.Some?
        && step == 3
        && created.value.request.totalAmount == TotalAmount(service, bookingData)
        && created.value.request.customerId == user.value.id)
      ensures var disabled := old(bookingData.customerName) == "" || old(bookingData.customerEmail) == ""
          || old(bookingData.customerPhone) == "" || old(isSubmitting);
        && (disabled ==> step == old(step) && isSubmitting == old(isSubmitting) && created.None?)
        && (!disabled && (user.None? || serviceThrows) ==> step == old(step) && created.None?)
        && (!disabled && user.Some? ==> !isSubmitting)
        && (!disabled && user.None? ==> isSubmitting == old(isSubmitting))
        && (!disabled && user.Some? && !serviceThrows ==>
          created == Some(CreateBooking(BuildRequest(service, user.value, old(bookingData)), now)))
      ensures bookingData == old(bookingData)
    {
      created := None;
      if bookingData.customerName == "" || bookingData.customerEmail == "" || bookingData.customerPhone == ""
        || isSubmitting
      {
        return;
      }
      created := HandleSubmitBooking(user, now, serviceThrows);
    }

    /**
     * `resetForm()`, run by the step-3 buttons "Đóng" and "Xem booking của tôi"
     * (closing the dialog otherwise does not reset): step 1 and the opening data
     * for the current user.
     */
    method ResetForm(user: Option<LibAuth.User>)
      requires Valid()
      modifies this
      ensures Valid()
      ensures step == 1 && bookingData == InitialData(user) && isSubmitting == old(isSubmitting)
    {
      step := 1;
      bookingData := InitialData(user);
    }
  }
}

=== FILE: booking_list.dfy ===
/**
 * The booking list (`components/booking/booking-list.tsx`): a customer's or
 * a provider's bookings, the status update and cancellation that rewrite one
 * booking in the local list once the service acknowledges, the status tabs,
 * and which action buttons each booking offers.
 */
module BookingList {
  import opened Wrappers
  import Seqs
  import opened BookingService

  /** The `userRole` the list is shown for; it defaults to the customer. */
  datatype ListRole = CustomerRole | ProviderRole

  /** The statuses with a label of their own. */
  predicate LabelledStatus(status: string)
  {
    status == "confirmed" || status == "pending" || status == "cancelled" || status == "completed"
  }

  /** `getStatusText(status)`: the Vietnamese label, or the status itself when it has none. */
  function GetStatusText(status: string): (text: string)
    ensures !LabelledStatus(status) <==> text == status
  {
    match status
    case "confirmed" => "Đã xác nhận"
    case "pending" => "Chờ xác nhận"
    case "cancelled" => "Đã hủy"
    case "completed" => "Hoàn thành"
    case _ => status
  }

  /**
   * Every booking status is shown with a text of its own; "refunded", which
   * has no label, is shown as its wire name.
   */
  lemma StatusTextsDistinct(a: BookingStatus, b: BookingStatus)
    requires GetStatusText(StatusName(a)) == GetStatusText(StatusName(b))
    ensures a == b
    ensures GetStatusText(StatusName(Refunded)) == "refunded"
  {
  }

  /** `getPaymentStatusText(status)`: the Vietnamese label, or the status itself when it has none. */
  function GetPaymentStatusText(status: string): (text: string)
    ensures !(status == "paid" || status == "pending" || status == "refunded") <==> text == status
  {
    match status
    case "paid" => "Đã thanh toán"
    case "pending" => "Chờ thanh toán"
    case "refunded" => "Đã hoàn tiền"
    case _ => status
  }

  /** Every payment status is shown with a text of its own. */
  lemma PaymentStatusTextsDistinct(a: PaymentStatus, b: PaymentStatus)
    requires GetPaymentStatusText(PaymentStatusName(a)) == GetPaymentStatusText(PaymentStatusName(b))
    ensures a == b
  {
  }

  /**
   * The list after `updateBookingStatus` resolved: each booking with the id
   * gets the new status and the update time `now`; every other booking, and
   * every other field, is as before.
   */
  function WithStatus(bs: seq<Booking>, bookingId: string, status: BookingStatus, now: int): (r: seq<Booking>)
    ensures |r| == |bs|
    ensures forall i :: 0 <= i < |bs| && bs[i].id != bookingId ==> r[i] == bs[i]
    ensures forall i :: 0 <= i < |bs| && bs[i].id == bookingId ==> (
      && r[i].status == status && r[i].updatedAt == now
      && r[i] == bs[i].(status := r[i].status, updatedAt := r[i].updatedAt))
  {
    if bs == [] then []
    else
      var b := bs[0];
      var head := if b.id == bookingId then b.(status := status, updatedAt := now) else b;
      var tail := WithStatus(bs[1..], bookingId, status, now);
      assert forall i :: 1 <= i < |bs| ==> ([head] + tail)[i] == tail[i - 1] && bs[i] == bs[1..][i - 1];
      [head] + tail
  }

  /**
   * The list after `cancelBooking` resolved: each booking with the id is
   * cancelled with the reason and the update time `now`; its amount and
   * payment status, and every other booking, are as before.
   */
  function WithCancellation(bs: seq<Booking>, bookingId: string, reason: string, now: int): (r: seq<Booking>)
    ensures |r| == |bs|
    ensures forall i :: 0 <= i < |bs| && bs[i].id != bookingId ==> r[i] == bs[i]
    ensures forall i :: 0 <= i < |bs| && bs[i].id == bookingId ==> (
      && r[i].status == Cancelled && r[i].cancellationReason == Some(reason) && r[i].updatedAt == now
      && r[i] == bs[i].(status := Cancelled, cancellationReason := Some(reason), updatedAt := now))
  {
    if bs == [] then []
    else
      var b := bs[0];
      var head := if b.id == bookingId then b.(status := Cancelled, cancellationReason := Some(reason), updatedAt := now) else b;
      var tail := WithCancellation(bs[1..], bookingId, reason, now);
      assert forall i :: 1 <= i < |bs| ==> ([head] + tail)[i] == tail[i - 1] && bs[i] == bs[1..][i - 1];
      [head] + tail
  }

  /** The tab's test: every booking under "all", otherwise the bookings whose status is the tab. */
  predicate OnTab(b: Booking, tab: string)
  {
    tab == "all" || StatusName(b.status) == tab
  }

  /** `filteredBookings`: the bookings shown under the tab. */
  function FilteredBookings(bs: seq<Booking>, tab: string): (r: seq<Booking>)
    ensures forall i :: 0 <= i < |r| ==> r[i] in bs && OnTab(r[i], tab)
    ensures forall i :: 0 <= i < |bs| && OnTab(bs[i], tab) ==> bs[i] in r
  {
    Seqs.Filter(bs, (b: Booking) => OnTab(b, tab))
  }

  /** The tab shows the bookings in their list order, and "all" shows the list itself. */
  lemma {:induction false} FilteredBookingsOrder(bs: seq<Booking>, tab: string)
    ensures Seqs.Subsequence(FilteredBookings(bs, tab), bs)
    ensures tab == "all" ==> FilteredBookings(bs, tab) == bs
  {
    Seqs.FilterIsSubsequence(bs, (b: Booking) => OnTab(b, tab));
    if tab == "all" {
      AllTabKeepsAll(bs);
    }
  }

  lemma {:induction false} AllTabKeepsAll(bs: seq<Booking>)
    ensures Seqs.Filter(bs, (b: Booking) => OnTab(b, "all")) == bs
  {
    if bs != [] {
      AllTabKeepsAll(bs[1..]);
      assert bs == [bs[0]] + bs[1..];
    }
  }

  /** The provider's "Xác nhận" and "Từ chối" buttons: on pending bookings only. */
  predicate ProviderMayDecide(role: ListRole, b: Booking)
  {
    role == ProviderRole && b.status == Pending
  }

  /** The customer's "Hủy booking" button: on pending bookings only. */
  predicate CustomerMayCancel(role: ListRole, b: Booking)
  {
    role == CustomerRole && b.status == Pending
  }

  /** The "Thanh toán" button: a confirmed booking that is still unpaid, for either role. */
  predicate MayPay(b: Booking)
  {
    b.paymentStatus == PaymentPending && b.status == Confirmed
  }

  /** The reason a provider's rejection records. */
  const ProviderRejectReason := "Không thể phục vụ"

  /** The reason a customer's cancellation records. */
  const CustomerCancelReason := "Khách hàng hủy"

  /**
   * A cancelled booking offers no further action: it cannot be confirmed,
   * rejected, cancelled again or paid.
   */
  lemma CancellationIsFinal(bs: seq<Booking>, bookingId: string, reason: string, now: int, role: ListRole)
    ensures forall i :: 0 <= i < |bs| && bs[i].id == bookingId ==> (
      var b := WithCancellation(bs, bookingId, reason, now)[i];
      && !ProviderMayDecide(role, b) && !CustomerMayCancel(role, b) && !MayPay(b))
  {
  }

  /**
   * Confirming an unpaid booking brings up its pay button and takes away the
   * provider's buttons.
   */
  lemma ConfirmationOffersPayment(bs: seq<Booking>, bookingId: string, now: int)
    ensures forall i :: 0 <= i < |bs| && bs[i].id == bookingId && bs[i].paymentStatus == PaymentPending ==> (
      var b := WithStatus(bs, bookingId, Confirmed, now)[i];
      MayPay(b) && !ProviderMayDecide(ProviderRole, b))
  {
  }

  /** After a cancellation the booking appears under "cancelled" and no longer under "pending". */
  lemma CancelledMovesTab(bs: seq<Booking>, bookingId: string, reason: string, now: int)
    ensures forall i :: 0 <= i < |bs| && bs[i].id == bookingId ==> (
      var r := WithCancellation(bs, bookingId, reason, now);
      r[i] in FilteredBookings(r, "cancelled") && r[i] !in FilteredBookings(r, "pending"))
  {
    var r := WithCancellation(bs, bookingId, reason, now);
    forall i | 0 <= i < |bs| && bs[i].id == bookingId
      ensures r[i] in FilteredBookings(r, "cancelled") && r[i] !in FilteredBookings(r, "pending")
    {
      assert OnTab(r[i], "cancelled");
      assert !OnTab(r[i], "pending");
    }
  }

  /**
   * The component's state. The list is replaced only by the loader and by an
   * acknowledged update; the service calls are the mocks, and `serviceThrows`
   * stands for a call that rejected.
   */
  class BookingListView {
    const role: ListRole
    var bookings: seq<Booking>
    var isLoading: bool
    var activeTab: string

    /** Mounting: no bookings yet, loading, tab "all". */
    constructor (role: ListRole)
      ensures this.role == role && bookings == [] && isLoading && activeTab == "all"
    {
      this.role := role;
      bookings := [];
      isLoading := true;
      activeTab := "all";
    }

    /**
     * The loader: without a user nothing happens and the list keeps loading;
     * otherwise the customer's or the provider's bookings are fetched (a
     * failed fetch keeps the list), and loading ends.
     */
    method LoadBookings(userId: Option<string>, fetchThrows: bool)
      modifies this
      ensures userId.None? ==> bookings == old(bookings) && isLoading == old(isLoading)
      ensures userId.Some? ==> !isLoading
      ensures userId.Some? && !fetchThrows ==>
        bookings == (if role == CustomerRole then GetCustomerBookings(userId.value) else GetProviderBookings(userId.value))
      ensures userId.Some? && fetchThrows ==> bookings == old(bookings)
      ensures activeTab == old(activeTab)
    {
      if userId.None? {
        return;
      }
      if !fetchThrows {
        bookings := if role == CustomerRole then GetCustomerBookings(userId.value) else GetProviderBookings(userId.value);
      }
      isLoading := false;
    }

    /** `handleUpdateStatus`: the list changes only once the service call resolves. */
    method HandleUpdateStatus(bookingId: string, status: BookingStatus, now: int, serviceThrows: bool)
      modifies this
      ensures bookings == if serviceThrows then old(bookings) else WithStatus(old(bookings), bookingId, status, now)
      ensures isLoading == old(isLoading) && activeTab == old(activeTab)
    {
      if serviceThrows {
        return;
      }
      var ack := UpdateBookingStatus(bookingId, status, None);
      bookings := WithStatus(bookings, bookingId, status, now);
    }

    /** `handleCancelBooking`: the list changes only once the service call resolves. */
    method HandleCancelBooking(bookingId: string, reason: string, now: int, serviceThrows: bool)
      modifies this
      ensures bookings == if serviceThrows then old(bookings) else WithCancellation(old(bookings), bookingId, reason, now)
      ensures isLoading == old(isLoading) && activeTab == old(activeTab)
    {
      if serviceThrows {
        return;
      }
      var ack := CancelBooking(bookingId, reason);
      bookings := WithCancellation(bookings, bookingId, reason, now);
    }

    /** The provider's "Xác nhận" button on a shown pending booking. */
    method Confirm(b: Booking, now: int, serviceThrows: bool)
      requires ProviderMayDecide(role, b)
      modifies this
      ensures bookings == if serviceThrows then old(bookings) else WithStatus(old(bookings), b.id, Confirmed, now)
      ensures isLoading == old(isLoading) && activeTab == old(activeTab)
    {
      HandleUpdateStatus(b.id, Confirmed, now, serviceThrows);
    }

    /** The provider's "Từ chối" button: a cancellation with the provider's reason. */
    method Reject(b: Booking, now: int, serviceThrows: bool)
      requires ProviderMayDecide(role, b)
      modifies this
      ensures bookings == if serviceThrows then old(bookings) else WithCancellation(old(bookings), b.id, ProviderRejectReason, now)
      ensures isLoading == old(isLoading) && activeTab == old(activeTab)
    {
      HandleCancelBooking(b.id, ProviderRejectReason, now, serviceThrows);
    }

    /** The customer's "Hủy booking" button: a cancellation with the customer's reason. */
    method CustomerCancel(b: Booking, now: int, serviceThrows: bool)
      requires CustomerMayCancel(role, b)
      modifies this
      ensures bookings == if serviceThrows then old(bookings) else WithCancellation(old(bookings), b.id, CustomerCancelReason, now)
      ensures isLoading == old(isLoading) && activeTab == old(activeTab)
    {
      HandleCancelBooking(b.id, CustomerCancelReason, now, serviceThrows);
    }

    /** Choosing a tab. */
    method SelectTab(tab: string)
      modifies this
      ensures activeTab == tab && bookings == old(bookings) && isLoading == old(isLoading)
    {
      activeTab := tab;
    }

    /** The bookings the current tab shows. */
    function Shown(): (r: seq<Booking>)
      reads this
      ensures forall i :: 0 <= i < |r| ==> r[i] in bookings && OnTab(r[i], activeTab)
    {
      FilteredBookings(bookings, activeTab)
    }
  }
}

=== FILE: booking_service.dfy ===
/**
 * The mock booking service (`lib/booking-service.ts`): the service catalogue,
 * booking creation from a request, the canned booking lists, and the status
 * update and cancellation calls, which acknowledge without storing anything.
 */
module BookingService {
  import opened Wrappers
  import Text
  import Dates
  import Seqs

  datatype BookingStatus = Pending | Confirmed | Cancelled | Completed | Refunded

  /** The status's wire name. */
  function StatusName(s: BookingStatus): string
  {
    match s
    case Pending => "pending"
    case Confirmed => "confirmed"
    case Cancelled => "cancelled"
    case Completed => "completed"
    case Refunded => "refunded"
  }

  /** Status names are distinct, so comparing names compares statuses. */
  lemma StatusNameInjective(a: BookingStatus, b: BookingStatus)
    requires StatusName(a) == StatusName(b)
    ensures a == b
  {
  }

  datatype PaymentStatus = PaymentPending | Paid | PaymentRefunded

  function PaymentStatusName(s: PaymentStatus): string
  {
    match s
    case PaymentPending => "pending"
    case Paid => "paid"
    case PaymentRefunded => "refunded"
  }

  datatype EmergencyContact = EmergencyContact(name: string, phone: string, relationship: string)

  datatype BookingRequest = BookingRequest(
    serviceId: string,
    serviceName: string,
    serviceProvider: string,
    customerId: string,
    customerName: string,
    customerEmail: string,
    customerPhone: string,
    startDate: string,
    endDate: string,
    numberOfPeople: int,
    totalAmount: int,
    specialRequests: Option<string>,
    emergencyContact: Option<EmergencyContact>)

  /**
   * A booking extends its request (`Booking extends BookingRequest`); the
   * request's fields are kept together in `request`. Timestamps are clock
   * readings in milliseconds.
   */
  datatype Booking = Booking(
    request: BookingRequest,
    id: string,
    bookingNumber: string,
    status: BookingStatus,
    createdAt: int,
    updatedAt: int,
    paymentStatus: PaymentStatus,
    paymentMethod: Option<string>,
    cancellationReason: Option<string>,
    providerNotes: Option<string>,
    customerNotes: Option<string>)

  datatype ProviderInfo = ProviderInfo(id: string, name: string, email: string, phone: string)

  datatype Availability = Availability(startDate: string, endDate: string, availableSlots: int)

  /** A catalogue entry; its prose description is not part of this model. */
  datatype Service = Service(
    id: string,
    name: string,
    provider: ProviderInfo,
    price: int,
    duration: string,
    location: string,
    maxPeople: int,
    images: seq<string>,
    amenities: seq<string>,
    cancellationPolicy: string,
    rating: real,
    reviewCount: int,
    availability: seq<Availability>)

  /** The first catalogue entry: the Hạ Long Bay cruise. */
  function HaLongTour(): (s: Service)
    ensures s.id == "1" && s.price == 2500000 && s.maxPeople == 20
  {
    Service("1", "Tour Hạ Long Bay 3N2Đ",
      ProviderInfo("provider1", "Công ty Du lịch ABC", "abc@travel.com", "0123456789"),
      2500000, "3 ngày 2 đêm", "Hạ Long, Quảng Ninh", 20,
      ["/ha-long-bay-vietnam-beautiful-landscape-with-limes.jpg"],
      ["Du thuyền", "Bữa ăn", "Hướng dẫn viên", "Vé tham quan"],
      "Hủy miễn phí trước 7 ngày", 4.8, 156,
      [Availability("2024-02-01", "2024-02-03", 5), Availability("2024-02-15", "2024-02-17", 8)])
  }

  /** The second catalogue entry: the Sapa trek. */
  function SapaTour(): (s: Service)
    ensures s.id == "2" && s.price == 3200000 && s.maxPeople == 15
  {
    Service("2", "Khám phá Sapa 4N3Đ",
      ProviderInfo("provider2", "VietTravel Tours", "info@viettravel.com", "0987654321"),
      3200000, "4 ngày 3 đêm", "Sapa, Lào Cai", 15,
      ["/sapa-vietnam-rice-terraces-mountains-landscape.jpg"],
      ["Khách sạn", "Bữa ăn", "Xe đưa đón", "Hướng dẫn viên"],
      "Hủy miễn phí trước 5 ngày", 4.6, 89,
      [Availability("2024-02-10", "2024-02-13", 3), Availability("2024-02-20", "2024-02-23", 6)])
  }

  /** `mockServices`: two tours, under ids "1" and "2", priced per person. */
  function MockServices(): (services: seq<Service>)
    ensures |services| == 2
    ensures services[0].id == "1" && services[0].price == 2500000
    ensures services[1].id == "2" && services[1].price == 3200000
  {
    [HaLongTour(), SapaTour()]
  }

  /** `getServiceById(id)`: the catalogue entry with that id, or null when there is none. */
  function GetServiceById(id: string): (r: Option<Service>)
    ensures r.Some? ==> r.value in MockServices() && r.value.id == id
    ensures r.None? <==> forall s :: s in MockServices() ==> s.id != id
  {
    Seqs.FindFirst(MockServices(), (s: Service) => s.id == id)
  }

  /** Catalogue ids are distinct, so a look-up never has to choose between entries. */
  lemma MockServiceIdsDistinct()
    ensures Seqs.NoDuplicates(seq(2, i requires 0 <= i < 2 => MockServices()[i].id))
  {
  }

  /** `getServices()`: the whole catalogue, in which every entry is found again by its id. */
  function GetServices(): (services: seq<Service>)
    ensures |services| == 2
    ensures forall i :: 0 <= i < |services| ==> GetServiceById(services[i].id) == Some(services[i])
  {
    var ss := MockServices();
    assert ss[0].id == "1" && ss[1].id == "2";
    assert forall s :: s in ss ==> s == ss[0] || s == ss[1];
    assert ss[0] in ss && ss[1] in ss;
    ss
  }

  /** The two catalogue entries are found under "1" and "2", and nothing else is found. */
  lemma GetServiceByIdKnown(id: string)
    ensures GetServiceById(id).Some? <==> id == "1" || id == "2"
    ensures GetServiceById(id).Some? ==> GetServiceById(id).value.price == if id == "1" then 2500000 else 3200000
  {
    var ss := MockServices();
    assert ss[0] in ss && ss[1] in ss;
    assert forall s :: s in ss ==> s == ss[0] || s == ss[1];
  }

  /** `Date.now().toString().slice(-6)` after "VT". */
  function BookingNumber(now: nat): (n: string)
    ensures 3 <= |n| <= 8 && n[..2] == "VT"
    ensures Text.AllDigits(n[2..])
  {
    "VT" + Text.LastChars(Text.NatToString(now), 6)
  }

  /**
   * Once the clock has six digits, the booking number is "VT" and exactly the
   * six least significant decimal digits of the timestamp.
   */
  lemma BookingNumberDigits(now: nat)
    requires now >= 100000
    ensures BookingNumber(now) == "VT" + Text.FixedDigits(now, 6)
  {
    var s := Text.NatToString(now);
    assert |s| >= 6 by {
      NatToStringLength(now);
    }
    Text.NatToStringSuffix(now, 6);
  }

  /** A number with at least six digits has a rendering of at least six characters. */
  lemma {:induction false} NatToStringLength(n: nat)
    ensures n >= 10 ==> |Text.NatToString(n)| >= 2
    ensures n >= 100 ==> |Text.NatToString(n)| >= 3
    ensures n >= 1000 ==> |Text.NatToString(n)| >= 4
    ensures n >= 10000 ==> |Text.NatToString(n)| >= 5
    ensures n >= 100000 ==> |Text.NatToString(n)| >= 6
  {
    if n >= 10 {
      NatToStringLength(n / 10);
    }
  }

  /**
   * `createBooking(request)`: the request's fields unchanged, an id and
   * booking number taken from the clock `now`, status and payment status
   * "pending", both timestamps `now`, and no optional extras.
   */
  function CreateBooking(request: BookingRequest, now: nat): (b: Booking)
    ensures b.request == request
    ensures b.request.numberOfPeople == request.numberOfPeople && b.request.totalAmount == request.totalAmount
    ensures b.status == Pending && b.paymentStatus == PaymentPending
    ensures b.cancellationReason.None? && b.paymentMethod.None?
    ensures b.providerNotes.None? && b.customerNotes.None?
    ensures b.id == Text.NatToString(now) && b.bookingNumber == BookingNumber(now)
    ensures b.createdAt == now && b.updatedAt == now
  {
    Booking(request, Text.NatToString(now), BookingNumber(now), Pending, now, now,
      PaymentPending, None, None, None, None)
  }

  /** The mock booking records, shared by the customer and provider lists. */
  function HaLongBooking(customerId: string): Booking
  {
    Booking(
      BookingRequest("1", "Tour Hạ Long Bay 3N2Đ", "Công ty Du lịch ABC", customerId,
        "Nguyễn Văn A", "nguyenvana@email.com", "0123456789", "2024-02-01", "2024-02-03",
        2, 5000000, None, None),
      "1", "VT123456", Confirmed, Dates.January2024(15), Dates.January2024(16), Paid, Some("credit_card"),
      None, None, None)
  }

  /** `getCustomerBookings(customerId)`. */
  function GetCustomerBookings(customerId: string): (bs: seq<Booking>)
    ensures |bs| == 2
    ensures forall i :: 0 <= i < |bs| ==> bs[i].request.customerId == customerId
  {
    [
      HaLongBooking(customerId),
      Booking(
        BookingRequest("2", "Khám phá Sapa 4N3Đ", "VietTravel Tours", customerId,
          "Nguyễn Văn A", "nguyenvana@email.com", "0123456789", "2024-02-20", "2024-02-23",
          2, 6400000, None, None),
        "2", "VT789012", Pending, Dates.January2024(20), Dates.January2024(20), PaymentPending, None,
        None, None, None)
    ]
  }

  /** `getProviderBookings(providerId)`: the same two records whatever the provider. */
  function GetProviderBookings(providerId: string): (bs: seq<Booking>)
    ensures |bs| == 2
  {
    [
      HaLongBooking("customer1"),
      Booking(
        BookingRequest("1", "Tour Hạ Long Bay 3N2Đ", "Công ty Du lịch ABC", "customer2",
          "Trần Thị B", "tranthib@email.com", "0987654321", "2024-02-15", "2024-02-17",
          4, 10000000, None, None),
        "3", "VT345678", Pending, Dates.January2024(22), Dates.January2024(22), PaymentPending, None,
        None, None, None)
    ]
  }

  /** The booking's amount is its service's catalogue price times its party size. */
  predicate PricedFromCatalogue(b: Booking)
  {
    GetServiceById(b.request.serviceId).Some?
    && b.request.totalAmount == GetServiceById(b.request.serviceId).value.price * b.request.numberOfPeople
  }

  /** Both canned customer bookings are priced from the catalogue: 2500000×2 and 3200000×2. */
  lemma CustomerBookingsPriced(customerId: string)
    ensures PricedFromCatalogue(GetCustomerBookings(customerId)[0])
    ensures PricedFromCatalogue(GetCustomerBookings(customerId)[1])
  {
    PricedAt(GetCustomerBookings(customerId)[0].request, "1", 2500000);
    PricedAt(GetCustomerBookings(customerId)[1].request, "2", 3200000);
  }

  /** Both canned provider bookings are priced from the catalogue: 2500000×2 and 2500000×4. */
  lemma ProviderBookingsPriced(providerId: string)
    ensures PricedFromCatalogue(GetProviderBookings(providerId)[0])
    ensures PricedFromCatalogue(GetProviderBookings(providerId)[1])
  {
    PricedAt(GetProviderBookings(providerId)[0].request, "1", 2500000);
    PricedAt(GetProviderBookings(providerId)[1].request, "1", 2500000);
  }

  /** A request for a catalogue service whose amount is that service's price per person. */
  lemma PricedAt(r: BookingRequest, id: string, price: int)
    requires id == "1" || id == "2"
    requires price == if id == "1" then 2500000 else 3200000
    requires r.serviceId == id && r.totalAmount == price * r.numberOfPeople
    ensures GetServiceById(r.serviceId).Some?
    ensures r.totalAmount == GetServiceById(r.serviceId).value.price * r.numberOfPeople
  {
    GetServiceByIdKnown(id);
  }

  /** `updateBookingStatus(id, status, notes)`: acknowledged with `true`; nothing is stored. */
  function UpdateBookingStatus(bookingId: string, status: BookingStatus, notes: Option<string>): (ack: bool)
    ensures ack
  {
    true
  }

  /** `cancelBooking(id, reason)`: acknowledged with `true`; nothing is stored. */
  function CancelBooking(bookingId: string, reason: string): (ack: bool)
    ensures ack
  {
    true
  }
}

=== FILE: carousel.dfy ===
/**
 * The hero carousel's slide index, identical in both trees
 * (`components/hero-section.tsx` and `src/components/HeroSection.tsx`): three
 * slides, next and previous wrap around, the five-second timer advances like
 * next, and an indicator jumps to its slide.
 */
module Carousel {
  /** `heroImages.length`: Hạ Long, Sapa and Hội An. */
  const SlideCount: nat := 3

  /** `(prev + 1) % heroImages.length`. */
  function Next(i: int): (j: int)
    ensures 0 <= j < SlideCount
    ensures 0 <= i < SlideCount - 1 ==> j == i + 1
    ensures i == SlideCount - 1 ==> j == 0
  {
    (i + 1) % SlideCount
  }

  /** `(prev - 1 + heroImages.length) % heroImages.length`. */
  function Prev(i: int): (j: int)
    ensures 0 <= j < SlideCount
    ensures 0 < i < SlideCount ==> j == i - 1
    ensures i == 0 ==> j == SlideCount - 1
  {
    (i - 1 + SlideCount) % SlideCount
  }

  /** On a valid index, previous undoes next and next undoes previous. */
  lemma NextPrevInverse(i: int)
    requires 0 <= i < SlideCount
    ensures Prev(Next(i)) == i && Next(Prev(i)) == i
  {
  }

  /** Three steps forward, or three back, return to the slide they started from. */
  lemma ThreeStepsReturn(i: int)
    requires 0 <= i < SlideCount
    ensures Next(Next(Next(i))) == i
    ensures Prev(Prev(Prev(i))) == i
  {
  }

  /** The slide shown after `steps` ticks (or next clicks) starting from slide `i`. */
  function Advance(i: int, steps: nat): (j: int)
    requires 0 <= i < SlideCount
    ensures 0 <= j < SlideCount
  {
    if steps == 0 then i else Next(Advance(i, steps - 1))
  }

  /** Advancing from a slide lands on the slide the step count says, modulo three. */
  lemma {:induction false} AdvanceIsModular(i: int, steps: nat)
    requires 0 <= i < SlideCount
    ensures Advance(i, steps) == (i + steps) % SlideCount
  {
    if steps > 0 {
      AdvanceIsModular(i, steps - 1);
    }
  }

  /** The hero section's `currentSlide`. */
  class HeroCarousel {
    var currentSlide: int

    predicate Valid()
      reads this
    {
      0 <= currentSlide < SlideCount
    }

    /** The carousel starts on the first slide. */
    constructor ()
      ensures Valid() && currentSlide == 0
    {
      currentSlide := 0;
    }

    /** `nextSlide()`. */
    method NextSlide()
      requires Valid()
      modifies this
      ensures Valid() && currentSlide == Next(old(currentSlide))
    {
      currentSlide := (currentSlide + 1) % SlideCount;
    }

    /** `prevSlide()`. */
    method PrevSlide()
      requires Valid()
      modifies this
      ensures Valid() && currentSlide == Prev(old(currentSlide))
    {
      currentSlide := (currentSlide - 1 + SlideCount) % SlideCount;
    }

    /** The interval's callback, every five seconds: the same update as `nextSlide()`. */
    method Tick()
      requires Valid()
      modifies this
      ensures Valid() && currentSlide == Next(old(currentSlide))
    {
      NextSlide();
    }

    /** A click on the indicator at `index`, one per slide. */
    method GoTo(index: nat)
      requires Valid() && index < SlideCount
      modifies this
      ensures Valid() && currentSlide == index
    {
      currentSlide := index;
    }
  }
}

=== FILE: dates.dfy ===
/** The calendar dates the canned data is stamped with. */
module Dates {
  /**
   * `new Date("2024-01-DD")`: UTC midnight of a January 2024 day, in
   * milliseconds since the epoch; 1 January 2024 is day 19723 after it.
   */
  function January2024(day: int): int
  {
    (19723 + day - 1) * 86400000
  }
}

=== FILE: helpers.dfy ===
/**
 * The pure helpers of the Vite tree (`src/utils/helpers.ts`): duration
 * wording, truncation, discount percentages, slugs, the e-mail and phone
 * validators, "time ago" wording and image URLs.
 */
module Helpers {
  import opened Wrappers
  import Text

  // ---------------------------------------------------------------------
  // formatDuration
  // ---------------------------------------------------------------------

  /** `formatDuration(days)`: "1 ngày", otherwise "N ngày N-1 đêm". */
  function FormatDuration(days: int): (s: string)
    ensures days == 1 ==> s == "1 ngày"
    ensures days != 1 ==> s == Text.IntToString(days) + " ngày " + Text.IntToString(days - 1) + " đêm"
  {
    if days == 1 then "1 ngày"
    else if days == 2 then "2 ngày 1 đêm"
    else Text.IntToString(days) + " ngày " + Text.IntToString(days - 1) + " đêm"
  }

  /** Different durations are worded differently. */
  lemma FormatDurationInjective(m: int, n: int)
    requires FormatDuration(m) == FormatDuration(n)
    ensures m == n
  {
    var sa := DurationTail(m);
    var sb := DurationTail(n);
    FormatDurationSplit(m);
    FormatDurationSplit(n);
    IntToStringNoSpace(m);
    IntToStringNoSpace(n);
    NoSpacePrefixesEqual(Text.IntToString(m), sa, Text.IntToString(n), sb);
    IntToStringInjective(m, n);
  }

  /** What follows the number in a duration's wording. */
  function DurationTail(days: int): (t: string)
    ensures t != [] && t[0] == ' '
  {
    if days == 1 then " ngày" else " ngày " + Text.IntToString(days - 1) + " đêm"
  }

  /** A duration's wording is the number followed by the tail. */
  lemma FormatDurationSplit(days: int)
    ensures FormatDuration(days) == Text.IntToString(days) + DurationTail(days)
  {
    if days == 1 {
      assert Text.IntToString(1) == "1";
    }
  }

  /** A decimal rendering contains no white space. */
  lemma IntToStringNoSpace(i: int)
    ensures Text.NoSpace(Text.IntToString(i))
  {
    var s := Text.IntToString(i);
    forall k | 0 <= k < |s| ensures !Text.IsSpace(s[k]) {
      if i < 0 && k > 0 {
        assert s[k] == Text.NatToString(-i)[k - 1];
      }
    }
  }

  /** Two splits of one string at its first white space agree. */
  lemma NoSpacePrefixesEqual(a: string, x: string, b: string, y: string)
    requires a + x == b + y
    requires x != [] && x[0] == ' ' && y != [] && y[0] == ' '
    requires Text.NoSpace(a) && Text.NoSpace(b)
    ensures a == b
  {
    var s := a + x;
    assert Text.IsSpace(s[|a|]) && Text.IsSpace(s[|b|]);
    assert forall k :: 0 <= k < |a| ==> !Text.IsSpace(s[k]);
    assert forall k :: 0 <= k < |b| ==> !Text.IsSpace(s[k]);
    assert |a| == |b|;
    assert a == s[..|a|] == s[..|b|] == b;
  }

  /** Distinct integers have distinct renderings. */
  lemma IntToStringInjective(m: int, n: int)
    requires Text.IntToString(m) == Text.IntToString(n)
    ensures m == n
  {
    var s := Text.IntToString(m);
    if m < 0 && n < 0 {
      assert Text.NatToString(-m) == s[1..] == Text.NatToString(-n);
      Text.NatToStringInjective(-m, -n);
    } else if m >= 0 && n >= 0 {
      Text.NatToStringInjective(m, n);
    } else {
      assert false;
    }
  }

  // ---------------------------------------------------------------------
  // truncateText
  // ---------------------------------------------------------------------

  /**
   * `truncateText(text, maxLength)`: the text when it fits, otherwise its
   * first `maxLength` characters, trimmed, and "...".
   */
  function TruncateText(text: string, maxLength: int): (r: string)
    ensures |text| <= maxLength ==> r == text
    ensures |text| > maxLength ==> (
      && |r| >= 3 && r[|r| - 3..] == "..."
      && |r| <= (if maxLength < 0 then 0 else maxLength) + 3
      && r[..|r| - 3] == Text.Trim(text[..if maxLength < 0 then 0 else maxLength]))
  {
    if |text| <= maxLength then text
    else
      var cut := if maxLength < 0 then 0 else maxLength;
      var core := Text.Trim(text[..cut]);
      assert |core| <= |Text.TrimStart(text[..cut])| <= cut;
      var r := core + "...";
      assert r[..|r| - 3] == core && r[|r| - 3..] == "...";
      r
  }

  // ---------------------------------------------------------------------
  // calculateDiscountPercentage
  // ---------------------------------------------------------------------

  /** `Math.round(x)`: the nearest integer, halves rounded up. */
  function Round(x: real): (n: int)
    ensures n as real - 0.5 <= x < n as real + 0.5
  {
    (x + 0.5).Floor
  }

  /**
   * `calculateDiscountPercentage(original, discounted)`; `None` stands for
   * the non-finite number the division gives when the original price is 0.
   */
  function CalculateDiscountPercentage(originalPrice: real, discountedPrice: real): (r: Option<int>)
    ensures r.None? <==> originalPrice == 0.0
    ensures r.Some? ==> var exact := (originalPrice - discountedPrice) / originalPrice * 100.0;
      r.value as real - 0.5 <= exact < r.value as real + 0.5
  {
    if originalPrice == 0.0 then None
    else Some(Round((originalPrice - discountedPrice) / originalPrice * 100.0))
  }

  /**
   * For a positive original price and a discounted price between 0 and it,
   * the percentage lies in 0..100, is 0 for equal prices, and is positive
   * exactly when the discount is at least half a percent.
   */
  lemma DiscountPercentageRange(originalPrice: real, discountedPrice: real)
    requires 0.0 < originalPrice && 0.0 <= discountedPrice <= originalPrice
    ensures var r := CalculateDiscountPercentage(originalPrice, discountedPrice);
      && r.Some? && 0 <= r.value <= 100
      && (discountedPrice == originalPrice ==> r.value == 0)
      && (r.value >= 1 <==> (originalPrice - discountedPrice) * 200.0 >= originalPrice)
  {
    var exact := (originalPrice - discountedPrice) / originalPrice * 100.0;
    assert 0.0 <= exact <= 100.0 by {
      assert (originalPrice - discountedPrice) / originalPrice <= 1.0;
    }
    assert exact >= 0.5 <==> (originalPrice - discountedPrice) * 200.0 >= originalPrice by {
      assert exact * originalPrice == (originalPrice - discountedPrice) * 100.0;
    }
  }

  // ---------------------------------------------------------------------
  // generateSlug
  // ---------------------------------------------------------------------

  /** A combining diacritical mark, U+0300 to U+036F. */
  predicate IsCombiningMark(c: char)
  {
    '\U{0300}' <= c <= '\U{036F}'
  }

  /** Removal of every combining mark. */
  function RemoveMarks(s: string): (r: string)
    ensures forall i :: 0 <= i < |r| ==> !IsCombiningMark(r[i]) && r[i] in s
    ensures forall c :: c in s && !IsCombiningMark(c) ==> c in r
  {
    if s == [] then []
    else if IsCombiningMark(s[0]) then RemoveMarks(s[1..])
    else [s[0]] + RemoveMarks(s[1..])
  }

  /** `.replace(/[đĐ]/g, "d")`. */
  function ReplaceDStroke(s: string): (r: string)
    ensures |r| == |s|
    ensures forall i :: 0 <= i < |s| ==> r[i] == if s[i] == 'đ' || s[i] == 'Đ' then 'd' else s[i]
  {
    if s == [] then [] else [if s[0] == 'đ' || s[0] == 'Đ' then 'd' else s[0]] + ReplaceDStroke(s[1..])
  }

  /** What a slug is made of. */
  predicate IsSlugChar(c: char)
  {
    ('a' <= c <= 'z') || ('0' <= c <= '9') || c == '-'
  }

  /** `.replace(/[^a-z0-9\s-]/g, "")`. */
  function KeepSlugChars(s: string): (r: string)
    ensures forall i :: 0 <= i < |r| ==> (IsSlugChar(r[i]) || Text.IsSpace(r[i])) && r[i] in s
    ensures forall c :: c in s && (IsSlugChar(c) || Text.IsSpace(c)) ==> c in r
  {
    if s == [] then []
    else if IsSlugChar(s[0]) || Text.IsSpace(s[0]) then [s[0]] + KeepSlugChars(s[1..])
    else KeepSlugChars(s[1..])
  }

  /** The rest of `s` after its leading run of white space. */
  function SkipSpaces(s: string): (r: string)
    ensures |r| <= |s| && r == s[|s| - |r|..]
    ensures r != [] ==> !Text.IsSpace(r[0])
  {
    if s != [] && Text.IsSpace(s[0]) then SkipSpaces(s[1..]) else s
  }

  /** `.replace(/\s+/g, "-")`: every run of white space becomes one hyphen. */
  function SpacesToHyphens(s: string): (r: string)
    ensures Text.NoSpace(s) ==> r == s
    ensures s != [] ==> r != [] && r[0] == if Text.IsSpace(s[0]) then '-' else s[0]
    ensures forall i :: 0 <= i < |r| ==> r[i] == '-' || (r[i] in s && !Text.IsSpace(r[i]))
    decreases |s|
  {
    if s == [] then []
    else if Text.IsSpace(s[0]) then
      var rest := SkipSpaces(s[1..]);
      assert forall c :: c in rest ==> c in s;
      "-" + SpacesToHyphens(rest)
    else
      assert Text.NoSpace(s) ==> Text.NoSpace(s[1..]);
      [s[0]] + SpacesToHyphens(s[1..])
  }

  /** The rest of `s` after its leading run of hyphens. */
  function SkipHyphens(s: string): (r: string)
    ensures |r| <= |s| && r == s[|s| - |r|..]
    ensures r != [] ==> r[0] != '-'
  {
    if s != [] && s[0] == '-' then SkipHyphens(s[1..]) else s
  }

  /** No hyphen is directly followed by another. */
  predicate NoDoubleHyphen(s: string)
  {
    forall i :: 0 <= i < |s| - 1 ==> !(s[i] == '-' && s[i + 1] == '-')
  }

  /** A character in front keeps a text free of doubled hyphens unless both it and the text's first are hyphens. */
  lemma ConsNoDoubleHyphen(c: char, tail: string)
    requires NoDoubleHyphen(tail)
    requires c == '-' && tail != [] ==> tail[0] != '-'
    ensures NoDoubleHyphen([c] + tail)
  {
    var r := [c] + tail;
    forall i | 0 <= i < |r| - 1
      ensures !(r[i] == '-' && r[i + 1] == '-')
    {
      if i > 0 {
        assert r[i] == tail[i - 1] && r[i + 1] == tail[i];
      }
    }
  }

  /** Every character of `r` occurs in `s`. */
  predicate DrawnFrom(r: string, s: string)
  {
    forall i :: 0 <= i < |r| ==> r[i] in s
  }

  /** Characters drawn from a suffix of `s` are drawn from `s`. */
  lemma DrawnFromSuffix(r: string, rest: string, s: string)
    requires |rest| <= |s| && rest == s[|s| - |rest|..]
    requires DrawnFrom(r, rest)
    ensures DrawnFrom(r, s)
  {
    forall i | 0 <= i < |r|
      ensures r[i] in s
    {
      var k :| 0 <= k < |rest| && rest[k] == r[i];
      assert s[|s| - |rest| + k] == rest[k];
    }
  }

  /** A character of `s` in front of characters drawn from `s` keeps them drawn from `s`. */
  lemma ConsDrawnFrom(c: char, tail: string, s: string)
    requires c in s && DrawnFrom(tail, s)
    ensures DrawnFrom([c] + tail, s)
  {
    var r := [c] + tail;
    forall i | 0 <= i < |r|
      ensures r[i] in s
    {
      if i > 0 {
        assert r[i] == tail[i - 1];
      }
    }
  }

  /** `.replace(/-+/g, "-")`: every run of hyphens becomes one hyphen. */
  function CollapseHyphens(s: string): (r: string)
    ensures s != [] <==> r != []
    ensures r != [] && s != [] ==> (r[0] == '-' <==> s[0] == '-')
    decreases |s|
  {
    if s == [] then []
    else if s[0] == '-' then [s[0]] + CollapseHyphens(SkipHyphens(s[1..]))
    else [s[0]] + CollapseHyphens(s[1..])
  }

  /** After collapsing, no hyphen is directly followed by another. */
  lemma {:induction false} CollapseHyphensNoDoubleHyphen(s: string)
    ensures NoDoubleHyphen(CollapseHyphens(s))
    decreases |s|
  {
    if s != [] {
      var rest := if s[0] == '-' then SkipHyphens(s[1..]) else s[1..];
      CollapseHyphensNoDoubleHyphen(rest);
      ConsNoDoubleHyphen(s[0], CollapseHyphens(rest));
    }
  }

  /** Collapsing only removes hyphens: every character of the result is one of the input's. */
  lemma {:induction false} CollapseHyphensDrawnFrom(s: string)
    ensures DrawnFrom(CollapseHyphens(s), s)
    decreases |s|
  {
    if s != [] {
      var rest := if s[0] == '-' then SkipHyphens(s[1..]) else s[1..];
      assert rest == s[|s| - |rest|..];
      CollapseHyphensDrawnFrom(rest);
      DrawnFromSuffix(CollapseHyphens(rest), rest, s);
      ConsDrawnFrom(s[0], CollapseHyphens(rest), s);
    }
  }

  /** The steps after diacritics are gone, up to and including the collapsing of hyphens. */
  function SlugCore(normalized: string): (r: string)
    ensures forall i :: 0 <= i < |r| ==> IsSlugChar(r[i])
    ensures NoDoubleHyphen(r)
  {
    var hyphenated := SpacesToHyphens(Clean(normalized));
    assert forall i :: 0 <= i < |hyphenated| ==> IsSlugChar(hyphenated[i]);
    CollapseHyphensNoDoubleHyphen(hyphenated);
    CollapseHyphensDrawnFrom(hyphenated);
    CollapseHyphens(hyphenated)
  }

  /**
   * `generateSlug(text)` as written, on `normalized`, the text already
   * lower-cased and decomposed (NFD). The closing `.trim()` comes after all
   * white space has become hyphens.
   */
  function GenerateSlug(normalized: string): (slug: string)
    ensures forall i :: 0 <= i < |slug| ==> IsSlugChar(slug[i])
    ensures NoDoubleHyphen(slug)
  {
    var core := SlugCore(normalized);
    Text.TrimNoSpace(core);
    Text.Trim(core)
  }

  /** The closing `.trim()` never changes anything: a slug has no white space left to trim. */
  lemma GenerateSlugTrimIsDead(normalized: string)
    ensures GenerateSlug(normalized) == SlugCore(normalized)
  {
    Text.TrimNoSpace(SlugCore(normalized));
  }

  /** So white space in front of the title shows as a hyphen in front of the slug. */
  lemma GenerateSlugLeadingSpace(title: string)
    requires title != [] && Text.IsSpace(title[0])
    ensures GenerateSlug(title) != [] && GenerateSlug(title)[0] == '-'
  {
    GenerateSlugTrimIsDead(title);
    CleanHead(title);
  }

  /** A title starting with a plain letter gives a slug starting with that letter. */
  lemma GenerateSlugLeadingLetter(title: string)
    requires title != [] && 'a' <= title[0] <= 'z'
    ensures GenerateSlug(title) != [] && GenerateSlug(title)[0] == title[0]
  {
    GenerateSlugTrimIsDead(title);
    CleanHead(title);
  }

  /** A slug: slug characters only, never two hyphens in a row. */
  predicate IsSlug(s: string)
  {
    (forall i :: 0 <= i < |s| ==> IsSlugChar(s[i])) && NoDoubleHyphen(s)
  }

  /** A slug is its own slug: every step of the chain leaves it as it is. */
  lemma SlugIsItsOwnSlug(s: string)
    requires IsSlug(s)
    ensures GenerateSlug(s) == s
  {
    SlugCharsSurviveCleaning(s);
    assert Text.NoSpace(s);
    CollapseHyphensKeepsSingles(s);
    GenerateSlugTrimIsDead(s);
  }

  /** Cleaning leaves text made of slug characters and white space unchanged. */
  lemma {:induction false} SlugCharsSurviveCleaning(s: string)
    requires forall i :: 0 <= i < |s| ==> IsSlugChar(s[i]) || Text.IsSpace(s[i])
    ensures RemoveMarks(s) == s && ReplaceDStroke(s) == s && KeepSlugChars(s) == s
  {
    if s != [] {
      SlugCharsSurviveCleaning(s[1..]);
    }
  }

  /** Collapsing leaves text without doubled hyphens unchanged. */
  lemma {:induction false} CollapseHyphensKeepsSingles(s: string)
    requires NoDoubleHyphen(s)
    ensures CollapseHyphens(s) == s
  {
    if s != [] {
      assert NoDoubleHyphen(s[1..]) by {
        forall i | 0 <= i < |s[1..]| - 1
          ensures !(s[1..][i] == '-' && s[1..][i + 1] == '-')
        {
          assert s[1..][i] == s[i + 1] && s[1..][i + 1] == s[i + 2];
        }
      }
      if s[0] == '-' && |s| > 1 {
        assert s[1] != '-';
      }
      assert s[0] == '-' ==> SkipHyphens(s[1..]) == s[1..];
      CollapseHyphensKeepsSingles(s[1..]);
    }
  }

  /** The trim misses its purpose: " a" and "a" get different slugs, "-a" and "a". */
  lemma GenerateSlugEdgeSpaceShows()
    ensures GenerateSlug(" a") != GenerateSlug("a")
  {
    GenerateSlugLeadingSpace(" a");
    GenerateSlugLeadingLetter("a");
  }

  /** The cleaning steps keep a leading space or plain letter where it is. */
  lemma CleanHead(title: string)
    requires title != [] && (Text.IsSpace(title[0]) || 'a' <= title[0] <= 'z')
    ensures Clean(title) != [] && Clean(title)[0] == title[0]
  {
    var c := title[0];
    assert RemoveMarks(title) == [c] + RemoveMarks(title[1..]);
    assert ReplaceDStroke(RemoveMarks(title))[0] == c;
  }

  /**
   * The slug with the trim where it has an effect: after special characters
   * are removed and before white space becomes hyphens.
   */
  function GenerateSlugTrimmed(normalized: string): (slug: string)
    ensures forall i :: 0 <= i < |slug| ==> IsSlugChar(slug[i])
    ensures NoDoubleHyphen(slug)
  {
    var kept := Text.Trim(Clean(normalized));
    TrimmedCleanChars(normalized);
    var hyphenated := SpacesToHyphens(kept);
    assert forall i :: 0 <= i < |hyphenated| ==> IsSlugChar(hyphenated[i]);
    CollapseHyphensNoDoubleHyphen(hyphenated);
    CollapseHyphensDrawnFrom(hyphenated);
    CollapseHyphens(hyphenated)
  }

  /** Trimming a cleaned title keeps only slug characters and white space. */
  lemma TrimmedCleanChars(normalized: string)
    ensures forall k :: 0 <= k < |Text.Trim(Clean(normalized))| ==>
      IsSlugChar(Text.Trim(Clean(normalized))[k]) || Text.IsSpace(Text.Trim(Clean(normalized))[k])
  {
    var c := Clean(normalized);
    var i, j := Text.TrimSpec(c);
    forall k | 0 <= k < |Text.Trim(c)|
      ensures IsSlugChar(Text.Trim(c)[k]) || Text.IsSpace(Text.Trim(c)[k])
    {
      assert Text.Trim(c)[k] == c[i + k];
    }
  }

  /** With the trim in place, white space around the title leaves no trace in the slug. */
  lemma GenerateSlugTrimmedIgnoresEdgeSpace(w1: string, title: string, w2: string)
    requires forall i :: 0 <= i < |w1| ==> Text.IsSpace(w1[i])
    requires forall i :: 0 <= i < |w2| ==> Text.IsSpace(w2[i])
    ensures GenerateSlugTrimmed(w1 + title + w2) == GenerateSlugTrimmed(title)
  {
    SpaceSurvivesCleaning(w1);
    SpaceSurvivesCleaning(w2);
    CleanAppend(w1, title);
    CleanAppend(w1 + title, w2);
    Text.TrimSurroundingSpace(w1, Clean(title), w2);
  }

  /** The per-character cleaning steps, composed: marks removed, đ replaced, other characters dropped. */
  function Clean(s: string): (r: string)
    ensures forall i :: 0 <= i < |r| ==> IsSlugChar(r[i]) || Text.IsSpace(r[i])
  {
    KeepSlugChars(ReplaceDStroke(RemoveMarks(s)))
  }

  /** Cleaning works piecewise on a concatenation. */
  lemma CleanAppend(a: string, b: string)
    ensures Clean(a + b) == Clean(a) + Clean(b)
  {
    RemoveMarksAppend(a, b);
    ReplaceDStrokeAppend(RemoveMarks(a), RemoveMarks(b));
    KeepSlugCharsAppend(ReplaceDStroke(RemoveMarks(a)), ReplaceDStroke(RemoveMarks(b)));
  }

  lemma {:induction false} RemoveMarksAppend(a: string, b: string)
    ensures RemoveMarks(a + b) == RemoveMarks(a) + RemoveMarks(b)
  {
    if a == [] {
      assert a + b == b;
    } else {
      assert (a + b)[0] == a[0] && (a + b)[1..] == a[1..] + b;
      RemoveMarksAppend(a[1..], b);
    }
  }

  lemma ReplaceDStrokeAppend(a: string, b: string)
    ensures ReplaceDStroke(a + b) == ReplaceDStroke(a) + ReplaceDStroke(b)
  {
  }

  lemma {:induction false} KeepSlugCharsAppend(a: string, b: string)
    ensures KeepSlugChars(a + b) == KeepSlugChars(a) + KeepSlugChars(b)
  {
    if a == [] {
      assert a + b == b;
    } else {
      assert (a + b)[0] == a[0] && (a + b)[1..] == a[1..] + b;
      KeepSlugCharsAppend(a[1..], b);
    }
  }

  /** White space passes the cleaning steps unchanged. */
  lemma {:induction false} SpaceSurvivesCleaning(w: string)
    requires forall i :: 0 <= i < |w| ==> Text.IsSpace(w[i])
    ensures Clean(w) == w
  {
    SlugCharsSurviveCleaning(w);
  }

  // ---------------------------------------------------------------------
  // validateEmail
  // ---------------------------------------------------------------------

  /** No white space and no '@' anywhere in `s`. */
  predicate Clear(s: string)
  {
    forall i :: 0 <= i < |s| ==> !Text.IsSpace(s[i]) && s[i] != '@'
  }

  /** One part of an address: non-empty, no white space, no '@'. */
  predicate EmailPart(s: string)
  {
    s != [] && Clear(s)
  }

  /** `s` is `local@domain.tld` with these three parts. */
  predicate EmailShape(s: string, local: string, domain: string, tld: string)
  {
    s == local + "@" + domain + "." + tld && EmailPart(local) && EmailPart(domain) && EmailPart(tld)
  }

  /**
   * `validateEmail(email)`: the test of `/^[^\s@]+@[^\s@]+\.[^\s@]+$/`,
   * decided by finding the '@' and then a '.' strictly inside what follows.
   */
  function ValidateEmail(email: string): (ok: bool)
  {
    var at := Text.IndexOf(email, '@');
    if at <= 0 then false
    else
      var host := email[at + 1..];
      && Text.NoSpace(email)
      && '@' !in host
      && |host| >= 3
      && '.' in host[1..|host| - 1]
  }

  /** `validateEmail` accepts exactly the strings of the shape the pattern describes. */
  lemma ValidateEmailSpec(email: string)
    ensures ValidateEmail(email) <==> exists l, d, t :: EmailShape(email, l, d, t)
  {
    if ValidateEmail(email) {
      ValidateEmailSound(email);
    }
    if exists l, d, t :: EmailShape(email, l, d, t) {
      var l, d, t :| EmailShape(email, l, d, t);
      ValidateEmailComplete(email, l, d, t);
    }
  }

  lemma ClearAppend(a: string, b: string)
    requires Clear(a) && Clear(b)
    ensures Clear(a + b)
  {
    forall i | 0 <= i < |a + b| ensures !Text.IsSpace((a + b)[i]) && (a + b)[i] != '@' {
      if i < |a| {
        assert (a + b)[i] == a[i];
      } else {
        assert (a + b)[i] == b[i - |a|];
      }
    }
  }

  lemma ClearTake(s: string, n: nat)
    requires n <= |s| && Clear(s)
    ensures Clear(s[..n])
  {
    forall k | 0 <= k < n ensures !Text.IsSpace(s[..n][k]) && s[..n][k] != '@' {
      assert s[..n][k] == s[k];
    }
  }

  lemma ClearDrop(s: string, n: nat)
    requires n <= |s| && Clear(s)
    ensures Clear(s[n..])
  {
    forall k | 0 <= k < |s| - n ensures !Text.IsSpace(s[n..][k]) && s[n..][k] != '@' {
      assert s[n..][k] == s[n + k];
    }
  }

  /** A prefix of a string without white space that holds no '@' is clear. */
  lemma NoAtPrefixClear(s: string, n: nat)
    requires n <= |s| && Text.NoSpace(s) && '@' !in s[..n]
    ensures Clear(s[..n])
  {
    forall k | 0 <= k < n ensures !Text.IsSpace(s[..n][k]) && s[..n][k] != '@' {
      assert s[..n][k] == s[k];
    }
  }

  /** A suffix of a string without white space that holds no '@' is clear. */
  lemma NoAtSuffixClear(s: string, n: nat)
    requires n <= |s| && Text.NoSpace(s) && '@' !in s[n..]
    ensures Clear(s[n..])
  {
    forall k | 0 <= k < |s| - n ensures !Text.IsSpace(s[n..][k]) && s[n..][k] != '@' {
      assert s[n..][k] == s[n + k];
    }
  }

  /** An accepted address splits into three parts at its '@' and a later '.'. */
  lemma ValidateEmailSound(email: string)
    requires ValidateEmail(email)
    ensures exists l, d, t :: EmailShape(email, l, d, t)
  {
    var at := Text.IndexOf(email, '@');
    var local := email[..at];
    var host := email[at + 1..];
    NoAtPrefixClear(email, at);
    NoAtSuffixClear(email, at + 1);
    assert email == local + "@" + host;
    var inner := host[1..|host| - 1];
    var j := Text.IndexOf(inner, '.');
    assert host[j + 1] == '.';
    var domain := host[..j + 1];
    var tld := host[j + 2..];
    assert host == domain + "." + tld;
    ClearTake(host, j + 1);
    ClearDrop(host, j + 2);
    assert EmailShape(email, local, domain, tld);
  }

  /** Every address of the pattern's shape is accepted. */
  lemma ValidateEmailComplete(email: string, l: string, d: string, t: string)
    requires EmailShape(email, l, d, t)
    ensures ValidateEmail(email)
  {
    var host := d + "." + t;
    assert Clear(".");
    ClearAppend(d, ".");
    ClearAppend(d + ".", t);
    assert email == l + ['@'] + host;
    assert '@' !in l;
    IndexOfFirst(l, '@', host);
    ClearAround(l, '@', host);
    assert email[|l| + 1..] == host;
    assert host[1..|host| - 1][|d| - 1] == '.';
    assert '@' !in host;
  }

  /** The first occurrence of `c` in `a + [c] + b` when `a` holds none. */
  lemma IndexOfFirst(a: string, c: char, b: string)
    requires c !in a
    ensures Text.IndexOf(a + [c] + b, c) == |a|
  {
    var s := a + [c] + b;
    assert s[|a|] == c;
  }

  /** Two clear strings joined by a character that is not white space leave no white space. */
  lemma ClearAround(a: string, c: char, b: string)
    requires Clear(a) && Clear(b) && !Text.IsSpace(c)
    ensures Text.NoSpace(a + [c] + b)
  {
    var s := a + [c] + b;
    forall i | 0 <= i < |s| ensures !Text.IsSpace(s[i]) {
      if i < |a| {
        assert s[i] == a[i];
      } else if i > |a| {
        assert s[i] == b[i - |a| - 1];
      }
    }
  }

  // ---------------------------------------------------------------------
  // validatePhone
  // ---------------------------------------------------------------------

  /** `[3-9]`. */
  predicate IsNetworkDigit(c: char) { '3' <= c <= '9' }

  /** The test of `/^(\+84|0)[3-9]\d{8}$/` on a string without white space. */
  predicate PhoneShape(t: string)
  {
    || (|t| == 10 && t[0] == '0' && IsNetworkDigit(t[1]) && Text.AllDigits(t[2..]))
    || (|t| == 12 && t[..3] == "+84" && IsNetworkDigit(t[3]) && Text.AllDigits(t[4..]))
  }

  /** `validatePhone(phone)`: the pattern, after all white space is removed. */
  function ValidatePhone(phone: string): (ok: bool)
    ensures ok ==> |Text.RemoveSpaces(phone)| == 10 || |Text.RemoveSpaces(phone)| == 12
  {
    PhoneShape(Text.RemoveSpaces(phone))
  }

  /** White space anywhere in the number is ignored. */
  lemma ValidatePhoneIgnoresSpace(a: string, w: string, b: string)
    requires forall i :: 0 <= i < |w| ==> Text.IsSpace(w[i])
    ensures ValidatePhone(a + w + b) == ValidatePhone(a + b)
  {
    Text.RemoveSpacesAppend(a + w, b);
    Text.RemoveSpacesAppend(a, w);
    Text.RemoveSpacesAppend(a, b);
    AllSpaceRemoved(w);
    assert Text.RemoveSpaces(a + w) == Text.RemoveSpaces(a) + [];
    assert Text.RemoveSpaces(a + w + b) == Text.RemoveSpaces(a + b);
  }

  lemma {:induction false} AllSpaceRemoved(w: string)
    requires forall i :: 0 <= i < |w| ==> Text.IsSpace(w[i])
    ensures Text.RemoveSpaces(w) == []
  {
    if w != [] {
      AllSpaceRemoved(w[1..]);
    }
  }

  /** The domestic prefix "0" and the international prefix "+84" are accepted alike. */
  lemma ValidatePhonePrefixes(rest: string)
    ensures ValidatePhone("0" + rest) == ValidatePhone("+84" + rest)
  {
    Text.RemoveSpacesAppend("0", rest);
    Text.RemoveSpacesAppend("+84", rest);
    var r := Text.RemoveSpaces(rest);
    assert Text.RemoveSpaces("0") == "0";
    assert Text.RemoveSpaces("+84") == "+84" by {
      assert Text.RemoveSpaces("+84") == ['+'] + Text.RemoveSpaces("84");
      assert Text.RemoveSpaces("84") == ['8'] + Text.RemoveSpaces("4");
    }
    var d := "0" + r;
    var i := "+84" + r;
    if |r| == 9 {
      assert d[2..] == r[1..] && i[4..] == r[1..] && d[1] == r[0] && i[3] == r[0];
    }
  }

  // ---------------------------------------------------------------------
  // getTimeAgo
  // ---------------------------------------------------------------------

  datatype TimeUnit = JustNow | Minutes | Hours | Days | Months | Years

  /** Seconds per unit; a month is 30 days and a year 365. */
  function UnitSeconds(u: TimeUnit): (n: nat)
    ensures n >= 1
  {
    match u
    case JustNow => 1
    case Minutes => 60
    case Hours => 3600
    case Days => 86400
    case Months => 2592000
    case Years => 31536000
  }

  /**
   * The unit `getTimeAgo` picks for an elapsed time in seconds: the largest
   * of minute, hour, day, month (30 days) and year (365 days) that has
   * fully elapsed, and "just now" under a minute.
   */
  function TimeAgoUnit(seconds: int): (u: TimeUnit)
    ensures u == JustNow <==> seconds < 60
    ensures u == Minutes <==> 60 <= seconds < 3600
    ensures u == Hours <==> 3600 <= seconds < 86400
    ensures u == Days <==> 86400 <= seconds < 2592000
    ensures u == Months <==> 2592000 <= seconds < 31536000
    ensures u == Years <==> 31536000 <= seconds
  {
    if seconds < 60 then JustNow
    else if seconds < 3600 then Minutes
    else if seconds < 86400 then Hours
    else if seconds < 2592000 then Days
    else if seconds < 31536000 then Months
    else Years
  }

  /**
   * The count in the chosen unit is at least 1 and stays below the point
   * where the next unit takes over: 1-59 minutes, 1-23 hours, 1-29 days,
   * 1-12 months, or at least a year.
   */
  lemma TimeAgoCountRange(seconds: int)
    requires seconds >= 60
    ensures var u := TimeAgoUnit(seconds); var n := seconds / UnitSeconds(u);
      && n >= 1
      && (u == Minutes ==> n <= 59)
      && (u == Hours ==> n <= 23)
      && (u == Days ==> n <= 29)
      && (u == Months ==> n <= 12)
  {
  }

  /** The Vietnamese word for a unit of at least a minute. */
  function UnitWord(u: TimeUnit): string
    requires u != JustNow
  {
    match u
    case Minutes => "phút"
    case Hours => "giờ"
    case Days => "ngày"
    case Months => "tháng"
    case Years => "năm"
  }

  /**
   * `getTimeAgo(date)` at clock `nowMillis` for a date at `pastMillis`:
   * whole seconds elapsed, worded in the largest unit that fits as
   * "<count> <unit> trước" ("<count> <unit> ago").
   */
  function GetTimeAgo(nowMillis: int, pastMillis: int): (s: string)
    ensures s == "vừa xong" <==> (nowMillis - pastMillis) / 1000 < 60
    ensures var seconds := (nowMillis - pastMillis) / 1000; var u := TimeAgoUnit(seconds);
      seconds >= 60 ==> s == Text.IntToString(seconds / UnitSeconds(u)) + " " + UnitWord(u) + " trước"
  {
    var seconds := (nowMillis - pastMillis) / 1000;
    var u := TimeAgoUnit(seconds);
    if u == JustNow then "vừa xong"
    else
      var s := Text.IntToString(seconds / UnitSeconds(u)) + " " + UnitWord(u) + " trước";
      assert s[|s| - 1] == 'c' && "vừa xong"[|"vừa xong"| - 1] == 'g';
      s
  }

  // ---------------------------------------------------------------------
  // getImageUrl
  // ---------------------------------------------------------------------

  datatype ImageSize = Small | Medium | Large

  function SizeName(size: ImageSize): string
  {
    match size
    case Small => "small"
    case Medium => "medium"
    case Large => "large"
  }

  /** `VITE_IMAGE_BASE_URL || "/images"`: an unset or empty setting falls back to "/images". */
  function ImageBase(configuredBase: Option<string>): (base: string)
    ensures base != []
  {
    if configuredBase.Some? && configuredBase.value != [] then configuredBase.value else "/images"
  }

  /**
   * `getImageUrl(imagePath, size)`; `configuredBase` is the value of
   * `VITE_IMAGE_BASE_URL`, if set. Absolute "http" paths pass through;
   * others go under the base directory, behind the size prefix if a size is
   * asked for.
   */
  function GetImageUrl(imagePath: string, size: Option<ImageSize>, configuredBase: Option<string>): (url: string)
    ensures Text.StartsWith(imagePath, "http") ==> url == imagePath
    ensures !Text.StartsWith(imagePath, "http") ==>
      && Text.StartsWith(url, ImageBase(configuredBase) + "/")
      && |url| > |imagePath| && url[|url| - |imagePath|..] == imagePath
    ensures !Text.StartsWith(imagePath, "http") && size.None? ==> url == ImageBase(configuredBase) + "/" + imagePath
    ensures !Text.StartsWith(imagePath, "http") && size.Some? ==>
      url == ImageBase(configuredBase) + "/" + SizeName(size.value) + "_" + imagePath
    ensures !Text.StartsWith(imagePath, "http") && size.Some? ==>
      var tag := SizeName(size.value) + "_";
      |url| >= |tag| + |imagePath| && url[|url| - |imagePath| - |tag|..|url| - |imagePath|] == tag
  {
    if Text.StartsWith(imagePath, "http") then imagePath
    else
      var dir := ImageBase(configuredBase) + "/";
      if size.None? then
        var url := dir + imagePath;
        assert url[..|dir|] == dir && url[|url| - |imagePath|..] == imagePath;
        url
      else
        var tag := SizeName(size.value) + "_";
        var url := dir + tag + imagePath;
        SizedUrlParts(dir, tag, imagePath);
        url
  }

  /** The three parts of `dir + tag + path` can be read back by position. */
  lemma SizedUrlParts(dir: string, tag: string, path: string)
    ensures var url := dir + tag + path;
      && url[..|dir|] == dir
      && url[|url| - |path|..] == path
      && url[|url| - |path| - |tag|..|url| - |path|] == tag
  {
    var url := dir + tag + path;
    assert url == dir + (tag + path);
  }

  /**
   * Relative paths are kept apart: under the same base and size two paths
   * give the same URL only if they are the same path, and a sized image
   * never shares its URL with the unsized one.
   */
  lemma GetImageUrlInjective(p: string, q: string, size: Option<ImageSize>, configuredBase: Option<string>)
    requires !Text.StartsWith(p, "http") && !Text.StartsWith(q, "http")
    ensures GetImageUrl(p, size, configuredBase) == GetImageUrl(q, size, configuredBase) ==> p == q
    ensures size.Some? ==> GetImageUrl(p, size, configuredBase) != GetImageUrl(p, None, configuredBase)
  {
    var base := ImageBase(configuredBase);
    var pre := if size.Some? then base + "/" + SizeName(size.value) + "_" else base + "/";
    assert GetImageUrl(p, size, configuredBase) == pre + p;
    assert GetImageUrl(q, size, configuredBase) == pre + q;
    CancelPrefix(pre, p, q);
  }

  /** Two texts with the same start are equal only when the rest is. */
  lemma CancelPrefix(pre: string, p: string, q: string)
    ensures pre + p == pre + q ==> p == q
  {
    if pre + p == pre + q {
      assert p == (pre + p)[|pre|..];
    }
  }

}

=== FILE: itinerary_generator.dfy ===
/**
 * The itinerary dialog (`components/ai/itinerary-generator.tsx`): the
 * preference form (destination, sliders and style on step 1, interests on
 * step 2), generation, which shows the plan on step 3, saving, and the reset.
 */
module ItineraryGenerator {
  import opened Wrappers
  import Seqs
  import opened AiService

  /** The destinations the select offers. */
  function Destinations(): (ds: seq<string>)
    ensures forall i :: 0 <= i < |ds| ==> ds[i] != ""
  {
    ["Hạ Long", "Sapa", "Hội An", "Phú Quốc", "Đà Lạt", "Nha Trang", "Huế", "Cần Thơ"]
  }

  /** The ids of the interest checkboxes. */
  function InterestOptions(): seq<string>
  {
    ["nature", "culture", "food", "adventure", "photography", "relaxation"]
  }

  /** The form as the dialog opens and after a reset. */
  const DefaultPreferences := TravelPreferences("", 3, 5000000, Comfort, [], 2, None)

  /**
   * `handleInterestChange(id, checked)`: a checked interest is appended, an
   * unchecked one removed everywhere it occurs.
   */
  function ToggledInterests(interests: seq<string>, interestId: string, checked: bool): (r: seq<string>)
    ensures checked ==> |r| == |interests| + 1 && r[..|interests|] == interests && r[|interests|] == interestId
    ensures !checked ==> interestId !in r
    ensures !checked ==> forall i :: 0 <= i < |interests| && interests[i] != interestId ==> interests[i] in r
  {
    if checked then interests + [interestId] else Seqs.Without(interests, interestId)
  }

  /** Unchecking keeps the other interests in their order. */
  lemma UncheckKeepsOrder(interests: seq<string>, interestId: string)
    ensures Seqs.Subsequence(ToggledInterests(interests, interestId, false), interests)
  {
    Seqs.WithoutIsSubsequence(interests, interestId);
  }

  /** Unchecking what was just checked restores the list the checkbox started from. */
  lemma CheckThenUncheck(interests: seq<string>, interestId: string)
    requires interestId !in interests
    ensures ToggledInterests(ToggledInterests(interests, interestId, true), interestId, false) == interests
  {
    Seqs.WithoutAppend(interests, [interestId], interestId);
    assert Seqs.Without([interestId], interestId) == [];
  }

  /** Toggling from the checkboxes (checked exactly when absent) never creates a duplicate. */
  lemma ToggleKeepsDistinct(interests: seq<string>, interestId: string)
    requires Seqs.NoDuplicates(interests)
    ensures interestId !in interests ==> Seqs.NoDuplicates(ToggledInterests(interests, interestId, true))
    ensures interestId in interests ==> Seqs.NoDuplicates(ToggledInterests(interests, interestId, false))
  {
    if interestId in interests {
      Seqs.WithoutNoDuplicates(interests, interestId);
    } else {
      var r := interests + [interestId];
      forall i, j | 0 <= i < j < |r| ensures r[i] != r[j] {
        if j == |interests| {
          assert r[i] == interests[i];
        }
      }
    }
  }

  /** A value the slider can produce: within its bounds, on a step from the minimum. */
  predicate OnSlider(v: int, min: int, max: int, step: nat)
    requires step > 0
  {
    min <= v <= max && (v - min) % step == 0
  }

  /** The three sliders: days and people 1..10, budget 1000000..20000000 in steps of 500000. */
  predicate SlidersRespected(p: TravelPreferences)
  {
    && OnSlider(p.duration, 1, 10, 1)
    && OnSlider(p.budget, 1000000, 20000000, 500000)
    && OnSlider(p.groupSize, 1, 10, 1)
  }

  /** The defaults sit on the sliders, and the defaults ask for no interests. */
  lemma DefaultsOnSliders()
    ensures SlidersRespected(DefaultPreferences)
    ensures DefaultPreferences.interests == [] && DefaultPreferences.destination == ""
  {
  }

  /** The guard of `handleGenerateItinerary`: a destination and at least one interest. */
  predicate MayGenerate(p: TravelPreferences)
  {
    p.destination != "" && |p.interests| > 0
  }

  /**
   * The plan for slider-respecting preferences has between 1 and 10 days and
   * an estimate within the budget.
   */
  lemma SliderPlanBounds(p: TravelPreferences, now: nat, draws: (int, nat) -> real)
    requires SlidersRespected(p)
    ensures 1 <= |PlannedDays(p, now, draws)| <= 10
    ensures 0 <= EstimatedCost(p.budget) <= p.budget
  {
    PlanShape(p, now, draws);
  }

  /**
   * The dialog's state. `step` is 1 (destination and sliders), 2 (interests)
   * or 3 (the generated plan).
   */
  class ItineraryGeneratorView {
    var step: int
    var isGenerating: bool
    var generatedItinerary: Option<Itinerary>
    var preferences: TravelPreferences

    /**
     * The steps fit together: the interests step and the plan have a
     * destination, the plan step holds a plan, and the sliders' values are
     * ones they can produce.
     */
    predicate Valid()
      reads this
    {
      && 1 <= step <= 3
      && (step >= 2 ==> preferences.destination != "")
      && (step == 3 ==> generatedItinerary.Some?)
      && SlidersRespected(preferences)
    }

    constructor ()
      ensures Valid()
      ensures step == 1 && !isGenerating && generatedItinerary.None? && preferences == DefaultPreferences
    {
      step := 1;
      isGenerating := false;
      generatedItinerary := None;
      preferences := DefaultPreferences;
    }

    /** The destination select of step 1. */
    method SetDestination(destination: string)
      requires Valid() && step == 1 && destination in Destinations()
      modifies this
      ensures Valid()
      ensures preferences == old(preferences).(destination := destination)
      ensures step == old(step) && generatedItinerary == old(generatedItinerary) && isGenerating == old(isGenerating)
    {
      preferences := preferences.(destination := destination);
    }

    /** The sliders and the style select of step 1; each slider yields only its own values. */
    method SetSliders(duration: int, budget: int, groupSize: int, style: TravelStyle)
      requires Valid() && step == 1
      requires OnSlider(duration, 1, 10, 1) && OnSlider(budget, 1000000, 20000000, 500000)
      requires OnSlider(groupSize, 1, 10, 1)
      modifies this
      ensures Valid()
      ensures preferences == old(preferences).(duration := duration, budget := budget, groupSize := groupSize,
        travelStyle := style)
      ensures step == old(step) && generatedItinerary == old(generatedItinerary) && isGenerating == old(isGenerating)
    {
      preferences := preferences.(duration := duration, budget := budget, groupSize := groupSize, travelStyle := style);
    }

    /** "Tiếp theo": step 2, but the button is disabled until a destination is chosen. */
    method Continue()
      requires Valid() && step == 1
      modifies this
      ensures Valid()
      ensures step == if old(preferences.destination) != "" then 2 else 1
      ensures preferences == old(preferences) && generatedItinerary == old(generatedItinerary)
      ensures isGenerating == old(isGenerating)
    {
      if preferences.destination != "" {
        step := 2;
      }
    }

    /** An interest checkbox of step 2: only the interests change. */
    method HandleInterestChange(interestId: string, checked: bool)
      requires Valid()
      modifies this
      ensures Valid()
      ensures preferences == old(preferences).(interests := ToggledInterests(old(preferences.interests), interestId, checked))
      ensures step == old(step) && generatedItinerary == old(generatedItinerary) && isGenerating == old(isGenerating)
    {
      preferences := preferences.(interests := ToggledInterests(preferences.interests, interestId, checked));
    }

    /** The back button of step 2. */
    method Back()
      requires Valid() && step == 2
      modifies this
      ensures Valid()
      ensures step == 1 && preferences == old(preferences) && generatedItinerary == old(generatedItinerary)
      ensures isGenerating == old(isGenerating)
    {
      step := 1;
    }

    /**
     * `handleGenerateItinerary()`: nothing without a destination or an
     * interest. Otherwise the plan is generated (`now`, `draws` and
     * `budgetText` are the service's clock, random draws and budget wording;
     * `serviceThrows` a call that rejected), stored, shown on step 3 and
     * handed to the `onItineraryGenerated` callback (`generated`).
     * Generation is over afterwards whatever happened.
     */
    method HandleGenerateItinerary(now: nat, draws: (int, nat) -> real, budgetText: string, serviceThrows: bool)
      returns (generated: Option<Itinerary>)
      requires Valid()
      modifies this
      ensures Valid()
      ensures !MayGenerate(old(preferences)) ==>
        step == old(step) && generatedItinerary == old(generatedItinerary) && isGenerating == old(isGenerating)
        && generated.None?
      ensures MayGenerate(old(preferences)) ==> !isGenerating
      ensures MayGenerate(old(preferences)) && serviceThrows ==>
        step == old(step) && generatedItinerary == old(generatedItinerary) && generated.None?
      ensures MayGenerate(old(preferences)) && !serviceThrows ==> (
        && step == 3 && generated.Some? && generatedItinerary == generated
        && generated.value.destination == preferences.destination
        && generated.value.duration == preferences.duration
        && generated.value.totalBudget == preferences.budget
        && generated.value.days == PlannedDays(preferences, now, draws)
        && 0 <= generated.value.estimatedCost <= generated.value.totalBudget)
      ensures preferences == old(preferences)
    {
      generated := None;
      if preferences.destination == "" || |preferences.interests| == 0 {
        return;
      }
      isGenerating := true;
      if !serviceThrows {
        var itinerary := GenerateItinerary(preferences, now, draws, budgetText);
        generatedItinerary := Some(itinerary);
        step := 3;
        generated := Some(itinerary);
      }
      isGenerating := false;
    }

    /** "Tạo lịch trình" on step 2: disabled without an interest and while generating. */
    method Generate(now: nat, draws: (int, nat) -> real, budgetText: string, serviceThrows: bool)
      returns (generated: Option<Itinerary>)
      requires Valid() && step == 2
      modifies this
      ensures Valid()
      ensures generated.Some? ==> old(|preferences.interests|) > 0 && !old(isGenerating) && step == 3
      ensures var disabled := |old(preferences.interests)| == 0 || old(isGenerating);
        && (disabled ==>
          step == 2 && generatedItinerary == old(generatedItinerary) && isGenerating == old(isGenerating)
          && generated.None?)
        && (!disabled ==> !isGenerating)
        && (!disabled && serviceThrows ==>
          step == 2 && generatedItinerary == old(generatedItinerary) && generated.None?)
        && (!disabled && !serviceThrows ==>
          && step == 3 && generated.Some? && generatedItinerary == generated
          && generated.value.destination == preferences.destination
          && generated.value.duration == preferences.duration
          && generated.value.totalBudget == preferences.budget
          && generated.value.days == PlannedDays(preferences, now, draws)
          && 0 <= generated.value.estimatedCost <= generated.value.totalBudget)
      ensures preferences == old(preferences)
    {
      generated := None;
      if |preferences.interests| == 0 || isGenerating {
        return;
      }
      generated := HandleGenerateItinerary(now, draws, budgetText, serviceThrows);
    }

    /** `handleSaveItinerary()`: nothing without a plan; the save itself stores nothing here. */
    method HandleSaveItinerary() returns (saved: bool)
      requires Valid()
      ensures saved <==> generatedItinerary.Some?
    {
      if generatedItinerary.None? {
        return false;
      }
      saved := SaveItinerary(generatedItinerary.value);
    }

    /** `resetGenerator()`: step 1, no plan, the default preferences. */
    method ResetGenerator()
      requires Valid()
      modifies this
      ensures Valid()
      ensures step == 1 && generatedItinerary.None? && preferences == DefaultPreferences
      ensures isGenerating == old(isGenerating)
    {
      step := 1;
      generatedItinerary := None;
      preferences := DefaultPreferences;
    }
  }
}

=== FILE: lib_auth.dfy ===
/**
 * The mock authentication service of the Next.js tree (`lib/auth.ts`):
 * users, the three roles `traveler`, `service_provider` and `admin`, and
 * sign-in by e-mail look-up over a fixed user table.
 */
module LibAuth {
  import opened Wrappers
  import Text
  import Seqs

  datatype UserRole = Traveler | ServiceProvider | Admin

  /** The role's wire name. */
  function RoleName(r: UserRole): string
  {
    match r
    case Traveler => "traveler"
    case ServiceProvider => "service_provider"
    case Admin => "admin"
  }

  /** `createdAt` is a clock reading in milliseconds since the epoch. */
  datatype User = User(
    id: string,
    email: string,
    name: string,
    role: UserRole,
    avatar: Option<string>,
    phone: Option<string>,
    createdAt: int)

  /** What a caller supplies to `signUp`: a user without `id` and `createdAt`. */
  datatype NewUser = NewUser(
    email: string,
    name: string,
    role: UserRole,
    avatar: Option<string>,
    phone: Option<string>)

  datatype AuthState = AuthState(user: Option<User>, isLoading: bool, isAuthenticated: bool)

  /**
   * `mockUsers`. The table is built once when the module loads, and each
   * entry's `createdAt` is that moment, `loadedAt`.
   */
  function MockUsers(loadedAt: int): (users: seq<User>)
    ensures |users| == 3
    ensures forall i :: 0 <= i < 3 ==> users[i].createdAt == loadedAt
  {
    [
      User("1", "traveler@example.com", "Nguyễn Văn A", Traveler,
        Some("/placeholder.svg?height=40&width=40"), Some("0123456789"), loadedAt),
      User("2", "provider@example.com", "Công ty Du lịch ABC", ServiceProvider,
        Some("/placeholder.svg?height=40&width=40"), Some("0987654321"), loadedAt),
      User("3", "admin@example.com", "Admin System", Admin,
        Some("/placeholder.svg?height=40&width=40"), None, loadedAt)
    ]
  }

  /** The mock users have distinct ids and e-mails, and there is one user per role. */
  lemma MockUsersDistinct(loadedAt: int)
    ensures Seqs.NoDuplicates(seq(3, i requires 0 <= i < 3 => MockUsers(loadedAt)[i].id))
    ensures Seqs.NoDuplicates(seq(3, i requires 0 <= i < 3 => MockUsers(loadedAt)[i].email))
    ensures MockUsers(loadedAt)[0].role == Traveler && MockUsers(loadedAt)[1].role == ServiceProvider
      && MockUsers(loadedAt)[2].role == Admin
  {
  }

  /**
   * `signIn(email, password)`: the mock user with that e-mail, or null.
   * The password is never looked at.
   */
  function SignIn(email: string, password: string, loadedAt: int): (r: Option<User>)
    ensures r.Some? ==> r.value in MockUsers(loadedAt) && r.value.email == email
    ensures r.None? <==> forall u :: u in MockUsers(loadedAt) ==> u.email != email
  {
    Seqs.FindFirst(MockUsers(loadedAt), (u: User) => u.email == email)
  }

  /** Sign-in succeeds exactly for the three known addresses, whatever the password. */
  lemma SignInKnownEmails(email: string, password: string, loadedAt: int)
    ensures SignIn(email, password, loadedAt).Some?
      <==> email in ["traveler@example.com", "provider@example.com", "admin@example.com"]
    ensures SignIn(email, password, loadedAt) == SignIn(email, "", loadedAt)
  {
    var us := MockUsers(loadedAt);
    if email in ["traveler@example.com", "provider@example.com", "admin@example.com"] {
      assert exists u :: u in us && u.email == email by {
        if email == "traveler@example.com" { assert us[0] in us; }
        else if email == "provider@example.com" { assert us[1] in us; }
        else { assert us[2] in us; }
      }
    }
  }

  /** `signUp(userData)`: the given fields, a clock-derived id, and `createdAt = now`. */
  function SignUp(userData: NewUser, now: nat): (u: User)
    ensures u.email == userData.email && u.name == userData.name && u.role == userData.role
    ensures u.avatar == userData.avatar && u.phone == userData.phone
    ensures u.id == Text.NatToString(now) && u.createdAt == now
  {
    User(Text.NatToString(now), userData.email, userData.name, userData.role,
      userData.avatar, userData.phone, now)
  }
}

=== FILE: notification_center.dfy ===
/**
 * The notification center dialog (`components/notifications/notification-center.tsx`):
 * the loaded notifications and preferences, marking one or all notifications
 * read, the unread count, clicking a card, and the preference switches, each
 * of which stores the new preferences only once the service acknowledges.
 */
module NotificationCenter {
  import opened Wrappers
  import Seqs
  import opened NotificationService

  /**
   * The list after `markNotificationAsRead(id)` resolved: each notification
   * with the id is read, with read time `now`; all others are as before.
   */
  function MarkedRead(ns: seq<Notification>, notificationId: string, now: int): (r: seq<Notification>)
    ensures |r| == |ns|
    ensures forall i :: 0 <= i < |ns| && ns[i].id != notificationId ==> r[i] == ns[i]
    ensures forall i :: 0 <= i < |ns| && ns[i].id == notificationId ==>
      r[i] == ns[i].(status := Read, readAt := Some(now))
  {
    if ns == [] then []
    else
      var n := ns[0];
      var head := if n.id == notificationId then n.(status := Read, readAt := Some(now)) else n;
      var tail := MarkedRead(ns[1..], notificationId, now);
      var r := [head] + tail;
      assert forall i :: 0 <= i < |ns| ==>
        r[i] == if ns[i].id == notificationId then ns[i].(status := Read, readAt := Some(now)) else ns[i]
      by {
        forall i | 0 <= i < |ns|
          ensures r[i] == if ns[i].id == notificationId then ns[i].(status := Read, readAt := Some(now)) else ns[i]
        {
          if i > 0 {
            assert r[i] == tail[i - 1] && ns[i] == ns[1..][i - 1];
          }
        }
      }
      r
  }

  /**
   * The list after `markAllNotificationsAsRead` resolved: every notification,
   * archived ones included, is read; one that already has a read time keeps
   * it, the others get `now`.
   */
  function AllMarkedRead(ns: seq<Notification>, now: int): (r: seq<Notification>)
    ensures |r| == |ns|
    ensures forall i :: 0 <= i < |ns| ==>
      r[i] == ns[i].(status := Read, readAt := if ns[i].readAt.Some? then ns[i].readAt else Some(now))
  {
    if ns == [] then []
    else
      var n := ns[0];
      var head := n.(status := Read, readAt := if n.readAt.Some? then n.readAt else Some(now));
      var tail := AllMarkedRead(ns[1..], now);
      assert forall i :: 1 <= i < |ns| ==> ([head] + tail)[i] == tail[i - 1] && ns[i] == ns[1..][i - 1];
      [head] + tail
  }

  /** `unreadCount`: how many notifications are unread. */
  function UnreadCount(ns: seq<Notification>): (n: nat)
    ensures n <= |ns|
    ensures n == 0 <==> forall i :: 0 <= i < |ns| ==> ns[i].status != Unread
  {
    if ns == [] then 0
    else
      assert forall i :: 1 <= i < |ns| ==> ns[i] == ns[1..][i - 1];
      (if ns[0].status == Unread then 1 else 0) + UnreadCount(ns[1..])
  }

  /** The unread count is the length of the list of unread notifications. */
  lemma {:induction false} UnreadCountIsFilterLength(ns: seq<Notification>)
    ensures UnreadCount(ns) == |Seqs.Filter(ns, (n: Notification) => n.status == Unread)|
  {
    if ns != [] {
      UnreadCountIsFilterLength(ns[1..]);
    }
  }

  /** After marking all read nothing is unread, and every notification has a read time. */
  lemma MarkAllClearsUnread(ns: seq<Notification>, now: int)
    ensures UnreadCount(AllMarkedRead(ns, now)) == 0
    ensures forall i :: 0 <= i < |ns| ==> ReadTimeConsistent(AllMarkedRead(ns, now)[i])
  {
  }

  /**
   * With distinct ids, marking an unread notification read lowers the unread
   * count by exactly one; marking one that is not unread leaves it.
   */
  lemma {:induction false} MarkAsReadCount(ns: seq<Notification>, k: nat, now: int)
    requires k < |ns|
    requires forall i, j :: 0 <= i < j < |ns| ==> ns[i].id != ns[j].id
    ensures UnreadCount(MarkedRead(ns, ns[k].id, now))
      == UnreadCount(ns) - (if ns[k].status == Unread then 1 else 0)
  {
    var r := MarkedRead(ns, ns[k].id, now);
    assert r[1..] == MarkedRead(ns[1..], ns[k].id, now);
    if k == 0 {
      NoneMarked(ns[1..], ns[0].id, now);
    } else {
      MarkAsReadCount(ns[1..], k - 1, now);
    }
  }

  /** Marking an id none of the notifications has changes nothing. */
  lemma NoneMarked(ns: seq<Notification>, notificationId: string, now: int)
    requires forall i :: 0 <= i < |ns| ==> ns[i].id != notificationId
    ensures MarkedRead(ns, notificationId, now) == ns
  {
  }

  /** Both markings keep every notification's read time consistent with its status. */
  lemma MarkingKeepsReadTimes(ns: seq<Notification>, notificationId: string, now: int)
    requires forall i :: 0 <= i < |ns| ==> ReadTimeConsistent(ns[i])
    ensures forall i :: 0 <= i < |ns| ==> ReadTimeConsistent(MarkedRead(ns, notificationId, now)[i])
    ensures forall i :: 0 <= i < |ns| ==> ReadTimeConsistent(AllMarkedRead(ns, now)[i])
  {
  }

  /** The seven switches of the settings tab. */
  datatype PreferenceField =
    EmailField | SmsField | PushField | BookingUpdatesField | PaymentRemindersField
    | PromotionalOffersField | SystemAlertsField

  /** The switch's current value. */
  function Setting(p: NotificationPreferences, field: PreferenceField): bool
  {
    match field
    case EmailField => p.emailNotifications
    case SmsField => p.smsNotifications
    case PushField => p.pushNotifications
    case BookingUpdatesField => p.bookingUpdates
    case PaymentRemindersField => p.paymentReminders
    case PromotionalOffersField => p.promotionalOffers
    case SystemAlertsField => p.systemAlerts
  }

  /** `{ ...preferences, <field>: checked }`: only the switched field changes. */
  function Switched(p: NotificationPreferences, field: PreferenceField, checked: bool): (r: NotificationPreferences)
    ensures r.userId == p.userId
    ensures forall f :: Setting(r, f) == if f == field then checked else Setting(p, f)
  {
    match field
    case EmailField => p.(emailNotifications := checked)
    case SmsField => p.(smsNotifications := checked)
    case PushField => p.(pushNotifications := checked)
    case BookingUpdatesField => p.(bookingUpdates := checked)
    case PaymentRemindersField => p.(paymentReminders := checked)
    case PromotionalOffersField => p.(promotionalOffers := checked)
    case SystemAlertsField => p.(systemAlerts := checked)
  }

  /** Switching a field back to its value restores the preferences. */
  lemma SwitchBack(p: NotificationPreferences, field: PreferenceField, checked: bool)
    ensures Switched(Switched(p, field, checked), field, Setting(p, field)) == p
  {
  }

  /**
   * The dialog's state. The service calls are the mocks; `serviceThrows`
   * stands for a call that rejected, and `now` for `new Date()`.
   */
  class NotificationCenterView {
    var notifications: seq<Notification>
    var preferences: Option<NotificationPreferences>
    var isLoading: bool
    var activeTab: string

    /** Mounting: nothing loaded, loading, on the notifications tab. */
    constructor ()
      ensures notifications == [] && preferences.None? && isLoading && activeTab == "notifications"
    {
      notifications := [];
      preferences := None;
      isLoading := true;
      activeTab := "notifications";
    }

    /**
     * Loading when the dialog opens: nothing happens while it is closed or
     * without a user; otherwise both lists are fetched (a failed fetch keeps
     * the old state) and loading ends.
     */
    method LoadData(userId: Option<string>, open: bool, fetchThrows: bool)
      modifies this
      ensures !open || userId.None? ==>
        notifications == old(notifications) && preferences == old(preferences) && isLoading == old(isLoading)
      ensures open && userId.Some? ==> !isLoading
      ensures open && userId.Some? && !fetchThrows ==>
        notifications == GetUserNotifications(userId.value)
        && preferences == Some(GetNotificationPreferences(userId.value))
      ensures open && userId.Some? && fetchThrows ==>
        notifications == old(notifications) && preferences == old(preferences)
      ensures activeTab == old(activeTab)
    {
      if !open || userId.None? {
        return;
      }
      if !fetchThrows {
        notifications := GetUserNotifications(userId.value);
        preferences := Some(GetNotificationPreferences(userId.value));
      }
      isLoading := false;
    }

    /** `handleMarkAsRead(id)`. */
    method HandleMarkAsRead(notificationId: string, now: int, serviceThrows: bool)
      modifies this
      ensures notifications == if serviceThrows then old(notifications) else MarkedRead(old(notifications), notificationId, now)
      ensures preferences == old(preferences) && isLoading == old(isLoading) && activeTab == old(activeTab)
    {
      if serviceThrows {
        return;
      }
      var ack := MarkNotificationAsRead(notificationId);
      notifications := MarkedRead(notifications, notificationId, now);
    }

    /** `handleMarkAllAsRead()`: nothing without a user. */
    method HandleMarkAllAsRead(userId: Option<string>, now: int, serviceThrows: bool)
      modifies this
      ensures notifications == if userId.None? || serviceThrows then old(notifications) else AllMarkedRead(old(notifications), now)
      ensures preferences == old(preferences) && isLoading == old(isLoading) && activeTab == old(activeTab)
    {
      if userId.None? || serviceThrows {
        return;
      }
      var ack := MarkAllNotificationsAsRead(userId.value);
      notifications := AllMarkedRead(notifications, now);
    }

    /**
     * A click on the card at `index`: only an unread notification is marked
     * read, so a read one keeps its read time. Following the action link is
     * navigation and is not modelled.
     */
    method ClickCard(index: nat, now: int, serviceThrows: bool)
      requires index < |notifications|
      modifies this
      ensures old(notifications[index].status) != Unread ==> notifications == old(notifications)
      ensures old(notifications[index].status) == Unread ==>
        notifications == if serviceThrows then old(notifications) else MarkedRead(old(notifications), old(notifications[index].id), now)
      ensures preferences == old(preferences) && isLoading == old(isLoading) && activeTab == old(activeTab)
    {
      if notifications[index].status == Unread {
        HandleMarkAsRead(notifications[index].id, now, serviceThrows);
      }
    }

    /** `handleUpdatePreferences(updated)`: stored only after the service call succeeds. */
    method HandleUpdatePreferences(updated: NotificationPreferences, serviceThrows: bool)
      modifies this
      ensures preferences == if serviceThrows then old(preferences) else Some(updated)
      ensures notifications == old(notifications) && isLoading == old(isLoading) && activeTab == old(activeTab)
    {
      if serviceThrows {
        return;
      }
      var ack := UpdateNotificationPreferences(updated);
      preferences := Some(updated);
    }

    /** A switch of the settings tab, which is shown only once preferences are loaded. */
    method Toggle(field: PreferenceField, checked: bool, serviceThrows: bool)
      requires preferences.Some?
      modifies this
      ensures preferences == if serviceThrows then old(preferences) else Some(Switched(old(preferences.value), field, checked))
      ensures notifications == old(notifications) && isLoading == old(isLoading) && activeTab == old(activeTab)
    {
      HandleUpdatePreferences(Switched(preferences.value, field, checked), serviceThrows);
    }

    /** The badge's number. */
    function Badge(): (n: nat)
      reads this
      ensures n <= |notifications|
    {
      UnreadCount(notifications)
    }
  }
}

=== FILE: notification_service.dfy ===
/**
 * The mock notification service (`lib/notification-service.ts`): building a
 * notification record, the three message templates built on it, the canned
 * inbox, default preferences, and the acknowledging update calls.
 */
module NotificationService {
  import opened Wrappers
  import Text
  import Dates

  datatype NotificationType = Booking | Payment | Reminder | Promotion | System

  datatype NotificationStatus = Unread | Read | Archived

  /** The optional references a notification carries; `amount` is a JavaScript number. */
  datatype Metadata = Metadata(bookingId: Option<string>, paymentId: Option<string>, amount: Option<real>)

  /** Timestamps are clock readings in milliseconds. */
  datatype Notification = Notification(
    id: string,
    userId: string,
    notificationType: NotificationType,
    title: string,
    message: string,
    status: NotificationStatus,
    createdAt: int,
    readAt: Option<int>,
    actionUrl: Option<string>,
    metadata: Option<Metadata>)

  datatype NotificationPreferences = NotificationPreferences(
    userId: string,
    emailNotifications: bool,
    smsNotifications: bool,
    pushNotifications: bool,
    bookingUpdates: bool,
    paymentReminders: bool,
    promotionalOffers: bool,
    systemAlerts: bool)

  /** A notification nobody has opened yet: unread and without a read time. */
  predicate Fresh(n: Notification)
  {
    n.status == Unread && n.readAt.None?
  }

  /**
   * `createNotification(userId, type, title, message, actionUrl, metadata)`:
   * the arguments as given, an id and creation time from the clock `now`,
   * unread.
   */
  function CreateNotification(userId: string, notificationType: NotificationType, title: string,
    message: string, actionUrl: Option<string>, metadata: Option<Metadata>, now: nat): (n: Notification)
    ensures Fresh(n)
    ensures n.userId == userId && n.notificationType == notificationType
    ensures n.title == title && n.message == message
    ensures n.actionUrl == actionUrl && n.metadata == metadata
    ensures n.id == Text.NatToString(now) && n.createdAt == now
  {
    Notification(Text.NatToString(now), userId, notificationType, title, message, Unread, now, None,
      actionUrl, metadata)
  }

  /**
   * `sendBookingConfirmation(userId, bookingId, serviceName)`: the notification
   * it creates, which points at the booking.
   */
  function SendBookingConfirmation(userId: string, bookingId: string, serviceName: string, now: nat): (n: Notification)
    ensures Fresh(n) && n.userId == userId && n.notificationType == Booking
    ensures n.title == "Booking được xác nhận"
    ensures n.message == serviceName + " của bạn đã được xác nhận. Chúng tôi sẽ liên hệ với bạn sớm."
    ensures n.actionUrl == Some("/bookings/" + bookingId)
    ensures n.metadata == Some(Metadata(Some(bookingId), None, None))
  {
    CreateNotification(userId, Booking, "Booking được xác nhận",
      serviceName + " của bạn đã được xác nhận. Chúng tôi sẽ liên hệ với bạn sớm.",
      Some("/bookings/" + bookingId), Some(Metadata(Some(bookingId), None, None)), now)
  }

  /**
   * `sendPaymentConfirmation(userId, paymentId, amount, bookingNumber)`: the
   * notification it creates, which points at the payment. `amountText` is
   * `amount.toLocaleString("vi-VN")`.
   */
  function SendPaymentConfirmation(userId: string, paymentId: string, amount: real, amountText: string,
    bookingNumber: string, now: nat): (n: Notification)
    ensures Fresh(n) && n.userId == userId && n.notificationType == Payment
    ensures n.title == "Thanh toán thành công"
    ensures n.message == "Thanh toán " + amountText + "đ cho booking " + bookingNumber + " đã được xử lý thành công."
    ensures n.actionUrl == Some("/payments/" + paymentId)
    ensures n.metadata == Some(Metadata(None, Some(paymentId), Some(amount)))
  {
    CreateNotification(userId, Payment, "Thanh toán thành công",
      "Thanh toán " + amountText + "đ cho booking " + bookingNumber + " đã được xử lý thành công.",
      Some("/payments/" + paymentId), Some(Metadata(None, Some(paymentId), Some(amount))), now)
  }

  /**
   * `sendPaymentReminder(userId, bookingId, amount)`: the notification it
   * creates, which points at the booking. `amountText` is
   * `amount.toLocaleString("vi-VN")`.
   */
  function SendPaymentReminder(userId: string, bookingId: string, amount: real, amountText: string, now: nat): (n: Notification)
    ensures Fresh(n) && n.userId == userId && n.notificationType == Reminder
    ensures n.title == "Nhắc nhở thanh toán"
    ensures n.message == "Bạn có booking chưa thanh toán " + amountText
      + "đ. Vui lòng hoàn tất thanh toán để đảm bảo chỗ."
    ensures n.actionUrl == Some("/bookings/" + bookingId)
    ensures n.metadata == Some(Metadata(Some(bookingId), None, Some(amount)))
  {
    CreateNotification(userId, Reminder, "Nhắc nhở thanh toán",
      "Bạn có booking chưa thanh toán " + amountText + "đ. Vui lòng hoàn tất thanh toán để đảm bảo chỗ.",
      Some("/bookings/" + bookingId), Some(Metadata(Some(bookingId), None, Some(amount))), now)
  }

  /** The booking and payment templates never point to the same place: their URLs differ in prefix. */
  lemma TemplatesPointApart(userId: string, bookingId: string, serviceName: string, paymentId: string,
    amount: real, amountText: string, bookingNumber: string, now: nat)
    ensures SendBookingConfirmation(userId, bookingId, serviceName, now).actionUrl
      != SendPaymentConfirmation(userId, paymentId, amount, amountText, bookingNumber, now).actionUrl
  {
    var b := "/bookings/" + bookingId;
    var p := "/payments/" + paymentId;
    assert b[1] != p[1];
  }

  /** Read and unread notifications are consistent: a read time exactly when read. */
  predicate ReadTimeConsistent(n: Notification)
  {
    n.status == Read <==> n.readAt.Some?
  }

  /** `getUserNotifications(userId)`: two unread and two read notifications for that user. */
  function GetUserNotifications(userId: string): (ns: seq<Notification>)
    ensures |ns| == 4
    ensures forall i :: 0 <= i < |ns| ==> ns[i].userId == userId && ReadTimeConsistent(ns[i])
    ensures Fresh(ns[0]) && Fresh(ns[1]) && ns[2].status == Read && ns[3].status == Read
  {
    [
      Notification("1", userId, Booking, "Booking được xác nhận",
        "Tour Hạ Long Bay 3N2Đ của bạn đã được xác nhận. Chúng tôi sẽ liên hệ với bạn sớm.",
        Unread, Dates.January2024(16), None, Some("/bookings/1"), Some(Metadata(Some("1"), None, None))),
      Notification("2", userId, Payment, "Thanh toán thành công",
        "Thanh toán 5.000.000đ cho booking VT123456 đã được xử lý thành công.",
        Unread, Dates.January2024(15), None, Some("/payments/1"), Some(Metadata(None, Some("1"), Some(5000000.0)))),
      Notification("3", userId, Reminder, "Nhắc nhở thanh toán",
        "Bạn có booking chưa thanh toán. Vui lòng hoàn tất thanh toán để đảm bảo chỗ.",
        Read, Dates.January2024(20), Some(Dates.January2024(21)), Some("/bookings/2"), Some(Metadata(Some("2"), None, None))),
      Notification("4", userId, Promotion, "Ưu đãi đặc biệt",
        "Giảm 20% cho tất cả tour Sapa trong tháng 2. Đặt ngay để không bỏ lỡ!",
        Read, Dates.January2024(18), Some(Dates.January2024(19)), Some("/tours?destination=sapa"), None)
    ]
  }

  /** `getNotificationPreferences(userId)`: every channel and topic on except promotional offers. */
  function GetNotificationPreferences(userId: string): (p: NotificationPreferences)
    ensures p.userId == userId
    ensures p.emailNotifications && p.smsNotifications && p.pushNotifications
    ensures p.bookingUpdates && p.paymentReminders && p.systemAlerts
    ensures !p.promotionalOffers
  {
    NotificationPreferences(userId, true, true, true, true, true, false, true)
  }

  /** `markNotificationAsRead(id)`: acknowledged with `true`; nothing is stored. */
  function MarkNotificationAsRead(notificationId: string): (ack: bool)
    ensures ack
  {
    true
  }

  /** `markAllNotificationsAsRead(userId)`: acknowledged with `true`; nothing is stored. */
  function MarkAllNotificationsAsRead(userId: string): (ack: bool)
    ensures ack
  {
    true
  }

  /** `updateNotificationPreferences(preferences)`: acknowledged with `true`; nothing is stored. */
  function UpdateNotificationPreferences(preferences: NotificationPreferences): (ack: bool)
    ensures ack
  {
    true
  }
}

=== FILE: payment_form.dfy ===
/**
 * The payment dialog (`components/payment/payment-form.tsx`): choosing a
 * method (step 1), entering details and agreeing to the terms (step 2), and
 * the gateway's answer (step 3); the fee-inclusive total, the request sent to
 * the gateway, retrying and resetting.
 */
module PaymentForm {
  import opened Wrappers
  import opened PaymentService
  import LibAuth
  import NotificationService

  /** `calculateTotal()`: the amount plus the selected method's fee, a percentage of the amount. */
  function CalculateTotal(amount: real, selected: Option<PaymentMethod>): (total: real)
    ensures selected.None? ==> total == amount
    ensures selected.Some? ==> total * 100.0 == amount * (100.0 + selected.value.processingFee)
  {
    if selected.None? then amount
    else
      var processingFee := (amount * selected.value.processingFee) / 100.0;
      amount + processingFee
  }

  /**
   * A method without a fee charges the amount; a fee never lowers a
   * non-negative amount, and a higher fee never charges less.
   */
  lemma CalculateTotalBounds(amount: real, m: PaymentMethod, m': PaymentMethod)
    ensures m.processingFee == 0.0 ==> CalculateTotal(amount, Some(m)) == amount
    ensures amount >= 0.0 && m.processingFee >= 0.0 ==> CalculateTotal(amount, Some(m)) >= amount
    ensures amount >= 0.0 && m.processingFee <= m'.processingFee ==>
      CalculateTotal(amount, Some(m)) <= CalculateTotal(amount, Some(m'))
  {
    if amount >= 0.0 && m.processingFee <= m'.processingFee {
      assert amount * m.processingFee <= amount * m'.processingFee;
    }
  }

  /**
   * With the gateway's table: a card costs 2.5% more, an e-wallet 1.5% more,
   * a bank transfer or cash the amount itself.
   */
  lemma CalculateTotalTable(amount: real)
    ensures CalculateTotal(amount, Some(PaymentMethods()[0])) == amount * 1.025
    ensures CalculateTotal(amount, Some(PaymentMethods()[1])) == amount
    ensures CalculateTotal(amount, Some(PaymentMethods()[2])) == amount * 1.015
    ensures CalculateTotal(amount, Some(PaymentMethods()[3])) == amount
  {
  }

  /** What the details step collects. */
  datatype PaymentData = PaymentData(
    cardNumber: string,
    expiryDate: string,
    cvv: string,
    cardholderName: string,
    billingAddress: BillingAddress,
    saveCard: bool,
    agreeTerms: bool)

  /** The details as the dialog opens and after a reset: empty, country "Vietnam", nothing agreed. */
  const EmptyPaymentData := PaymentData("", "", "", "", BillingAddress("", "", "Vietnam", ""), false, false)

  /**
   * The request `handleProcessPayment` sends: the booking, the fee-inclusive
   * total, "VND", the method's type, the user's contact (phone "" when
   * missing), and the billing address only when its street is filled in.
   */
  function BuildRequest(bookingId: string, amount: real, m: PaymentMethod, user: LibAuth.User, data: PaymentData): (r: PaymentRequest)
    ensures r.bookingId == bookingId && r.currency == "VND" && r.paymentMethod == m.methodType
    ensures r.amount == CalculateTotal(amount, Some(m))
    ensures r.customerInfo.name == user.name && r.customerInfo.email == user.email
    ensures r.customerInfo.phone == user.phone.GetOr("")
    ensures r.billingAddress.Some? <==> data.billingAddress.street != ""
    ensures r.billingAddress.Some? ==> r.billingAddress.value == data.billingAddress
  {
    PaymentRequest(bookingId, CalculateTotal(amount, Some(m)), "VND", m.methodType,
      CustomerInfo(user.name, user.email, user.phone.GetOr("")),
      if data.billingAddress.street != "" then Some(data.billingAddress) else None)
  }

  /**
   * The dialog's state for one booking. `step` is 1 (method), 2 (details) or
   * 3 (result).
   */
  class PaymentFormView {
    const bookingId: string
    const bookingNumber: string
    const amount: real
    var step: int
    var selectedMethod: Option<PaymentMethod>
    var isProcessing: bool
    var paymentResult: Option<Payment>
    var paymentData: PaymentData

    /**
     * The steps fit together: the details and result steps have a method, and
     * a result is held exactly on the result step.
     */
    predicate Valid()
      reads this
    {
      && 1 <= step <= 3
      && (step >= 2 ==> selectedMethod.Some?)
      && (step == 3 <==> paymentResult.Some?)
    }

    constructor (bookingId: string, bookingNumber: string, amount: real)
      ensures Valid()
      ensures this.bookingId == bookingId && this.bookingNumber == bookingNumber && this.amount == amount
      ensures step == 1 && selectedMethod.None? && !isProcessing && paymentResult.None?
      ensures paymentData == EmptyPaymentData
    {
      this.bookingId := bookingId;
      this.bookingNumber := bookingNumber;
      this.amount := amount;
      step := 1;
      selectedMethod := None;
      isProcessing := false;
      paymentResult := None;
      paymentData := EmptyPaymentData;
    }

    /** Clicking one of the listed (available) methods on step 1. */
    method SelectMethod(m: PaymentMethod)
      requires Valid() && step == 1 && m in PaymentMethods() && m.isAvailable
      modifies this
      ensures Valid()
      ensures selectedMethod == Some(m)
      ensures step == old(step) && paymentResult == old(paymentResult) && paymentData == old(paymentData)
      ensures isProcessing == old(isProcessing)
    {
      selectedMethod := Some(m);
    }

    /** "Tiếp tục": step 2, but the button is disabled until a method is selected. */
    method Continue()
      requires Valid() && step == 1
      modifies this
      ensures Valid()
      ensures step == if old(selectedMethod).Some? then 2 else 1
      ensures selectedMethod == old(selectedMethod) && paymentResult == old(paymentResult)
      ensures paymentData == old(paymentData) && isProcessing == old(isProcessing)
    {
      if selectedMethod.Some? {
        step := 2;
      }
    }

    /** The back button of step 2. */
    method Back()
      requires Valid() && step == 2
      modifies this
      ensures Valid()
      ensures step == 1
      ensures selectedMethod == old(selectedMethod) && paymentResult == old(paymentResult)
      ensures paymentData == old(paymentData) && isProcessing == old(isProcessing)
    {
      step := 1;
    }

    /** The terms checkbox. */
    method SetAgreeTerms(checked: bool)
      requires Valid()
      modifies this
      ensures Valid()
      ensures paymentData == old(paymentData).(agreeTerms := checked)
      ensures step == old(step) && selectedMethod == old(selectedMethod) && paymentResult == old(paymentResult)
      ensures isProcessing == old(isProcessing)
    {
      paymentData := paymentData.(agreeTerms := checked);
    }

    /**
     * `handleProcessPayment()`. Without a user or a selected method nothing
     * happens. Otherwise the request goes to the gateway (`now`, `draw` and
     * `randomText` are its clock and random inputs; `serviceThrows` a call that
     * rejected). An answer is stored and shows step 3; a completed payment
     * also sends the confirmation notification (`notice`, whose amount wording
     * is `amountText`) and is handed to the completion callback (`completed`).
     * Processing is over afterwards whatever happened.
     */
    method HandleProcessPayment(user: Option<LibAuth.User>, now: nat, draw: real, randomText: string,
        amountText: string, serviceThrows: bool)
      returns (notice: Option<NotificationService.Notification>, completed: Option<Payment>)
      requires Valid()
      modifies this
      ensures Valid()
      ensures user.None? || old(selectedMethod).None? || serviceThrows ==>
        step == old(step) && paymentResult == old(paymentResult) && notice.None? && completed.None?
      ensures user.None? || old(selectedMethod).None? ==> isProcessing == old(isProcessing)
      ensures user.Some? && old(selectedMethod).Some? ==> !isProcessing
      ensures user.Some? && old(selectedMethod).Some? && !serviceThrows ==> (
        && step == 3 && paymentResult.Some?
        && paymentResult.value.bookingId == bookingId
        && paymentResult.value.amount == CalculateTotal(amount, old(selectedMethod))
        && paymentResult.value.currency == "VND"
        && paymentResult.value.paymentMethod == old(selectedMethod).value.methodType
        && (paymentResult.value.status == Completed <==> draw > 0.1)
        && (paymentResult.value.status == Completed <==> completed == paymentResult)
        && (paymentResult.value.status == Completed <==> notice.Some?))
      ensures notice.Some? ==> (
        && notice.value.userId == user.value.id
        && notice.value.notificationType == NotificationService.Payment
        && notice.value.actionUrl == Some("/payments/" + paymentResult.value.id))
      ensures selectedMethod == old(selectedMethod) && paymentData == old(paymentData)
    {
      notice := None;
      completed := None;
      if user.None? || selectedMethod.None? {
        return;
      }
      isProcessing := true;
      if serviceThrows {
        isProcessing := false;
        return;
      }
      var request := BuildRequest(bookingId, amount, selectedMethod.value, user.value, paymentData);
      var payment := ProcessPayment(request, now, draw, randomText);
      paymentResult := Some(payment);
      step := 3;
      if payment.status == Completed {
        notice := Some(NotificationService.SendPaymentConfirmation(user.value.id, payment.id, payment.amount,
          amountText, bookingNumber, now));
        completed := Some(payment);
      }
      isProcessing := false;
    }

    /**
     * "Thanh toán" on step 2: disabled until the terms are agreed and while a
     * payment is being processed.
     */
    method Pay(user: Option<LibAuth.User>, now: nat, draw: real, randomText: string, amountText: string,
        serviceThrows: bool)
      returns (notice: Option<NotificationService.Notification>, completed: Option<Payment>)
      requires Valid() && step == 2
      modifies this
      ensures Valid()
      ensures !old(paymentData.agreeTerms) || old(isProcessing) ==>
        step == 2 && paymentResult == old(paymentResult) && isProcessing == old(isProcessing)
        && notice.None? && completed.None?
      ensures var enabled := old(paymentData.agreeTerms) && !old(isProcessing);
        && (enabled && (user.None? || serviceThrows) ==>
          step == 2 && paymentResult == old(paymentResult) && notice.None? && completed.None?)
        && (enabled && user.None? ==> isProcessing == old(isProcessing))
        && (enabled && user.Some? ==> !isProcessing)
        && (enabled && user.Some? && !serviceThrows ==>
          && step == 3 && paymentResult.Some?
          && paymentResult.value.bookingId == bookingId
          && paymentResult.value.amount == CalculateTotal(amount, old(selectedMethod))
          && paymentResult.value.currency == "VND"
          && paymentResult.value.paymentMethod == old(selectedMethod).value.methodType
          && (paymentResult.value.status == Completed <==> draw > 0.1)
          && (paymentResult.value.status == Completed <==> completed == paymentResult)
          && (paymentResult.value.status == Completed <==> notice.Some?))
      ensures notice.Some? ==> (
        && user.Some? && notice.value.userId == user.value.id
        && notice.value.notificationType == NotificationService.Payment
        && paymentResult.Some? && notice.value.actionUrl == Some("/payments/" + paymentResult.value.id))
      ensures selectedMethod == old(selectedMethod) && paymentData == old(paymentData)
    {
      notice := None;
      completed := None;
      if !paymentData.agreeTerms || isProcessing {
        return;
      }
      notice, completed := HandleProcessPayment(user, now, draw, randomText, amountText, serviceThrows);
    }

    /** "Thử lại" after a failed payment: back to step 1 without the result, keeping the method. */
    method Retry()
      requires Valid() && step == 3
      modifies this
      ensures Valid()
      ensures step == 1 && paymentResult.None?
      ensures selectedMethod == old(selectedMethod) && paymentData == old(paymentData)
      ensures isProcessing == old(isProcessing)
    {
      step := 1;
      paymentResult := None;
    }

    /** `resetForm()`, also run by "Đóng" and "Xem booking": everything as when the dialog opened. */
    method ResetForm()
      requires Valid()
      modifies this
      ensures Valid()
      ensures step == 1 && selectedMethod.None? && paymentResult.None? && paymentData == EmptyPaymentData
      ensures isProcessing == old(isProcessing)
    {
      step := 1;
      selectedMethod := None;
      paymentResult := None;
      paymentData := EmptyPaymentData;
    }
  }
}

=== FILE: payment_service.dfy ===
/**
 * The mock payment gateway (`lib/payment-service.ts`): the table of payment
 * methods with their percentage fees, payment processing whose outcome rests
 * on one random draw, the canned payment history, and refunds.
 */
module PaymentService {
  import opened Wrappers
  import Text
  import Dates

  datatype MethodType = CreditCard | BankTransfer | EWallet | Cash

  /** The method type's wire name. */
  function MethodTypeName(t: MethodType): (name: string)
    ensures name in ["credit_card", "bank_transfer", "e_wallet", "cash"]
  {
    match t
    case CreditCard => "credit_card"
    case BankTransfer => "bank_transfer"
    case EWallet => "e_wallet"
    case Cash => "cash"
  }

  datatype PaymentStatus = Pending | Processing | Completed | Failed | Refunded

  datatype CustomerInfo = CustomerInfo(name: string, email: string, phone: string)

  datatype BillingAddress = BillingAddress(street: string, city: string, country: string, zipCode: string)

  /** Amounts are JavaScript numbers; they are modelled as exact reals. */
  datatype PaymentRequest = PaymentRequest(
    bookingId: string,
    amount: real,
    currency: string,
    paymentMethod: MethodType,
    customerInfo: CustomerInfo,
    billingAddress: Option<BillingAddress>)

  /** What the gateway answers: a result code, a message and, on success, an authorisation code. */
  datatype GatewayResponse = GatewayResponse(code: string, message: string, authCode: Option<string>)

  /** Timestamps are clock readings in milliseconds. */
  datatype Payment = Payment(
    id: string,
    bookingId: string,
    amount: real,
    currency: string,
    paymentMethod: MethodType,
    status: PaymentStatus,
    transactionId: Option<string>,
    gatewayResponse: Option<GatewayResponse>,
    createdAt: int,
    updatedAt: int,
    completedAt: Option<int>,
    failureReason: Option<string>)

  /** `processingFee` is a percentage of the amount. */
  datatype PaymentMethod = PaymentMethod(
    id: string,
    methodType: MethodType,
    name: string,
    description: string,
    icon: string,
    processingFee: real,
    isAvailable: bool)

  /** `paymentMethods`. */
  function PaymentMethods(): (methods: seq<PaymentMethod>)
    ensures |methods| == 4
  {
    [
      PaymentMethod("credit_card", CreditCard, "Thẻ tín dụng/Ghi nợ", "Visa, Mastercard, JCB",
        "\U{1F4B3}", 2.5, true),
      PaymentMethod("bank_transfer", BankTransfer, "Chuyển khoản ngân hàng", "Chuyển khoản trực tiếp",
        "\U{1F3E6}", 0.0, true),
      PaymentMethod("e_wallet", EWallet, "Ví điện tử", "MoMo, ZaloPay, VNPay",
        "\U{1F4F1}", 1.5, true),
      PaymentMethod("cash", Cash, "Tiền mặt", "Thanh toán tại văn phòng",
        "\U{1F4B5}", 0.0, true)
    ]
  }

  /** The fee the table lists for a method type. */
  function Fee(t: MethodType): (fee: real)
    ensures 0.0 <= fee <= 2.5
  {
    match t
    case CreditCard => 2.5
    case BankTransfer => 0.0
    case EWallet => 1.5
    case Cash => 0.0
  }

  /**
   * The table lists each method type exactly once, in the order credit card,
   * bank transfer, e-wallet, cash; every entry's id is its type's name, every
   * method is available, and its fee is `Fee` of its type.
   */
  lemma PaymentMethodsTable()
    ensures forall i :: 0 <= i < 4 ==> PaymentMethods()[i].id == MethodTypeName(PaymentMethods()[i].methodType)
    ensures forall i :: 0 <= i < 4 ==> PaymentMethods()[i].isAvailable
    ensures forall i :: 0 <= i < 4 ==> PaymentMethods()[i].processingFee == Fee(PaymentMethods()[i].methodType)
    ensures forall t: MethodType :: t == PaymentMethods()[MethodIndex(t)].methodType
  {
  }

  /** Where a method type sits in the table. */
  function MethodIndex(t: MethodType): (i: nat)
    ensures i < 4
  {
    match t
    case CreditCard => 0
    case BankTransfer => 1
    case EWallet => 2
    case Cash => 3
  }

  const SuccessMessage: string := "Transaction successful"
  const DeclineMessage: string := "Transaction declined"
  const DeclineReason: string := "Insufficient funds or card declined"

  /**
   * `AUTH` and the upper-cased characters 2..7 of `Math.random().toString(36)`;
   * `randomText` is that rendering.
   */
  function AuthCode(randomText: string): (code: string)
    ensures 4 <= |code| <= 10 && code[..4] == "AUTH"
    ensures |randomText| >= 8 ==> |code| == 10
    ensures forall i :: 4 <= i < |code| ==> !Text.IsLowerAscii(code[i])
  {
    "AUTH" + Text.ToUpperAscii(Text.Substr(randomText, 2, 6))
  }

  /** A payment the gateway has answered: either completed or failed, with the fields each outcome sets. */
  predicate Settled(p: Payment)
  {
    && p.transactionId.Some?
    && p.gatewayResponse.Some?
    && (p.status == Completed || p.status == Failed)
    && (p.status == Completed ==>
          && p.completedAt.Some? && p.failureReason.None?
          && p.gatewayResponse.value.code == "00" && p.gatewayResponse.value.authCode.Some?)
    && (p.status == Failed ==>
          && p.completedAt.None? && p.failureReason.Some? && p.failureReason.value != []
          && p.gatewayResponse.value.code == "05" && p.gatewayResponse.value.authCode.None?)
  }

  /**
   * `processPayment(request)`. `now` is the clock, `draw` the value of
   * `Math.random()` that decides the outcome (success when above 0.1), and
   * `randomText` the rendering the authorisation code is cut from.
   */
  method ProcessPayment(request: PaymentRequest, now: nat, draw: real, randomText: string) returns (p: Payment)
    ensures p.bookingId == request.bookingId && p.amount == request.amount
    ensures p.currency == request.currency && p.paymentMethod == request.paymentMethod
    ensures p.id == Text.NatToString(now) && p.transactionId == Some("TXN" + Text.NatToString(now))
    ensures p.createdAt == now && p.updatedAt == now
    ensures Settled(p)
    ensures p.status == Completed <==> draw > 0.1
    ensures p.status == Completed ==> (p.completedAt == Some(now)
      && p.gatewayResponse == Some(GatewayResponse("00", SuccessMessage, Some(AuthCode(randomText)))))
    ensures p.status == Failed ==> (p.failureReason == Some(DeclineReason)
      && p.gatewayResponse == Some(GatewayResponse("05", DeclineMessage, None)))
  {
    p := Payment(Text.NatToString(now), request.bookingId, request.amount, request.currency,
      request.paymentMethod, Processing, Some("TXN" + Text.NatToString(now)), None, now, now, None, None);
    var isSuccess := draw > 0.1;
    if isSuccess {
      p := p.(status := Completed, completedAt := Some(now),
        gatewayResponse := Some(GatewayResponse("00", SuccessMessage, Some(AuthCode(randomText)))));
    } else {
      p := p.(status := Failed, failureReason := Some(DeclineReason),
        gatewayResponse := Some(GatewayResponse("05", DeclineMessage, None)));
    }
  }

  /** A settled payment is never left pending, processing or refunded. */
  lemma SettledIsFinal(p: Payment)
    requires Settled(p)
    ensures p.status != Pending && p.status != Processing && p.status != Refunded
    ensures p.status == Completed <==> p.failureReason.None?
  {
  }

  /** `getPaymentHistory(userId)`: the same two records whatever the user. */
  function GetPaymentHistory(userId: string): (ps: seq<Payment>)
    ensures |ps| == 2
    ensures ps[0].status == Completed && Settled(ps[0])
    ensures ps[1].status == Pending && ps[1].completedAt.None? && ps[1].gatewayResponse.None?
  {
    [
      Payment("1", "1", 5000000.0, "VND", CreditCard, Completed, Some("TXN123456789"),
        Some(GatewayResponse("00", SuccessMessage, Some("AUTH123"))),
        Dates.January2024(15), Dates.January2024(15), Some(Dates.January2024(15)), None),
      Payment("2", "2", 6400000.0, "VND", BankTransfer, Pending, Some("TXN987654321"),
        None, Dates.January2024(20), Dates.January2024(20), None, None)
    ]
  }

  /** `refundPayment(paymentId, amount, reason)`: acknowledged with `true`. */
  function RefundPayment(paymentId: string, amount: real, reason: string): (ack: bool)
    ensures ack
  {
    true
  }
}

=== FILE: seqs.dfy ===
/**
 * The array operations the source leans on (`filter`, `find`, `includes`,
 * counting with `filter(...).length`), stated once over sequences.
 */
module Seqs {
  import opened Wrappers

  /** `xs.filter(p)`. */
  function Filter<T>(xs: seq<T>, p: T -> bool): (r: seq<T>)
    ensures |r| <= |xs|
    ensures forall i :: 0 <= i < |r| ==> p(r[i])
    ensures forall i :: 0 <= i < |r| ==> r[i] in xs
    ensures forall i :: 0 <= i < |xs| && p(xs[i]) ==> xs[i] in r
  {
    if xs == [] then []
    else if p(xs[0]) then [xs[0]] + Filter(xs[1..], p)
    else Filter(xs[1..], p)
  }

  /** `r` is `xs` with some elements left out and the rest in their original order. */
  ghost predicate Subsequence<T>(r: seq<T>, xs: seq<T>)
  {
    if r == [] then true
    else if xs == [] then false
    else if r[0] == xs[0] then Subsequence(r[1..], xs[1..])
    else Subsequence(r, xs[1..])
  }

  /** Filtering keeps the surviving elements in their original order. */
  lemma {:induction false} FilterIsSubsequence<T>(xs: seq<T>, p: T -> bool)
    ensures Subsequence(Filter(xs, p), xs)
  {
    if xs != [] {
      FilterIsSubsequence(xs[1..], p);
      if p(xs[0]) {
        assert Filter(xs, p)[1..] == Filter(xs[1..], p);
      } else {
        SubsequenceSkip(Filter(xs[1..], p), xs[0], xs[1..]);
      }
    }
  }

  /** A subsequence of `xs` is also one of `[x] + xs`. */
  lemma {:induction false} SubsequenceSkip<T>(r: seq<T>, x: T, xs: seq<T>)
    requires Subsequence(r, xs)
    ensures Subsequence(r, [x] + xs)
    decreases |xs|, 1
  {
    assert ([x] + xs)[1..] == xs;
    if r != [] && r[0] == x {
      assert xs != [];
      if r[0] == xs[0] {
        SubsequenceSkip(r[1..], xs[0], xs[1..]);
        assert [xs[0]] + xs[1..] == xs;
      } else {
        SubsequenceTail(r, xs);
      }
    }
  }

  /** Dropping the head of a subsequence keeps it a subsequence. */
  lemma {:induction false} SubsequenceTail<T>(r: seq<T>, xs: seq<T>)
    requires r != [] && Subsequence(r, xs)
    ensures Subsequence(r[1..], xs)
    decreases |xs|, 0
  {
    if r[0] == xs[0] {
      if r[1..] != [] {
        SubsequenceSkip(r[1..], xs[0], xs[1..]);
        assert [xs[0]] + xs[1..] == xs;
      }
    } else {
      SubsequenceTail(r, xs[1..]);
      if r[1..] != [] {
        SubsequenceSkip(r[1..], xs[0], xs[1..]);
        assert [xs[0]] + xs[1..] == xs;
      }
    }
  }

  /** A prefix of a subsequence is a subsequence. */
  lemma {:induction false} SubsequencePrefix<T>(r: seq<T>, xs: seq<T>, n: nat)
    requires Subsequence(r, xs) && n <= |r|
    ensures Subsequence(r[..n], xs)
  {
    if n > 0 {
      assert r[..n][0] == r[0];
      if r[0] == xs[0] {
        SubsequencePrefix(r[1..], xs[1..], n - 1);
        assert r[..n][1..] == r[1..][..n - 1];
      } else {
        SubsequencePrefix(r, xs[1..], n);
      }
    }
  }

  /** Filtering a concatenation filters each part. */
  lemma {:induction false} FilterAppend<T>(a: seq<T>, b: seq<T>, p: T -> bool)
    ensures Filter(a + b, p) == Filter(a, p) + Filter(b, p)
  {
    if a == [] {
      assert a + b == b;
    } else {
      assert (a + b)[0] == a[0] && (a + b)[1..] == a[1..] + b;
      FilterAppend(a[1..], b, p);
    }
  }

  /** A prefix one longer is the shorter prefix followed by the next element. */
  lemma PrefixSnoc<T>(xs: seq<T>, i: nat)
    requires 1 <= i <= |xs|
    ensures xs[..i] == xs[..i - 1] + [xs[i - 1]]
  {
  }

  /** `xs.filter(y => y !== x)`: every occurrence of `x` removed. */
  function Without<T(==)>(xs: seq<T>, x: T): (r: seq<T>)
    ensures x !in r
    ensures forall i :: 0 <= i < |r| ==> r[i] in xs && r[i] != x
    ensures forall i :: 0 <= i < |xs| && xs[i] != x ==> xs[i] in r
    ensures |r| <= |xs|
    ensures x !in xs ==> r == xs
  {
    if xs == [] then []
    else if xs[0] == x then Without(xs[1..], x)
    else [xs[0]] + Without(xs[1..], x)
  }

  /** Removing works piecewise on a concatenation. */
  lemma {:induction false} WithoutAppend<T>(a: seq<T>, b: seq<T>, x: T)
    ensures Without(a + b, x) == Without(a, x) + Without(b, x)
  {
    if a == [] {
      assert a + b == b;
    } else {
      assert (a + b)[0] == a[0] && (a + b)[1..] == a[1..] + b;
      WithoutAppend(a[1..], b, x);
    }
  }

  /** Removing keeps the other elements in their original order. */
  lemma {:induction false} WithoutIsSubsequence<T>(xs: seq<T>, x: T)
    ensures Subsequence(Without(xs, x), xs)
  {
    if xs != [] {
      WithoutIsSubsequence(xs[1..], x);
      if xs[0] == x {
        SubsequenceSkip(Without(xs[1..], x), xs[0], xs[1..]);
        assert [xs[0]] + xs[1..] == xs;
      } else {
        assert Without(xs, x)[1..] == Without(xs[1..], x);
      }
    }
  }

  /** Removing from a list without repeats yields a list without repeats. */
  lemma {:induction false} WithoutNoDuplicates<T>(xs: seq<T>, x: T)
    requires NoDuplicates(xs)
    ensures NoDuplicates(Without(xs, x))
  {
    if xs != [] {
      WithoutNoDuplicates(xs[1..], x);
      var rest := Without(xs[1..], x);
      assert xs[0] !in xs[1..];
      assert xs[0] !in rest;
    }
  }

  /** `xs.filter(p).length`. */
  function Count<T>(xs: seq<T>, p: T -> bool): (n: nat)
    ensures n <= |xs|
    ensures n == 0 <==> forall i :: 0 <= i < |xs| ==> !p(xs[i])
  {
    if xs == [] then 0 else (if p(xs[0]) then 1 else 0) + Count(xs[1..], p)
  }

  /** `Count` is the length of the filtered list. */
  lemma {:induction false} CountIsFilterLength<T>(xs: seq<T>, p: T -> bool)
    ensures Count(xs, p) == |Filter(xs, p)|
  {
    if xs != [] {
      CountIsFilterLength(xs[1..], p);
    }
  }

  /** No element occurs twice. */
  predicate NoDuplicates<T(==)>(xs: seq<T>)
  {
    forall i, j :: 0 <= i < j < |xs| ==> xs[i] != xs[j]
  }

  /** `xs.find(p) || null`: the first element satisfying `p`, if any. */
  function FindFirst<T>(xs: seq<T>, p: T -> bool): (r: Option<T>)
    ensures r.None? <==> forall i :: 0 <= i < |xs| ==> !p(xs[i])
    ensures r.Some? ==> exists i :: (0 <= i < |xs| && xs[i] == r.value && p(xs[i])
      && forall j :: 0 <= j < i ==> !p(xs[j]))
  {
    if xs == [] then None
    else if p(xs[0]) then Some(xs[0])
    else
      var r := FindFirst(xs[1..], p);
      assert r.Some? ==> exists i :: (0 <= i < |xs| && xs[i] == r.value && p(xs[i])
        && forall j :: 0 <= j < i ==> !p(xs[j])) by {
        if r.Some? {
          var i :| 0 <= i < |xs[1..]| && xs[1..][i] == r.value && p(xs[1..][i])
            && forall j :: 0 <= j < i ==> !p(xs[1..][j]);
          assert xs[i + 1] == r.value && forall j :: 0 <= j < i + 1 ==> !p(xs[j]);
        }
      }
      r
  }
}

=== FILE: storage.dfy ===
/**
 * The client-side storage service (`src/services/storage.ts`): a key-value
 * store of JSON values with typed entries for the auth token, the user, the
 * search history (the ten most recent distinct terms, newest first), the
 * favourite tours (no repeats, oldest first) and the recently viewed tours
 * (the twenty most recent, newest first).
 *
 * The browser's `localStorage` is the field `items`. Values are kept as
 * parsed JSON: serialising and parsing back is taken to give the value that
 * was stored.
 */
module Storage {
  import Seqs

  /** A JSON value as the service stores it; an array of strings has its own case. */
  datatype Json =
    | JNull
    | JBool(b: bool)
    | JNumber(n: real)
    | JString(s: string)
    | JStrings(items: seq<string>)
    | JObject(fields: seq<(string, Json)>)

  const AuthTokenKey: string := "auth_token"
  const UserKey: string := "user"
  const SearchHistoryKey: string := "search_history"
  const FavoritesKey: string := "favorites"
  const RecentlyViewedKey: string := "recently_viewed"

  const SearchHistoryLimit: nat := 10
  const RecentlyViewedLimit: nat := 20

  /** `getItem(key)` on a store: the stored value, or null when the key is absent. */
  function Lookup(items: map<string, Json>, key: string): (v: Json)
    ensures key !in items ==> v == JNull
    ensures key in items ==> v == items[key]
  {
    if key in items then items[key] else JNull
  }

  /** `getItem<string[]>(key) || []`: the stored list of strings, or the empty list. */
  function ListAt(items: map<string, Json>, key: string): (l: seq<string>)
    ensures Lookup(items, key).JStrings? ==> l == Lookup(items, key).items
    ensures !Lookup(items, key).JStrings? ==> l == []
  {
    match Lookup(items, key)
    case JStrings(l) => l
    case _ => []
  }

  /** Storing under one key leaves what every other key reads unchanged. */
  lemma LookupFrame(items: map<string, Json>, key: string, value: Json, other: string)
    ensures Lookup(items[key := value], key) == value
    ensures other != key ==> Lookup(items[key := value], other) == Lookup(items, other)
    ensures other != key ==> Lookup(items - {key}, other) == Lookup(items, other)
    ensures Lookup(items - {key}, key) == JNull
  {
  }

  // ---------------------------------------------------------------------
  // Move-to-front history lists
  // ---------------------------------------------------------------------

  /**
   * `[x, ...list.filter(y => y !== x)].slice(0, cap)`: `x` moved (or added)
   * to the front and the list cut to `cap` entries; what the cut drops are
   * the entries at the end, the oldest.
   */
  function MoveToFront(list: seq<string>, x: string, cap: nat): (r: seq<string>)
    requires cap >= 1
    ensures 1 <= |r| <= cap && r[0] == x
    ensures x !in r[1..]
    ensures forall i :: 1 <= i < |r| ==> r[i] in list
    ensures |r| == if 1 + |Seqs.Without(list, x)| <= cap then 1 + |Seqs.Without(list, x)| else cap
    ensures r[1..] == Seqs.Without(list, x)[..|r| - 1]
  {
    var moved := [x] + Seqs.Without(list, x);
    var r := if |moved| <= cap then moved else moved[..cap];
    assert r[1..] == Seqs.Without(list, x)[..|r| - 1];
    r
  }

  /** The entries after the new head are the old ones other than `x`, in their old order. */
  lemma MoveToFrontKeepsOrder(list: seq<string>, x: string, cap: nat)
    requires cap >= 1
    ensures Seqs.Subsequence(MoveToFront(list, x, cap)[1..], list)
  {
    var r := MoveToFront(list, x, cap);
    var w := Seqs.Without(list, x);
    assert r[1..] == w[..|r| - 1];
    Seqs.WithoutIsSubsequence(list, x);
    Seqs.SubsequencePrefix(w, list, |r| - 1);
  }

  /** While the list is below its cap, no old entry is dropped. */
  lemma MoveToFrontDropsOnlyOverflow(list: seq<string>, x: string, cap: nat, y: string)
    requires cap >= 1 && y in list
    ensures |MoveToFront(list, x, cap)| < cap ==> y in MoveToFront(list, x, cap)
  {
    var r := MoveToFront(list, x, cap);
    var w := Seqs.Without(list, x);
    if |r| < cap && y != x {
      var i :| 0 <= i < |list| && list[i] == y;
      assert y in w;
      assert r == [x] + w;
    }
  }

  /** Moving the same entry to the front twice is moving it once. */
  lemma MoveToFrontIdempotent(list: seq<string>, x: string, cap: nat)
    requires cap >= 1
    ensures MoveToFront(MoveToFront(list, x, cap), x, cap) == MoveToFront(list, x, cap)
  {
    var r := MoveToFront(list, x, cap);
    var rest := r[1..];
    assert r == [x] + rest;
    Seqs.WithoutAppend([x], rest, x);
    assert Seqs.Without([x], x) == [];
    assert Seqs.Without(r, x) == rest;
  }

  /** A list without repeats stays without repeats. */
  lemma MoveToFrontNoDuplicates(list: seq<string>, x: string, cap: nat)
    requires cap >= 1 && Seqs.NoDuplicates(list)
    ensures Seqs.NoDuplicates(MoveToFront(list, x, cap))
  {
    var r := MoveToFront(list, x, cap);
    var w := Seqs.Without(list, x);
    Seqs.WithoutNoDuplicates(list, x);
    assert r[1..] == w[..|r| - 1];
    forall i, j | 0 <= i < j < |r|
      ensures r[i] != r[j]
    {
      assert r[j] == w[j - 1];
      if i == 0 {
        assert r[1..][j - 1] == r[j];
      } else {
        assert r[i] == w[i - 1];
      }
    }
  }

  /** A repeat-free list that already starts with `x` and fits is left as it is. */
  lemma MoveToFrontAlreadyFirst(list: seq<string>, x: string, cap: nat)
    requires cap >= 1 && |list| <= cap && list != [] && list[0] == x && Seqs.NoDuplicates(list)
    ensures MoveToFront(list, x, cap) == list
  {
    var rest := list[1..];
    assert list == [x] + rest;
    assert x !in rest by {
      forall i | 0 <= i < |rest| ensures rest[i] != x {
        assert rest[i] == list[i + 1];
      }
    }
    Seqs.WithoutAppend([x], rest, x);
    assert Seqs.Without([x], x) == [];
  }

  // ---------------------------------------------------------------------
  // Favourites
  // ---------------------------------------------------------------------

  /** `addFavorite`'s new list: appended at the end unless already present. */
  function AddFavoriteTo(favorites: seq<string>, tourId: string): (r: seq<string>)
    ensures tourId in r
    ensures tourId in favorites ==> r == favorites
    ensures tourId !in favorites ==> |r| == |favorites| + 1 && r[..|favorites|] == favorites && r[|favorites|] == tourId
  {
    if tourId in favorites then favorites else favorites + [tourId]
  }

  /** Adding a favourite never creates a repeat. */
  lemma AddFavoriteNoDuplicates(favorites: seq<string>, tourId: string)
    requires Seqs.NoDuplicates(favorites)
    ensures Seqs.NoDuplicates(AddFavoriteTo(favorites, tourId))
  {
    var r := AddFavoriteTo(favorites, tourId);
    if tourId !in favorites {
      forall i, j | 0 <= i < j < |r| ensures r[i] != r[j] {
        if j == |favorites| {
          assert r[i] == favorites[i];
        }
      }
    }
  }

  /** `removeFavorite`'s new list: every occurrence gone, the rest kept in order. */
  lemma RemoveFavoriteSpec(favorites: seq<string>, tourId: string)
    ensures tourId !in Seqs.Without(favorites, tourId)
    ensures Seqs.Subsequence(Seqs.Without(favorites, tourId), favorites)
    ensures forall i :: 0 <= i < |favorites| && favorites[i] != tourId ==> favorites[i] in Seqs.Without(favorites, tourId)
    ensures Seqs.NoDuplicates(favorites) ==> Seqs.NoDuplicates(Seqs.Without(favorites, tourId))
  {
    Seqs.WithoutIsSubsequence(favorites, tourId);
    if Seqs.NoDuplicates(favorites) {
      Seqs.WithoutNoDuplicates(favorites, tourId);
    }
  }

  // ---------------------------------------------------------------------
  // The service
  // ---------------------------------------------------------------------

  class StorageService {
    /** The browser store: key to stored value. */
    var items: map<string, Json>

    constructor(initial: map<string, Json>)
      ensures items == initial
    {
      items := initial;
    }

    /** `setItem(key, value)`. */
    method SetItem(key: string, value: Json)
      modifies this
      ensures items == old(items)[key := value]
    {
      items := items[key := value];
    }

    /** `getItem(key)`. */
    function GetItem(key: string): Json
      reads this
    {
      Lookup(items, key)
    }

    /** `removeItem(key)`. */
    method RemoveItem(key: string)
      modifies this
      ensures items == old(items) - {key}
    {
      items := items - {key};
    }

    /** `clear()`. */
    method Clear()
      modifies this
      ensures items == map[]
      ensures SearchHistory() == [] && Favorites() == [] && RecentlyViewed() == []
    {
      items := map[];
    }

    /** `setAuthToken(token)`: afterwards `getAuthToken()` gives the token back. */
    method SetAuthToken(token: string)
      modifies this
      ensures items == old(items)[AuthTokenKey := JString(token)]
      ensures GetAuthToken() == JString(token)
    {
      SetItem(AuthTokenKey, JString(token));
    }

    function GetAuthToken(): Json
      reads this
    {
      GetItem(AuthTokenKey)
    }

    method RemoveAuthToken()
      modifies this
      ensures items == old(items) - {AuthTokenKey}
      ensures GetAuthToken() == JNull
    {
      RemoveItem(AuthTokenKey);
    }

    /** `setUser(user)`: afterwards `getUser()` gives the user back. */
    method SetUser(user: Json)
      modifies this
      ensures items == old(items)[UserKey := user]
      ensures GetUser() == user
    {
      SetItem(UserKey, user);
    }

    function GetUser(): Json
      reads this
    {
      GetItem(UserKey)
    }

    method RemoveUser()
      modifies this
      ensures items == old(items) - {UserKey}
      ensures GetUser() == JNull
    {
      RemoveItem(UserKey);
    }

    /** `getSearchHistory()`. */
    function SearchHistory(): seq<string>
      reads this
    {
      ListAt(items, SearchHistoryKey)
    }

    /** `addSearchHistory(term)`: the term moved to the front, at most ten kept. */
    method AddSearchHistory(searchTerm: string)
      modifies this
      ensures items == old(items)[SearchHistoryKey := JStrings(MoveToFront(old(SearchHistory()), searchTerm, SearchHistoryLimit))]
      ensures SearchHistory() == MoveToFront(old(SearchHistory()), searchTerm, SearchHistoryLimit)
    {
      var history := SearchHistory();
      var updated := MoveToFront(history, searchTerm, SearchHistoryLimit);
      SetItem(SearchHistoryKey, JStrings(updated));
    }

    /** `clearSearchHistory()`: the history reads empty again. */
    method ClearSearchHistory()
      modifies this
      ensures items == old(items) - {SearchHistoryKey}
      ensures SearchHistory() == []
    {
      RemoveItem(SearchHistoryKey);
    }

    /** `getFavorites()`. */
    function Favorites(): seq<string>
      reads this
    {
      ListAt(items, FavoritesKey)
    }

    /** `isFavorite(tourId)`. */
    function IsFavorite(tourId: string): (b: bool)
      reads this
      ensures b <==> tourId in Favorites()
    {
      tourId in Favorites()
    }

    /** `addFavorite(tourId)`: the store is written only when the tour is not yet a favourite. */
    method AddFavorite(tourId: string)
      modifies this
      ensures tourId in old(Favorites()) ==> items == old(items)
      ensures tourId !in old(Favorites()) ==> items == old(items)[FavoritesKey := JStrings(old(Favorites()) + [tourId])]
      ensures Favorites() == AddFavoriteTo(old(Favorites()), tourId) && IsFavorite(tourId)
    {
      var favorites := Favorites();
      if tourId !in favorites {
        SetItem(FavoritesKey, JStrings(favorites + [tourId]));
      }
    }

    /** `removeFavorite(tourId)`: afterwards the tour is no favourite. */
    method RemoveFavorite(tourId: string)
      modifies this
      ensures items == old(items)[FavoritesKey := JStrings(Seqs.Without(old(Favorites()), tourId))]
      ensures Favorites() == Seqs.Without(old(Favorites()), tourId) && !IsFavorite(tourId)
    {
      var favorites := Favorites();
      SetItem(FavoritesKey, JStrings(Seqs.Without(favorites, tourId)));
    }

    /** `getRecentlyViewed()`. */
    function RecentlyViewed(): seq<string>
      reads this
    {
      ListAt(items, RecentlyViewedKey)
    }

    /** `addRecentlyViewed(tourId)`: the tour moved to the front, at most twenty kept. */
    method AddRecentlyViewed(tourId: string)
      modifies this
      ensures items == old(items)[RecentlyViewedKey := JStrings(MoveToFront(old(RecentlyViewed()), tourId, RecentlyViewedLimit))]
      ensures RecentlyViewed() == MoveToFront(old(RecentlyViewed()), tourId, RecentlyViewedLimit)
    {
      var recent := RecentlyViewed();
      SetItem(RecentlyViewedKey, JStrings(MoveToFront(recent, tourId, RecentlyViewedLimit)));
    }

    /** `clearRecentlyViewed()`. */
    method ClearRecentlyViewed()
      modifies this
      ensures items == old(items) - {RecentlyViewedKey}
      ensures RecentlyViewed() == []
    {
      RemoveItem(RecentlyViewedKey);
    }
  }
}

=== FILE: text.dfy ===
/**
 * String helpers shared by the model: decimal rendering of numbers (what
 * JavaScript's template literals and `toString()` do to an integer), the
 * ECMAScript white-space class used by `\s` and `trim()`, and list joining.
 */
module Text {

  // ---------------------------------------------------------------------
  // Decimal digits
  // ---------------------------------------------------------------------

  predicate IsDigit(c: char) { '0' <= c <= '9' }

  predicate AllDigits(s: string) { forall i :: 0 <= i < |s| ==> IsDigit(s[i]) }

  function DigitChar(d: nat): (c: char)
    requires d < 10
    ensures IsDigit(c) && c as int - '0' as int == d
  {
    ['0', '1', '2', '3', '4', '5', '6', '7', '8', '9'][d]
  }

  function DigitValue(c: char): nat
    requires IsDigit(c)
  {
    c as int - '0' as int
  }

  /** Decimal rendering of a natural number, without leading zeros. */
  function NatToString(n: nat): (s: string)
    ensures 1 <= |s| && AllDigits(s)
    ensures n >= 10 ==> s[0] != '0'
    ensures n < 10 <==> |s| == 1
  {
    if n < 10 then [DigitChar(n)] else NatToString(n / 10) + [DigitChar(n % 10)]
  }

  /** Decimal rendering of an integer, with a leading '-' when negative. */
  function IntToString(i: int): (s: string)
    ensures 1 <= |s|
    ensures i >= 0 ==> s == NatToString(i)
    ensures i < 0 ==> s == "-" + NatToString(-i)
  {
    if i < 0 then "-" + NatToString(-i) else NatToString(i)
  }

  /** The number a string of decimal digits denotes. */
  function DigitsValue(s: string): nat
    requires AllDigits(s)
  {
    if s == [] then 0 else DigitsValue(s[..|s| - 1]) * 10 + DigitValue(s[|s| - 1])
  }

  /** Reading the rendering back gives the number: `NatToString` loses nothing. */
  lemma {:induction false} NatToStringRoundTrip(n: nat)
    ensures DigitsValue(NatToString(n)) == n
  {
    var s := NatToString(n);
    if n >= 10 {
      NatToStringRoundTrip(n / 10);
      assert s[..|s| - 1] == NatToString(n / 10);
    }
  }

  /** Distinct numbers have distinct renderings. */
  lemma NatToStringInjective(m: nat, n: nat)
    requires NatToString(m) == NatToString(n)
    ensures m == n
  {
    NatToStringRoundTrip(m);
    NatToStringRoundTrip(n);
  }

  /** The `k` least significant decimal digits of `m`, zero-padded to exactly `k` characters. */
  function FixedDigits(m: nat, k: nat): (s: string)
    ensures |s| == k && AllDigits(s)
  {
    if k == 0 then [] else FixedDigits(m / 10, k - 1) + [DigitChar(m % 10)]
  }

  /** The last `k` characters of a rendering are the `k` least significant digits. */
  lemma {:induction false} NatToStringSuffix(n: nat, k: nat)
    requires k <= |NatToString(n)|
    ensures NatToString(n)[|NatToString(n)| - k..] == FixedDigits(n, k)
  {
    var s := NatToString(n);
    if k == 0 {
    } else if n < 10 {
      assert k == 1;
      assert FixedDigits(n, 1) == [DigitChar(n)];
    } else {
      var t := NatToString(n / 10);
      var d := [DigitChar(n % 10)];
      assert s == t + d;
      NatToStringSuffix(n / 10, k - 1);
      assert FixedDigits(n, k) == FixedDigits(n / 10, k - 1) + d;
      SliceAppend(t, d, |t| - (k - 1));
    }
  }

  /** The middle of `a + x + b` can be read back by position. */
  lemma Infix(a: string, x: string, b: string)
    ensures var s := a + x + b; s[|a|..|s| - |b|] == x
  {
    var s := a + x + b;
    assert s == a + (x + b);
  }

  /** A suffix of `a + b` that starts inside `a`. */
  lemma SliceAppend(a: string, b: string, i: nat)
    requires i <= |a|
    ensures (a + b)[i..] == a[i..] + b
  {
  }

  /** JavaScript's `s.slice(-k)` for k > 0: the last k characters, or all of a shorter string. */
  function LastChars(s: string, k: nat): (r: string)
    ensures |r| == if |s| <= k then |s| else k
    ensures s == s[..|s| - |r|] + r
  {
    if |s| <= k then s else s[|s| - k..]
  }

  /** JavaScript's `s.substr(start, length)` for non-negative arguments. */
  function Substr(s: string, start: nat, length: nat): (r: string)
    ensures |r| <= length
    ensures start + length <= |s| ==> r == s[start..start + length]
    ensures start >= |s| ==> r == []
  {
    var from := if start <= |s| then start else |s|;
    var to := if start + length <= |s| then start + length else |s|;
    s[from..to]
  }

  predicate IsLowerAscii(c: char) { 'a' <= c <= 'z' }

  predicate IsUpperAscii(c: char) { 'A' <= c <= 'Z' }

  function UpperChar(c: char): (u: char)
    ensures !IsLowerAscii(u)
    ensures IsLowerAscii(c) ==> IsUpperAscii(u) && u as int == c as int - 32
    ensures !IsLowerAscii(c) ==> u == c
  {
    if IsLowerAscii(c) then (c as int - 32) as char else c
  }

  /**
   * `s.toUpperCase()` on text drawn from digits, '.', and the ASCII letters
   * (what `Number.prototype.toString(36)` produces).
   */
  function ToUpperAscii(s: string): (r: string)
    ensures |r| == |s|
    ensures forall i :: 0 <= i < |s| ==> r[i] == UpperChar(s[i])
  {
    if s == [] then [] else [UpperChar(s[0])] + ToUpperAscii(s[1..])
  }

  // ---------------------------------------------------------------------
  // White space, as ECMAScript's `\s` class and `String.prototype.trim`
  // ---------------------------------------------------------------------

  /** WhiteSpace and LineTerminator code points of ECMAScript. */
  predicate IsSpace(c: char)
  {
    c == ' ' || c == '\t' || c == '\n' || c == '\r' || c == '\U{000B}' || c == '\U{000C}'
    || c == '\U{00A0}' || c == '\U{1680}' || ('\U{2000}' <= c <= '\U{200A}')
    || c == '\U{2028}' || c == '\U{2029}' || c == '\U{202F}' || c == '\U{205F}'
    || c == '\U{3000}' || c == '\U{FEFF}'
  }

  predicate NoSpace(s: string) { forall i :: 0 <= i < |s| ==> !IsSpace(s[i]) }

  /** `s.replace(/\s/g, "")`: every white-space character removed. */
  function RemoveSpaces(s: string): (r: string)
    ensures NoSpace(r) && |r| <= |s|
  {
    if s == [] then []
    else if IsSpace(s[0]) then RemoveSpaces(s[1..])
    else [s[0]] + RemoveSpaces(s[1..])
  }

  /** Removing spaces works piecewise, so a space anywhere is as good as none. */
  lemma {:induction false} RemoveSpacesAppend(a: string, b: string)
    ensures RemoveSpaces(a + b) == RemoveSpaces(a) + RemoveSpaces(b)
  {
    if a == [] {
      assert a + b == b;
    } else {
      assert (a + b)[0] == a[0] && (a + b)[1..] == a[1..] + b;
      RemoveSpacesAppend(a[1..], b);
      if IsSpace(a[0]) {
        assert RemoveSpaces(a + b) == RemoveSpaces(a[1..] + b);
      } else {
        assert RemoveSpaces(a + b) == [a[0]] + RemoveSpaces(a[1..] + b);
      }
    }
  }

  /** A string with no white space is left as it is. */
  lemma {:induction false} RemoveSpacesNoSpace(s: string)
    requires NoSpace(s)
    ensures RemoveSpaces(s) == s
  {
    if s != [] {
      RemoveSpacesNoSpace(s[1..]);
    }
  }

  function TrimStart(s: string): (r: string)
    ensures |r| <= |s| && r == s[|s| - |r|..]
    ensures r != [] ==> !IsSpace(r[0])
    ensures forall i :: 0 <= i < |s| - |r| ==> IsSpace(s[i])
  {
    if s != [] && IsSpace(s[0]) then TrimStart(s[1..]) else s
  }

  function TrimEnd(s: string): (r: string)
    ensures |r| <= |s| && r == s[..|r|]
    ensures r != [] ==> !IsSpace(r[|r| - 1])
    ensures forall i :: |r| <= i < |s| ==> IsSpace(s[i])
  {
    if s != [] && IsSpace(s[|s| - 1]) then TrimEnd(s[..|s| - 1]) else s
  }

  /** `s.trim()`: leading and trailing white space removed. */
  function Trim(s: string): string
  {
    TrimEnd(TrimStart(s))
  }

  /**
   * `Trim` cuts `s` into white space, a core `s[i..j]` and white space, and
   * the core neither starts nor ends with white space.
   */
  lemma TrimSpec(s: string) returns (i: nat, j: nat)
    ensures i <= j <= |s| && Trim(s) == s[i..j]
    ensures forall k :: 0 <= k < i ==> IsSpace(s[k])
    ensures forall k :: j <= k < |s| ==> IsSpace(s[k])
    ensures Trim(s) != [] ==> !IsSpace(Trim(s)[0]) && !IsSpace(Trim(s)[|Trim(s)| - 1])
  {
    var t := TrimStart(s);
    i := |s| - |t|;
    var r := TrimEnd(t);
    j := i + |r|;
    assert r == t[..|r|];
    assert r == s[i..j];
    forall k | j <= k < |s| ensures IsSpace(s[k]) {
      assert s[k] == t[k - i];
    }
  }

  /** Trimming leaves a string without white space as it is. */
  lemma TrimNoSpace(s: string)
    requires NoSpace(s)
    ensures Trim(s) == s
  {
    assert TrimStart(s) == s;
    assert TrimEnd(s) == s;
  }

  /** White space in front of a string does not survive `TrimStart`. */
  lemma {:induction false} TrimStartSkipsSpace(w: string, t: string)
    requires forall i :: 0 <= i < |w| ==> IsSpace(w[i])
    ensures TrimStart(w + t) == TrimStart(t)
  {
    if w != [] {
      assert (w + t)[0] == w[0] && (w + t)[1..] == w[1..] + t;
      TrimStartSkipsSpace(w[1..], t);
    } else {
      assert w + t == t;
    }
  }

  /** White space after a string does not survive `TrimEnd`. */
  lemma {:induction false} TrimEndSkipsSpace(t: string, w: string)
    requires forall i :: 0 <= i < |w| ==> IsSpace(w[i])
    ensures TrimEnd(t + w) == TrimEnd(t)
  {
    if w != [] {
      var u := w[..|w| - 1];
      assert (t + w)[|t + w| - 1] == w[|w| - 1] && (t + w)[..|t + w| - 1] == t + u;
      TrimEndSkipsSpace(t, u);
    } else {
      assert t + w == t;
    }
  }

  /** `TrimStart` of a string followed by white space. */
  lemma {:induction false} TrimStartAppendSpace(t: string, w: string)
    requires forall i :: 0 <= i < |w| ==> IsSpace(w[i])
    ensures TrimEnd(TrimStart(t + w)) == TrimEnd(TrimStart(t))
  {
    if t == [] {
      assert t + w == w;
      TrimStartSkipsSpace(w, []);
      assert w + [] == w;
    } else if IsSpace(t[0]) {
      assert (t + w)[0] == t[0] && (t + w)[1..] == t[1..] + w;
      TrimStartAppendSpace(t[1..], w);
    } else {
      assert (t + w)[0] == t[0];
      assert TrimStart(t + w) == t + w && TrimStart(t) == t;
      TrimEndSkipsSpace(t, w);
    }
  }

  /** White space around a string does not survive `Trim`. */
  lemma TrimSurroundingSpace(w1: string, t: string, w2: string)
    requires forall i :: 0 <= i < |w1| ==> IsSpace(w1[i])
    requires forall i :: 0 <= i < |w2| ==> IsSpace(w2[i])
    ensures Trim(w1 + t + w2) == Trim(t)
  {
    assert w1 + t + w2 == w1 + (t + w2);
    TrimStartSkipsSpace(w1, t + w2);
    TrimStartAppendSpace(t, w2);
  }

  /** `s.startsWith(prefix)`. */
  predicate StartsWith(s: string, prefix: string)
  {
    |prefix| <= |s| && s[..|prefix|] == prefix
  }

  /** `s.indexOf(c)`: the first position of `c`, if any. */
  function IndexOf(s: string, c: char): (r: int)
    ensures -1 <= r < |s|
    ensures r == -1 <==> c !in s
    ensures r >= 0 ==> s[r] == c && c !in s[..r]
  {
    if s == [] then -1
    else if s[0] == c then 0
    else
      var k := IndexOf(s[1..], c);
      if k == -1 then -1 else
        assert s[..k + 1] == [s[0]] + s[1..][..k];
        k + 1
  }

  // ---------------------------------------------------------------------
  // Joining
  // ---------------------------------------------------------------------

  /** `items.join(sep)`. */
  function Join(items: seq<string>, sep: string): (r: string)
    ensures items == [] ==> r == []
    ensures |items| == 1 ==> r == items[0]
  {
    if items == [] then []
    else if |items| == 1 then items[0]
    else items[0] + sep + Join(items[1..], sep)
  }
}

=== FILE: toast.dfy ===
/**
 * The toast queue of the Vite tree (`src/context/toast-context.tsx`): showing
 * a toast appends it with a random id and a default duration, and the
 * returned handle can dismiss or update exactly that toast; toasts can be
 * dismissed by id or all at once.
 */
module Toasts {
  import opened Wrappers
  import Text

  datatype Variant = Default | Destructive | Success | Warning

  /** A shown toast; the optional fields are the ones a caller may leave out. */
  datatype Toast = Toast(
    id: string,
    title: Option<string>,
    description: Option<string>,
    variant: Option<Variant>,
    duration: Option<int>)

  /** What `toast(props)` takes: a toast without its id. */
  datatype ToastProps = ToastProps(
    title: Option<string>,
    description: Option<string>,
    variant: Option<Variant>,
    duration: Option<int>)

  /** What the handle's `update(props)` takes: any fields, the id included, each present or absent. */
  datatype ToastPatch = ToastPatch(
    id: Option<string>,
    title: Option<string>,
    description: Option<string>,
    variant: Option<Variant>,
    duration: Option<int>)

  /** The id `toast` draws: characters 2..10 of `Math.random().toString(36)`, given as `randomText`. */
  function ToastId(randomText: string): (id: string)
    ensures |id| <= 9
    ensures |randomText| >= 11 ==> id == randomText[2..11]
  {
    Text.Substr(randomText, 2, 9)
  }

  /** `{ id, duration, ...props }` with `duration` defaulting to 5000. */
  function NewToast(props: ToastProps, id: string): (t: Toast)
    ensures t.id == id && t.duration.Some?
    ensures t.duration.value == if props.duration.Some? then props.duration.value else 5000
    ensures t.title == props.title && t.description == props.description && t.variant == props.variant
  {
    Toast(id, props.title, props.description, props.variant, Some(props.duration.GetOr(5000)))
  }

  /** `{ ...t, ...patch }`: the fields the patch carries replace the toast's. */
  function Merge(t: Toast, patch: ToastPatch): (r: Toast)
    ensures patch == ToastPatch(None, None, None, None, None) ==> r == t
    ensures r.id == patch.id.GetOr(t.id)
    ensures patch.title.Some? ==> r.title == patch.title
    ensures patch.title.None? ==> r.title == t.title
    ensures patch.description.Some? ==> r.description == patch.description
    ensures patch.description.None? ==> r.description == t.description
    ensures patch.variant.Some? ==> r.variant == patch.variant
    ensures patch.variant.None? ==> r.variant == t.variant
    ensures patch.duration.Some? ==> r.duration == patch.duration
    ensures patch.duration.None? ==> r.duration == t.duration
  {
    Toast(patch.id.GetOr(t.id),
      if patch.title.Some? then patch.title else t.title,
      if patch.description.Some? then patch.description else t.description,
      if patch.variant.Some? then patch.variant else t.variant,
      if patch.duration.Some? then patch.duration else t.duration)
  }

  /** Applying the same update twice is applying it once. */
  lemma MergeIdempotent(t: Toast, patch: ToastPatch)
    ensures Merge(Merge(t, patch), patch) == Merge(t, patch)
  {
  }

  /** A later update wins over an earlier one on every field it carries. */
  lemma MergeLaterWins(t: Toast, first: ToastPatch, second: ToastPatch)
    requires second.id.Some? && second.title.Some? && second.description.Some?
    requires second.variant.Some? && second.duration.Some?
    ensures Merge(Merge(t, first), second) == Merge(t, second)
  {
  }

  /** `toasts.filter(t => t.id !== id)`: every toast with the id goes, the rest keep their order. */
  function Dismissed(ts: seq<Toast>, id: string): (r: seq<Toast>)
    ensures |r| <= |ts|
    ensures forall i :: 0 <= i < |r| ==> r[i].id != id && r[i] in ts
    ensures forall i :: 0 <= i < |ts| && ts[i].id != id ==> ts[i] in r
    ensures (forall i :: 0 <= i < |ts| ==> ts[i].id != id) ==> r == ts
  {
    if ts == [] then []
    else if ts[0].id == id then Dismissed(ts[1..], id)
    else [ts[0]] + Dismissed(ts[1..], id)
  }

  /** Dismissing works piecewise on a concatenation. */
  lemma {:induction false} DismissedAppend(a: seq<Toast>, b: seq<Toast>, id: string)
    ensures Dismissed(a + b, id) == Dismissed(a, id) + Dismissed(b, id)
  {
    if a == [] {
      assert a + b == b;
    } else {
      assert (a + b)[1..] == a[1..] + b;
      DismissedAppend(a[1..], b, id);
    }
  }

  /** `toasts.map(t => t.id === id ? { ...t, ...patch } : t)`: the toasts with the id are merged, the rest kept. */
  function Patched(ts: seq<Toast>, id: string, patch: ToastPatch): (r: seq<Toast>)
    ensures |r| == |ts|
    ensures forall i :: 0 <= i < |ts| ==> r[i] == if ts[i].id == id then Merge(ts[i], patch) else ts[i]
  {
    if ts == [] then []
    else
      var tail := Patched(ts[1..], id, patch);
      var head := if ts[0].id == id then Merge(ts[0], patch) else ts[0];
      var r := [head] + tail;
      assert forall i :: 0 <= i < |ts| ==> r[i] == if ts[i].id == id then Merge(ts[i], patch) else ts[i] by {
        forall i | 0 <= i < |ts|
          ensures r[i] == if ts[i].id == id then Merge(ts[i], patch) else ts[i]
        {
          if i > 0 {
            assert r[i] == tail[i - 1] && ts[i] == ts[1..][i - 1];
          }
        }
      }
      r
  }

  /** Dismissing a freshly shown toast through its handle restores the queue it joined. */
  lemma ToastThenDismiss(ts: seq<Toast>, props: ToastProps, id: string)
    requires forall i :: 0 <= i < |ts| ==> ts[i].id != id
    ensures Dismissed(ts + [NewToast(props, id)], id) == ts
  {
    DismissedAppend(ts, [NewToast(props, id)], id);
    assert Dismissed([NewToast(props, id)], id) == [];
  }

  /** An update that leaves the id alone keeps the handle attached: its dismiss still removes the toast. */
  lemma {:induction false} UpdateThenDismiss(ts: seq<Toast>, id: string, patch: ToastPatch)
    requires patch.id.None? || patch.id == Some(id)
    ensures Dismissed(Patched(ts, id, patch), id) == Dismissed(ts, id)
  {
    if ts != [] {
      UpdateThenDismiss(ts[1..], id, patch);
      assert Patched(ts, id, patch)[1..] == Patched(ts[1..], id, patch);
    }
  }

  /**
   * An update that carries another id renames the toast, after which the
   * handle's dismiss and update no longer reach it.
   */
  lemma UpdateRenames(ts: seq<Toast>, id: string, other: string, patch: ToastPatch)
    requires patch.id == Some(other) && other != id
    ensures forall i :: 0 <= i < |ts| ==> Patched(ts, id, patch)[i].id != id
    ensures Dismissed(Patched(ts, id, patch), id) == Patched(ts, id, patch)
  {
    var r := Patched(ts, id, patch);
    assert forall i :: 0 <= i < |r| ==> r[i].id != id;
  }

  /** The queue of shown toasts. */
  class ToastProvider {
    var toasts: seq<Toast>

    constructor ()
      ensures toasts == []
    {
      toasts := [];
    }

    /**
     * `toast(props)`: appends one toast whose id is drawn from `randomText`,
     * and reports that id, for the handle, and whether the expiry timer was
     * set (only for a positive duration).
     */
    method ShowToast(props: ToastProps, randomText: string) returns (id: string, timerSet: bool)
      modifies this
      ensures id == ToastId(randomText)
      ensures toasts == old(toasts) + [NewToast(props, id)]
      ensures timerSet <==> NewToast(props, id).duration.value > 0
    {
      id := ToastId(randomText);
      var newToast := NewToast(props, id);
      toasts := toasts + [newToast];
      timerSet := newToast.duration.value > 0;
    }

    /** `dismiss(id)`, which the expiry timer and the handle's `dismiss` also run. */
    method Dismiss(toastId: string)
      modifies this
      ensures toasts == Dismissed(old(toasts), toastId)
    {
      toasts := Dismissed(toasts, toastId);
    }

    /** `dismissAll()`. */
    method DismissAll()
      modifies this
      ensures toasts == []
    {
      toasts := [];
    }

    /** The handle's `update(patch)` for the toast shown with `handleId`. */
    method Update(handleId: string, patch: ToastPatch)
      modifies this
      ensures toasts == Patched(old(toasts), handleId, patch)
    {
      toasts := Patched(toasts, handleId, patch);
    }
  }
}

=== FILE: user_menu.dfy ===
/**
 * The account menu of the Next.js tree (`components/auth/user-menu.tsx`):
 * the dashboard path, role label and role-specific entries for the
 * signed-in user, the login button shown without a session, and signing out
 * followed by navigation home.
 */
module UserMenu {
  import opened Wrappers
  import LibAuth
  import AuthContext

  /** One entry of the dropdown: its caption and where clicking it navigates. */
  datatype MenuItem = MenuItem(caption: string, path: string)

  /**
   * What the menu shows: the login button alone, or the dropdown for a session.
   * `roleItems` are the role's entries; the fixed "Cài đặt" (/profile) and
   * "Đăng xuất" entries that follow them in every dropdown are not listed.
   */
  datatype MenuView = LoginButton | Dropdown(roleLabel: string, roleItems: seq<MenuItem>)

  /** `getDashboardPath()`: each role's dashboard, and home without a user. */
  function DashboardPath(user: Option<LibAuth.User>): (path: string)
    ensures user.None? <==> path == "/"
  {
    if user.None? then "/"
    else
      match user.value.role
      case Traveler => "/dashboard/traveler"
      case ServiceProvider => "/dashboard/provider"
      case Admin => "/dashboard/admin"
  }

  /** The three dashboards are three different paths, so the path tells the role. */
  lemma DashboardPathsDistinct(a: LibAuth.User, b: LibAuth.User)
    ensures DashboardPath(Some(a)) == DashboardPath(Some(b)) <==> a.role == b.role
  {
  }

  /** `getRoleLabel()`: the role's Vietnamese name, empty without a user. */
  function RoleLabel(user: Option<LibAuth.User>): (text: string)
    ensures user.None? <==> text == ""
  {
    if user.None? then ""
    else
      match user.value.role
      case Traveler => "Khách hàng"
      case ServiceProvider => "Nhà cung cấp"
      case Admin => "Quản trị viên"
  }

  /** `getRoleMenuItems()`: four entries per role, none without a user. */
  function RoleMenuItems(user: Option<LibAuth.User>): (items: seq<MenuItem>)
    ensures user.None? <==> items == []
    ensures user.Some? ==> |items| == 4
  {
    if user.None? then []
    else
      match user.value.role
      case Traveler => [
        MenuItem("Dashboard", "/dashboard/traveler"),
        MenuItem("Booking của tôi", "/bookings"),
        MenuItem("Yêu thích", "/favorites"),
        MenuItem("Thanh toán", "/payments")]
      case ServiceProvider => [
        MenuItem("Dashboard", "/dashboard/provider"),
        MenuItem("Quản lý dịch vụ", "/provider/services"),
        MenuItem("Booking đến", "/provider/bookings"),
        MenuItem("Thống kê", "/provider/analytics")]
      case Admin => [
        MenuItem("Admin Panel", "/dashboard/admin"),
        MenuItem("Quản lý người dùng", "/admin/users"),
        MenuItem("Quản lý dịch vụ", "/admin/services"),
        MenuItem("Báo cáo hệ thống", "/admin/reports")]
  }

  /**
   * A user's first entry leads to the same dashboard as `getDashboardPath`,
   * and a user's four entries lead to four different places.
   */
  lemma RoleMenuItemsLeadApart(user: LibAuth.User)
    ensures RoleMenuItems(Some(user))[0].path == DashboardPath(Some(user))
    ensures forall i, j :: 0 <= i < j < 4 ==> RoleMenuItems(Some(user))[i].path != RoleMenuItems(Some(user))[j].path
  {
    var items := RoleMenuItems(Some(user));
    match user.role
    case Traveler =>
      assert items[0].path == "/dashboard/traveler" && items[1].path == "/bookings";
      assert items[2].path == "/favorites" && items[3].path == "/payments";
    case ServiceProvider =>
      assert items[0].path == "/dashboard/provider" && items[1].path == "/provider/services";
      assert items[2].path == "/provider/bookings" && items[3].path == "/provider/analytics";
    case Admin =>
      assert items[0].path == "/dashboard/admin" && items[1].path == "/admin/users";
      assert items[2].path == "/admin/services" && items[3].path == "/admin/reports";
  }

  /** What `UserMenu` shows for the session: without one only the login button. */
  function View(s: LibAuth.AuthState): (v: MenuView)
    ensures !s.isAuthenticated <==> v == LoginButton
    ensures v.Dropdown? ==> v.roleLabel == RoleLabel(s.user) && v.roleItems == RoleMenuItems(s.user)
  {
    if !s.isAuthenticated then LoginButton else Dropdown(RoleLabel(s.user), RoleMenuItems(s.user))
  }

  /**
   * For a session whose flags agree, the dropdown is shown exactly when
   * there is a user, with that user's label and four entries.
   */
  lemma ViewOfConsistentSession(s: LibAuth.AuthState)
    requires AuthContext.Consistent(s)
    ensures View(s).Dropdown? <==> s.user.Some?
    ensures View(s).Dropdown? ==> View(s).roleLabel != "" && |View(s).roleItems| == 4
  {
  }

  /** The menu's own state: whether the login dialog is open, and the router's current path. */
  class UserMenuView {
    var showLoginDialog: bool
    var location: string

    constructor (location: string)
      ensures !showLoginDialog && this.location == location
    {
      showLoginDialog := false;
      this.location := location;
    }

    /** The login button opens the dialog. */
    method OpenLogin()
      modifies this
      ensures showLoginDialog && location == old(location)
    {
      showLoginDialog := true;
    }

    /** Clicking a dropdown entry navigates to its path. */
    method ClickItem(item: MenuItem)
      modifies this
      ensures location == item.path && showLoginDialog == old(showLoginDialog)
    {
      location := item.path;
    }

    /**
     * `handleSignOut()`: the provider's sign-out runs to completion first
     * (it catches its own failures, `throws`), then the router goes home, so
     * navigation happens whether or not the sign-out succeeded.
     */
    method HandleSignOut(auth: AuthContext.AuthProvider, throws: bool)
      modifies this, auth
      ensures throws ==> auth.state == old(auth.state) && auth.storedUser == old(auth.storedUser)
      ensures !throws ==> auth.state == AuthContext.SignedOut() && auth.storedUser.None?
      ensures location == "/" && showLoginDialog == old(showLoginDialog)
    {
      auth.HandleSignOut(throws);
      location := "/";
    }
  }
}

=== FILE: wrappers.dfy ===
/** Optional values: the model's stand-in for JavaScript's `null`/`undefined`. */
module Wrappers {

  datatype Option<+T> = None | Some(value: T) {

    /** The value, or `default` when absent (JavaScript's `x || default` on objects). */
    function GetOr(default: T): T {
      match this
      case Some(v) => v
      case None => default
    }
  }
}
